=== FILE: README.md ===
# Open Instrument Engineering: a Dafny model of the engineering-data rules

Open Instrument Engineering keeps instrument data for process-plant projects. It is a multi-tenant Django back end with a React front end. This project models its rules as pure functions over immutable datatypes and proves properties about them. Database tables are id-keyed maps.

The modules follow the program's components:

- `Hierarchy` (`hierarchy.dfy`) covers `PlantHierarchy`.
  - Nodes are PLANT, AREA or UNIT, under the fixed rule PLANT → AREA → UNIT.
  - The rule is re-checked on every save, and `(parent, code)` is unique.
  - `full_path` and the cascading delete are modelled.
  - So are the `tree` and `units` views.
  - The tree library's refusal to move a node under its own descendant is modelled.
- `Engineering` (`engineering.dfy`) covers loops, instrument types and tags.
  - Their `clean`/`save` logic is modelled, together with the tag revision counter and the filling of an empty spec from the type's defaults.
  - So are the unique constraints, `full_tag`, and the on-delete behaviour: CASCADE, PROTECT and SET_NULL.
- `SpecValidator` (`spec_validator.dfy`) covers `InstrumentType.validate_spec_data`.
  - It models the slice of the JSON Schema library that the instrument-type templates use: `type`, `enum`, `required`, `properties` and boolean schemas.
  - For `properties` that slice is section 10.3.2.1 of JSON Schema Core draft 2020-12. For the other keywords it is sections 6.1.1, 6.1.2 and 6.5.3 of JSON Schema Validation draft 2020-12.
  - It also models the library's schema check and its "best match" error choice.
  - `Json` (`json.dfy`) is the decoded JSON value, with Python truthiness and Python's `repr`.
- `TagApi` (`tag_api.dfy`) covers the REST layer over tags and loops.
  - It models the serializer checks, which merge request values with the stored tag.
  - It models the `bulk_update`, `search` and `by_unit` actions.
- `Conventions` (`conventions.dfy`) covers naming conventions and `set_default`.
- `Tenants` (`tenants.dfy`) covers project tenants.
  - It models schema-name derivation and the project-number checks.
  - It models the create flow, organization-scoped visibility and `current`.
- `TenantRouting` (`tenant_routing.dfy`) covers the middleware.
  - It picks the public schema or a tenant schema from the request path and the `X-Project-ID` header.
  - It computes the projects offered to a user.
- `Administration` (`administration.dfy`) covers the shared records.
  - It models role levels, `has_permission`, the composite unique constraints and the project lookups.
- `AdminApi` (`admin_api.dfy`) covers the administration REST layer.
  - It models display names, the user-creation password checks and the system-role delete guard.
  - It models user activation and adding and removing task-force members.
- `HierarchySelection` (`hierarchy_selection.dfy`) covers the front end's cascading selector.
  - The selector picks project, client, site and plant.
  - It models the clearing effects, the auto-selection after loads, and `currentPath`.
- `Strings` and `Wrappers` are shared helpers: text functions, `strip`, decimal `int()` parsing and printing, and `Option`/`Result`.

Creation functions take the new primary key as a parameter, because the database allocates keys. Upper and lower case and digits are the ASCII ones. Whitespace is Python's whole `str.isspace` set, which `strip` and `int()` both use.

## Model

| member | source | states |
|---|---|---|
| Hierarchy.NodeErrors | backend/apps/core_engineering/models.py:75-100 | Validation reports no error exactly when two things hold. First, a parentless node is a PLANT, or the parent exists and the child kind is allowed under it (AREA under PLANT, UNIT under AREA). Second, no sibling already uses the code. |
| Hierarchy.SaveNodeAsWritten | backend/apps/core_engineering/models.py:102-104 | The save as written: `full_clean` on the node alone, then the tree library's move check. It succeeds exactly when the node has no validation error and is not moved under itself or a descendant. A node with validation errors is refused with exactly those errors, and a valid node moved under its own subtree with `InvalidMove`. An accepted save stores exactly the submitted node, with a valid parent and a code free among its siblings. |
| Hierarchy.SaveNode | backend/apps/core_engineering/models.py:75-104 | The corrected save (see Findings). An accepted save stores exactly the submitted node, which has a valid parent, and every existing child of it is still allowed under its new kind. A node whose children its new kind would strand is refused with `StrandsChildren` after its own errors. |
| Hierarchy.SaveNodeExact | backend/apps/core_engineering/models.py:65-104 | On a valid hierarchy, the corrected save succeeds exactly when the resulting table satisfies the parent rule and sibling-code uniqueness everywhere. |
| Hierarchy.SaveNodePreservesValid | backend/apps/core_engineering/models.py:75-104 | An accepted corrected save keeps the whole hierarchy valid. |
| Hierarchy.NoMoveUnderDescendant | backend/apps/core_engineering/models.py:102-104 | A save never re-parents a node under itself or under one of its descendants. |
| Hierarchy.SaveNodeRefinesAsWritten | backend/apps/core_engineering/models.py:102-104 | Whatever the corrected save accepts, the save as written accepts too, with the same result. |
| Hierarchy.AsWrittenStrandsChildren | backend/apps/core_engineering/models.py:75-104 | The save as written turns a plant that has an area into an area under another plant. The result breaks the hierarchy rule, and the corrected save refuses it. |
| Hierarchy.ValidPath | backend/apps/core_engineering/models.py:29-57 | In a valid hierarchy, the root-to-node path has length level + 1. It is the parent's path plus the node, and the node at position i has level i. |
| Hierarchy.DepthAtMostThree | backend/apps/core_engineering/models.py:75-100 | In a valid hierarchy every path has one to three nodes and starts at a parentless PLANT. |
| Hierarchy.FullPathExtendsParent | backend/apps/core_engineering/models.py:106-110 | A root's full path is its code. A child's full path is its parent's full path, then " / ", then its code. |
| Hierarchy.RemoveSubtree | backend/apps/core_engineering/models.py:42-49 | A cascading delete removes exactly the nodes of the subtree and keeps every other node unchanged. |
| Hierarchy.RemoveSubtreePreservesValid | backend/apps/core_engineering/models.py:42-49 | Removing a subtree leaves a valid hierarchy valid. |
| Hierarchy.ActiveRoots | backend/apps/core_engineering/views.py:57-62 | The tree view starts from exactly the active parentless nodes. |
| Hierarchy.ActiveUnits | backend/apps/core_engineering/views.py:68-75 | The units view lists exactly the active UNIT nodes. |
| Hierarchy.ViewsInValidTree | backend/apps/core_engineering/views.py:57-75 | In a valid hierarchy every listed root is a PLANT, and every listed unit sits three levels down. |
| Engineering.SaveLoop | backend/apps/core_engineering/models.py:131-135 | A loop save succeeds exactly when the unit is a UNIT node and no other loop has the loop tag. It then writes only that loop. A failed save reports each violated rule. |
| Engineering.SaveLoopPreservesConsistent | backend/apps/core_engineering/models.py:146-180 | A loop save keeps the store consistent, provided the tags in the loop already sit on its unit. |
| Engineering.SaveLoopCanSplitItsTags | backend/apps/core_engineering/models.py:170-180 | An example store: because a loop save does not look at the loop's tags, moving its loop to another unit is accepted, leaves the tag on the old unit, and makes the store inconsistent. |
| Engineering.SaveInstrumentType | backend/apps/core_engineering/models.py:204-208 | An instrument-type save succeeds exactly when no other type has the code. |
| Engineering.SaveInstrumentTypePreservesConsistent | backend/apps/core_engineering/models.py:204-208 | An accepted instrument-type save keeps the store consistent. |
| Engineering.FilledSpec | backend/apps/core_engineering/models.py:374-376 | A non-empty spec is kept. An empty spec is replaced by the instrument type's defaults when they are a dict or a list. Otherwise `copy()` does not exist and the save raises, exactly when the spec is empty and the defaults are neither. A stored spec is the request's non-empty one or a dict or list. |
| Engineering.TagErrors | backend/apps/core_engineering/models.py:339-367 | When a non-empty spec meets a template that the library's draft lookup refuses, `clean` raises. That is a truthy number, or a string or list holding "$schema". The raise is then the only outcome. Otherwise every violated rule is reported, each if and only if it is violated: the unit is not a UNIT; the loop is on another unit; a non-empty spec fails the template ("Spec data validation failed: " plus the messages joined by "; "); the tag number is taken on the unit. The last check is skipped when the unit is in error. |
| Engineering.SaveTag | backend/apps/core_engineering/models.py:369-379 | A save raises exactly when the defaults cannot be copied, and that is checked before any validation. It also raises exactly when the filled-in spec meets a template the draft lookup refuses. An accepted save stores the filled-in tag. The tag then sits on a UNIT, any loop shares that unit, the type exists, the tag number is free on the unit, and a non-empty spec passes the template. A refused save stores nothing and reports at least one error. |
| Engineering.SaveTagExact | backend/apps/core_engineering/models.py:339-379 | When the references exist, a save succeeds exactly when all three hold: the defaults copy, the filled-in spec does not make the library raise, and the tag with that spec satisfies every tag rule. |
| Engineering.SaveTagPreservesConsistent | backend/apps/core_engineering/models.py:329-379 | An accepted tag save keeps the store consistent, including unique tag numbers per unit. |
| Engineering.CreateTag | backend/apps/core_engineering/models.py:320-379 | A reference to a missing unit, loop or type is refused. Otherwise a create is accepted exactly when three things hold: the defaults copy, the filled-in spec does not make the template lookup raise, and the tag rules hold (the unit is a UNIT, the loop is on it, a non-empty spec passes the template, the number is free on the unit). A newly created tag has revision 1. |
| Engineering.UpdateTag | backend/apps/core_engineering/models.py:339-379 | Updating a tag that does not exist is not found. For an existing tag, a missing reference is refused, and otherwise the update is accepted exactly under the same three conditions as a create. An accepted update stores the old revision plus one. |
| Engineering.ResaveAccepted | backend/apps/core_engineering/models.py:339-379 | On a consistent store, saving a tag again with its fields unchanged is accepted and stores the old revision plus one, provided its spec still passes its type's current defaults and template. |
| Engineering.CreateThenResave | backend/apps/core_engineering/models.py:320-379 | A tag that was just created, saved again unchanged, is accepted and reaches revision 2. |
| Engineering.RevisionCountsSaves | backend/apps/core_engineering/models.py:369-372 | After n accepted saves of an existing tag, its revision has gone up by exactly n. |
| Engineering.FullTagSegments | backend/apps/core_engineering/models.py:381-384 | On a consistent store, a tag's full identifier is the plant, area and unit codes and then the tag number, joined by " / ". |
| Engineering.DeleteNode | backend/apps/core_engineering/models.py:42-49 | Deleting a node is refused when a loop or tag sits anywhere in its subtree. Otherwise it removes the whole subtree. |
| Engineering.DeleteNodePreservesConsistent | backend/apps/core_engineering/models.py:146-152 | An accepted node delete keeps the store consistent. |
| Engineering.DeleteLoop | backend/apps/core_engineering/models.py:284-291 | Deleting a loop removes it and clears `loop` on exactly its tags. Nothing else changes. |
| Engineering.DeleteLoopPreservesConsistent | backend/apps/core_engineering/models.py:284-291 | A loop delete keeps the store consistent. |
| Engineering.DeleteInstrumentType | backend/apps/core_engineering/models.py:292-297 | Deleting an instrument type is refused exactly when some tag uses it. |
| Engineering.DeleteInstrumentTypePreservesConsistent | backend/apps/core_engineering/models.py:292-297 | An accepted type delete keeps the store consistent. |
| Engineering.DeleteTag | backend/apps/core_engineering/models.py:266-334 | Deleting a tag removes only its row. |
| Engineering.DeleteTagPreservesConsistent | backend/apps/core_engineering/models.py:266-334 | A tag delete keeps the store consistent. |
| SpecValidator.ValidateSpecData | backend/apps/core_engineering/models.py:243-257 | The corrected validation (see Findings). An empty template gives (true, []). A malformed template gives (false, ["Invalid schema: …"]) with the schema check's first problem. Otherwise the document passes exactly when it conforms to the template. There is never more than one message, and a failure's message comes from one of the document's violations. |
| SpecValidator.ValidateSpecDataAsWritten | backend/apps/core_engineering/models.py:251-257 | The validation as written: a truthy number, or a string or list holding "$schema", makes the library's draft lookup raise a `TypeError`, which the two `except` clauses do not catch. Every object or boolean template gives the corrected result. |
| SpecValidator.NumericTemplateRaises | backend/apps/core_engineering/models.py:251-257 | The template 5 raises as written, while the corrected validation reports "Invalid schema: 5 is not of type 'object', 'boolean'". |
| SpecValidator.NonSchemaTemplateReported | backend/apps/core_engineering/models.py:256-257 | Every truthy template that is not a schema fails with one message starting "Invalid schema: ", whatever the document. |
| SpecValidator.SchemaCheckCharacterizes | backend/apps/core_engineering/models.py:251-257 | The schema check finds no problem exactly when the template is a schema: `true`, `false`, or an object whose first `properties` member maps every name to a schema and whose `type`, `enum` and `required` are well formed. |
| SpecValidator.RequiredCheck | backend/apps/core_engineering/models.py:251-257 | `required` is accepted exactly when it is a list of distinct strings. Otherwise the problem is, in this order, not a list, the first non-string item, or repeated items. |
| SpecValidator.PropertiesProblemFirst | backend/apps/core_engineering/models.py:256-257 | The metaschema's order decides which problem is reported: a non-object `properties` is reported before a bad `type`. |
| SpecValidator.TypeProblemBeforeRequired | backend/apps/core_engineering/models.py:256-257 | A bad `type` is reported before a bad `required`, whatever their order in the template. |
| SpecValidator.ViolationsCharacterizeConformance | backend/apps/core_engineering/models.py:251-253 | The violation collector finds nothing exactly when the document conforms. Conformance is a recursive definition of the four keywords, stated independently of the collector. |
| SpecValidator.BestMatch | backend/apps/core_engineering/models.py:254-255 | The reported violation is the first one at the shallowest document path. |
| SpecValidator.MissingRequiredFieldFails | backend/apps/core_engineering/models.py:243-257 | A document without a field that a well-formed template requires fails validation. |
| SpecValidator.FalseTemplateAcceptsEverything | backend/apps/core_engineering/models.py:248-249 | A `false` template is falsy, so it is never passed to the library and every document passes. |
| SpecValidator.FlowTransmitterTemplateIsSchema | backend/apps/core_engineering/management/commands/seed_demo_data.py:72-83 | The flow-transmitter template of the demo data is a well-formed schema. |
| SpecValidator.FlowTransmitterDefaultsConform | backend/apps/core_engineering/management/commands/seed_demo_data.py:84-97 | The demo flow-transmitter type's default spec passes validation against its own template with no message. |
| TagApi.ValidateTagUnit | backend/apps/core_engineering/serializers.py:249-255 | A tag's unit is accepted exactly when it is a UNIT. Otherwise the error is "Tag must be assigned to a UNIT, not a PLANT or AREA." |
| TagApi.ValidateLoopUnit | backend/apps/core_engineering/serializers.py:167-173 | A loop's unit is accepted exactly when it is a UNIT. Otherwise the error is the loop message. |
| TagApi.Merge | backend/apps/core_engineering/serializers.py:259-264 | Each field comes from the request when present, otherwise from the stored tag. The spec defaults to {} when there is neither. |
| TagApi.ValidateTag | backend/apps/core_engineering/serializers.py:257-284 | The request is accepted exactly when three things hold: the merged loop shares the merged unit, the template lookup does not raise, and a non-empty merged spec passes the template. A mismatch is reported under `loop` before anything else. A non-empty spec under a template the draft lookup refuses (a truthy number, or a string or list holding "$schema") raises. A spec failure is reported under `spec_data` as "Validation failed: " plus the messages joined by "; ". Accepted attributes pass through unchanged. |
| TagApi.SerializerAgreesWithModel | backend/apps/core_engineering/serializers.py:257-284 | When the serializer accepts an update with a non-empty spec, the model keeps that spec and does not raise. Its own validation reports neither the loop error nor the spec error. |
| TagApi.RequestCannotSetRevision | backend/apps/core_engineering/serializers.py:247 | A consequence of `Engineering.UpdateTag`'s contract for the request path: since `revision` is read-only, two accepted updates of a tag store the same revision, the old one plus one, whatever they carry. |
| TagApi.BulkUpdate | backend/apps/core_engineering/views.py:202-223 | A request with neither status nor loop is refused, and so is a loop id that names no loop. Otherwise the request is accepted. Only the supplied fields change, only on the listed tags, and revisions stay as they were. The count is the number of listed tags that exist. |
| TagApi.BulkStatusUpdatePreservesConsistent | backend/apps/core_engineering/views.py:211-222 | A status-only bulk update keeps a consistent store consistent. |
| TagApi.BulkLoopUpdateSkipsChecks | backend/apps/core_engineering/views.py:222 | A bulk update can move a tag into a loop of another unit, because it bypasses the tag save. |
| TagApi.Search | backend/apps/core_engineering/views.py:232-247 | An empty query is refused. Otherwise the result is the first 50 matching tags, in queryset order. A tag matches when its number, service, description or loop tag contains the query, ignoring case. |
| TagApi.SearchKeepsSmallest | backend/apps/core_engineering/views.py:239-244 | When a matching tag is left out, the result is full and every returned tag number sorts no later than the one left out. |
| TagApi.ByUnit | backend/apps/core_engineering/views.py:256-270 | A request is refused as missing exactly when `unit_id` is absent or empty, and fails the lookup exactly when it is non-numeric text. Otherwise it is accepted, and the result is exactly the tags on that unit. |
| TagApi.ByUnitOfId | backend/apps/core_engineering/views.py:256-270 | Asking with the decimal text of a unit id returns exactly that unit's tags. |
| Conventions.SetDefault | backend/apps/core_engineering/views.py:323-331 | An unknown id is not found. Otherwise exactly the chosen convention is the default afterwards, and no other field of any convention changes. |
| Conventions.SetDefaultUnique | backend/apps/core_engineering/views.py:326-330 | The result is the only table that agrees with the input except for the flags and has the chosen id as its single default. |
| Conventions.SetDefaultLastWins | backend/apps/core_engineering/views.py:323-331 | Setting default a and then b gives the same table as setting b alone. |
| Conventions.SetDefaultIdempotent | backend/apps/core_engineering/views.py:323-331 | Setting the same default twice is the same as setting it once. |
| Tenants.SchemaChar | backend/apps/tenants/models.py:91 | A derived character is never '-', ' ' or an upper-case letter, and it is a digit exactly when the original is. |
| Tenants.DeriveSchemaName | backend/apps/tenants/models.py:87-95 | An empty project number fails. Otherwise the name is the lower-cased number with '-' and ' ' turned into '_'. It gets a "prj_" prefix exactly when it would start with a digit. So it never starts with a digit, and its length is the number's length or that plus 4. |
| Tenants.DeriveSchemaNameIdempotent | backend/apps/tenants/models.py:91-95 | Deriving a name from a derived name gives the same name. |
| Tenants.DeriveSchemaNameNotInjective | backend/apps/tenants/models.py:91-95 | "A-1" and "a_1" derive the same name, and so do "1" and "prj_1". |
| Tenants.SaveTenant | backend/apps/tenants/models.py:76-96 | A schema name already set is kept, and otherwise the name is derived from the project number. The save fails as empty exactly when both are empty. It is refused when another tenant holds the project number, or else the schema name (both columns are unique). For a new tenant, it is refused when the name is not a valid schema name. It succeeds exactly when none of these apply. Only that tenant's row changes. |
| Tenants.SaveTenantPreservesUniqueSchemas | backend/apps/tenants/models.py:87-96 | An accepted save keeps schema names unique across tenants. |
| Tenants.NewTenantSchemaValid | backend/apps/tenants/models.py:76-96 | Every new tenant a save admits has a valid schema name: one to 63 characters of `[_a-zA-Z0-9]` (one trailing newline allowed), with no `pg_` prefix in any case. The tenant library's `is_valid_schema_name` is not part of this model, and `Tenants.ValidSchemaName` states its rule. |
| Tenants.DottedProjectNoRefused | backend/apps/tenants/models.py:87-96 | Project number "P.1" derives "p.1", and the new tenant is refused for an invalid schema name. |
| Tenants.ReservedPrefixRefused | backend/apps/tenants/models.py:87-96 | Project number "PG-1" derives the reserved name "pg_1", and the new tenant is refused. |
| Tenants.NumericProjectNoAccepted | backend/apps/tenants/models.py:87-96 | Project number "1" derives "prj_1", and the new tenant is accepted. |
| Tenants.SchemaNameSticky | backend/apps/tenants/models.py:89 | After a tenant has been saved once, saving it again with another project number keeps its schema name. |
| Tenants.ValidateProjectNo | backend/apps/tenants/serializers.py:41-44 | A project number already in use is refused with "Project number already exists.". An unused one is returned unchanged. |
| Tenants.ProjectNoErrors | backend/apps/tenants/models.py:34-38 | `project_no` is stripped first. A blank number gives only "This field may not be blank.". Otherwise the unique-field message is reported exactly when a tenant holds the number, and the length message exactly when it is over 50 characters. No error is reported exactly when the stripped number is non-blank, at most 50 characters and free. `validate_project_no`'s own message never appears. |
| Tenants.DuplicateReportedByUniqueField | backend/apps/tenants/serializers.py:41-44 | A create with a number already in use is refused under `project_no` with "Project Tenant with this project no already exists.", never with "Project number already exists.". |
| Tenants.ValidatedProjectNoSaves | backend/apps/tenants/serializers.py:41-44 | A new tenant whose number `validate_project_no` accepts never trips the unique `project_no` column. Its save succeeds exactly when the derived schema name is free and valid. |
| Tenants.PerformCreate | backend/apps/tenants/views.py:48-55 | The create with `organization_id` optional, as the view intends (see Findings). Number errors are reported exactly when there are any. Otherwise the create is refused for a missing organization exactly when neither the request nor the user gives one. It fails in the save exactly when the derived schema name is taken or invalid. It succeeds exactly when none of these apply. A stored tenant has the stripped number, name and description. A supplied organization is kept, and a missing one is taken from the requesting user. The schema name is derived from the stripped number. Only the new row is added. |
| Tenants.PerformCreateAsWritten | backend/apps/tenants/views.py:48-55 | The create as declared: a request without `organization_id` fails with "This field is required." under that field, next to any number errors. A request with one behaves as the corrected create. |
| Tenants.OrganizationFillInUnreachable | backend/apps/tenants/views.py:50-52 | For a valid number and no organization in the request, the create as declared is refused. The corrected create succeeds exactly when the derived schema name is usable, and then it stores the user's organization. |
| Tenants.VisibleTenants | backend/apps/tenants/views.py:32-41 | A superuser sees every tenant. A user with an organization sees exactly that organization's tenants, and any other user sees none. |
| Tenants.OrganizationName | backend/apps/tenants/serializers.py:24-27 | The result is the name of the organization with the tenant's id, or nothing when no organization has that id. |
| Tenants.VisibleTenantNamesOwnOrganization | backend/apps/tenants/views.py:32-41 | A project a user who is not a superuser can see belongs to that user's organization. Its organization name is that organization's name, or nothing when no organization has the id. |
| Tenants.Current | backend/apps/tenants/views.py:71-82 | The result is the request's tenant. When there is none, the project is null with the message "No project selected (using public schema)". |
| TenantRouting.Resolve | backend/apps/tenants/middleware.py:30-58 | Admin and token paths, and requests with an absent or empty header, use the public schema. A header holding the id of an existing tenant selects that tenant. An unknown numeric id is a not-found response carrying the header. Anything else fails. |
| TenantRouting.ResolveById | backend/apps/tenants/middleware.py:38-44 | A header with the decimal id of an existing tenant selects exactly that tenant. |
| TenantRouting.PaddedIdResolves | backend/apps/tenants/middleware.py:38-44 | `int()` ignores Unicode whitespace: a header of a no-break space, "7" and a newline selects tenant 7. |
| TenantRouting.CurrentProject | backend/apps/tenants/middleware.py:75 | `current_project` is set exactly when a tenant was resolved, and it is that tenant. |
| TenantRouting.CurrentShowsNamedProject | backend/apps/tenants/views.py:71-82 | A request whose header holds the decimal id of an existing tenant, on a routed path, is answered by `current` with that tenant and no message. |
| TenantRouting.CurrentWithoutProject | backend/apps/tenants/views.py:71-82 | Admin and token paths, and requests with an absent or empty header, are exactly the requests routed to the public schema. For them, `current` answers with no project and "No project selected (using public schema)". |
| TenantRouting.AvailableProjects | backend/apps/tenants/middleware.py:77-88 | A signed-in user with an organization is offered exactly that organization's tenants. Everyone else is offered none. |
| TenantRouting.AvailableMatchesListing | backend/apps/tenants/middleware.py:77-88 | For a signed-in user who is not a superuser, the projects the middleware offers are exactly the projects the tenant listing shows. |
| Administration.EntryAllows | backend/apps/administration/models.py:211-212 | Python's `in` on a permission entry: list membership for a list, substring for a string, key presence for a dict. Any other value raises. |
| Administration.HasPermission | backend/apps/administration/models.py:202-212 | With no role, nothing is granted. An ADMINISTRATOR is granted everything. Otherwise the action must be in the model's entry, and a missing entry grants nothing. A matrix that is not a dict raises. |
| Administration.ListedActionGranted | backend/apps/administration/models.py:202-212 | For a role below ADMINISTRATOR whose matrix lists actions for a model, an action is granted on that model exactly when it is listed. |
| Administration.StarIsNotWildcard | backend/apps/administration/models.py:211-212 | A non-administrator whose matrix has no entry for the model is refused, whatever a "*" entry holds. |
| Administration.StringEntryGrantsSubstrings | backend/apps/administration/models.py:211-212 | An example: an entry written as the string "read" grants the action "ead", because `in` on a string tests for a substring. |
| Administration.SaveUnique | backend/apps/administration/models.py:130-135 | A write under a composite unique constraint is refused exactly when another row holds the key. Otherwise only that row changes. |
| Administration.SaveUniquePreserves | backend/apps/administration/models.py:246-251 | An accepted write keeps the table free of duplicate keys. This covers roles, project memberships, task forces and task-force memberships. |
| Administration.ProjectOf | backend/apps/administration/models.py:256-260 | A membership's project is the tenant with its id, or nothing when no tenant has that id. |
| Administration.AuditLogProject | backend/apps/administration/models.py:459-465 | An audit entry's project is nothing when the id is unset or 0. Otherwise it is the tenant with that id, if any. |
| Administration.AuditLogProjectAgrees | backend/apps/administration/models.py:256-260 | Where no tenant has id 0, the audit log's project lookup and the memberships' lookup agree on every set id. |
| AdminApi.DisplayName | backend/apps/administration/serializers.py:99-100 | The display name is the stripped full name, or the username when that is empty. |
| AdminApi.DisplayNameFallsBack | backend/apps/administration/serializers.py:113-114 | The username shows exactly when the first and last names are both blank. |
| AdminApi.PasswordFieldErrors | backend/apps/administration/serializers.py:120-121 | The password fields pass exactly when the stripped password has at least 8 characters and the stripped confirmation is non-blank. |
| AdminApi.ValidateUserCreate | backend/apps/administration/serializers.py:115-136 | A create is accepted exactly when the stripped password has at least 8 characters and equals the stripped confirmation. After the field checks pass, a mismatch is reported under `password_confirm`. The validated attributes have no confirmation field. The username, email, first name and last name are stripped, and the organization and role pass through. |
| AdminApi.CreateUser | backend/apps/administration/serializers.py:138-143 | The new user stores only the hash of the password and is active. Every other user is unchanged. |
| AdminApi.CreatedUserHashesConfirmedPassword | backend/apps/administration/serializers.py:115-143 | A created user's stored hash is the hash of the confirmation password less surrounding whitespace, which validation made equal to the password. |
| AdminApi.DestroyRole | backend/apps/administration/views.py:77-84 | A system role is never deleted. Any other role is deleted unless a project membership uses it, and users holding it lose it. |
| AdminApi.SystemRoleSurvives | backend/apps/administration/views.py:77-84 | Deleting a system role is always refused, for every system role in the directory. |
| AdminApi.SetActive | backend/apps/administration/views.py:111-125 | Activate and deactivate set `is_active` and change nothing else. An unknown user is not found. |
| AdminApi.DeactivateActivate | backend/apps/administration/views.py:111-125 | Deactivating and then activating an active user restores the table. |
| AdminApi.AddMember | backend/apps/administration/views.py:156-190 | Each outcome holds exactly under its own condition. An unknown task force is not found. A missing or falsy `user_id` is refused. An id that is not a primary key fails the lookup. An unknown user is not found. An existing (user, task force) pair is refused. Otherwise exactly one membership is added, with role "member" unless one is given. |
| AdminApi.AddMemberPreservesConstrained | backend/apps/administration/models.py:349-354 | Adding a member keeps every composite key unique. |
| AdminApi.RemoveMember | backend/apps/administration/views.py:192-215 | Each outcome holds exactly under its own condition. An unknown task force is not found. A missing or falsy `user_id` is refused. An id that is not a primary key fails the lookup. Removing nothing is not found. Otherwise exactly the user's memberships in the task force are removed. |
| AdminApi.AddThenRemove | backend/apps/administration/views.py:156-215 | Removing a member just added restores the directory. |
| HierarchySelection.SelectProject | frontend/src/components/hierarchy/HierarchyContext.tsx:141-146 | Choosing a project sets it, clears client, site and plant, and keeps the lists. |
| HierarchySelection.SelectClient | frontend/src/components/hierarchy/HierarchyContext.tsx:148-152 | Choosing a client keeps the project, sets the client, and clears site and plant. |
| HierarchySelection.SelectSite | frontend/src/components/hierarchy/HierarchyContext.tsx:154-157 | Choosing a site keeps project and client, sets the site, and clears the plant. |
| HierarchySelection.SelectPlant | frontend/src/components/hierarchy/HierarchyContext.tsx:159-161 | Choosing a plant keeps project, client and site, sets the plant, and keeps the lists. |
| HierarchySelection.Settle | frontend/src/components/hierarchy/HierarchyContext.tsx:56-84 | After the effects run, every empty selection has an empty child list and an empty selection below it. The project and the project list are kept. A level's selection and child list survive exactly when the level above it is still selected. |
| HierarchySelection.ClearProjectClearsAll | frontend/src/components/hierarchy/HierarchyContext.tsx:56-84 | Clearing the project and letting the effects run clears every level and every child list. |
| HierarchySelection.LoadProjects | frontend/src/components/hierarchy/HierarchyContext.tsx:86-100 | Loading projects stores the list. It selects the first project only when none is selected, and nothing else changes. |
| HierarchySelection.ReloadKeepsChoice | frontend/src/components/hierarchy/HierarchyContext.tsx:86-100 | Reloading the projects never replaces a project the user already chose. |
| HierarchySelection.LoadClients | frontend/src/components/hierarchy/HierarchyContext.tsx:102-113 | Loading clients stores the list and selects the first whenever the list is non-empty. |
| HierarchySelection.LoadSites | frontend/src/components/hierarchy/HierarchyContext.tsx:115-126 | Loading sites stores the list and selects the first whenever the list is non-empty. |
| HierarchySelection.LoadPlants | frontend/src/components/hierarchy/HierarchyContext.tsx:128-139 | Loading plants stores the list and selects the first whenever the list is non-empty. |
| HierarchySelection.FirstLoadSelectsFirsts | frontend/src/components/hierarchy/HierarchyContext.tsx:86-139 | From the initial state, loading non-empty lists level by level selects the first entry of each. |
| HierarchySelection.CurrentPath | frontend/src/components/hierarchy/HierarchyContext.tsx:167-173 | The path is never empty. It is the non-empty codes, in order, joined by " / ", or "Select Project" when there are none. |
| HierarchySelection.PathAfterSelectProject | frontend/src/components/hierarchy/HierarchyContext.tsx:141-173 | Right after a project is chosen, the path is its code alone, or "Select Project" when the code is empty. |
| HierarchySelection.PathAfterSelectPlant | frontend/src/components/hierarchy/HierarchyContext.tsx:159-173 | Choosing a plant with a code extends a non-empty path by " / " and that code. |

## Left out

- The database, its schemas and the ORM are not modelled: tables are maps, and schema creation and dropping are I/O.
- The connection's current schema is not modelled, including the `switch` action, because it is global state. Resolution returns a value instead.
- The tree library's nested-set indices and ordering are not modelled. Ancestry is computed by walking parent links.
- Concurrency is not modelled, including racing `set_default` calls and racing revision increments.
- Password hashing is a parameter (`hash`), because it is a foreign call.
- JWT authentication, timestamps, `start_date`/`end_date` and `hierarchy_config` are carried nowhere, because none of them takes part in a rule.
- HTTP status codes, filter, search and pagination backends, URL routing, settings, admin classes and the health check are left out. Responses are result variants.
- The seed commands are left out, because they are I/O. Their flow-transmitter template is used as a fixture.
- React rendering, local storage and the fetches are left out. Fetch results arrive as `Load*` events.
- Unicode case and digits are left out: `lower` and the digits `int()` accepts are ASCII only. Whitespace is Python's full set.
- Django's per-field checks are left out except on `project_no`: `max_length`, blank values and choice lists elsewhere are not checked. Text fields are stored stripped where the model writes them. A reference to a missing row is one error variant (`UnknownReference`, `UnknownUnit`).
- Tenants.PerformCreate: of the create's fields, only `project_no` and `organization_id` report errors. A blank `name` or an unknown `status` is not refused.
- The JSON Schema library beyond `type`, `enum`, `required`, `properties` and boolean schemas is left out. Every other keyword is ignored.
- SpecValidator.ProblemMessage: the texts follow the library's messages, but `repr` of a string does not escape quotes or other special characters.
- SpecValidator.SchemaCheck: a `"$schema"` member of an object template, which makes the library check against another draft's metaschema, is not modelled. Every template is checked against draft 2020-12. The library reaches the sub-schemas of `properties` through the metaschema's `additionalProperties`, which walks the names as a Python set. So when several sub-schemas are malformed, which one is reported depends on the process's string hashing and is not fixed. The model reports the first in the template's order.
- SpecValidator.BestMatch: it ranks by depth only and keeps the first among equally shallow errors, as jsonschema 4 releases before the relevance change do. Newer releases also compare the error's path and whether the instance matches the subschema's type, and they may pick another message.
- Json.Get: a lookup reads the first member with the key. A decoded dict never repeats a key (`json.loads` keeps the last of duplicates), so an object with a repeated key stands for no value the program sees.
- Numbers are integers: JSON floats are not modelled.
- TenantRouting.Resolve: a failure carries no text, because the text is the raised exception's.
- Tenants.SaveTenant: the tenant library's mixin, which is not part of this model, also refuses to create a tenant while the connection is set to a tenant schema. The connection's schema is not modelled. When both unique columns clash, the model reports the project number; which constraint the database names first is not modelled.
- Tenants.ValidatedProjectNoSaves: it no longer promises that the save succeeds. A validated number can still derive a schema name that is taken or invalid.
- Username uniqueness is not modelled, because it comes from Django's `AbstractUser`, which is not part of this model.
- TagApi.Search: `order` stands for the queryset's order. Tag numbers are compared by code point, not by the database collation.
- NamingConvention's `regex_pattern`, `segment_definitions` and `example_tags` are carried as opaque values. No code compiles the pattern.
- The audit log has no write path in the REST layer, because every field of its serializer is read-only. It appears only as `Administration.AuditLogProject`.
- A hierarchy node's `level` is computed by `Hierarchy.Level` and `Hierarchy.Path` rather than stored, since it is read-only in the REST layer.
- Engineering.TagErrors: the loop error is a variant without its text, because the model-level message prints the unit objects. The serializer's message is modelled in `TagApi.ValidateTag`.
- AdminApi.AddMember: a `role` given as JSON null is not modelled, because the role column is not nullable.
- Hierarchy.SaveNode: loops and tags on a node are not re-checked when the node's kind changes, as in the source. A UNIT saved as an AREA keeps its loops and tags, so `Engineering.Consistent` is not preserved by a hierarchy save.

## Findings

| source | as written | input that shows it | evidently intended | confidence | as-written member | corrected member |
|---|---|---|---|---|---|---|
| backend/apps/core_engineering/models.py:75-104 | `clean` checks only the node being saved. Changing a node's kind or parent never re-checks its existing children. | Take two plants, 1 and 3, where plant 1 has an area 2. Save node 1 as an AREA under plant 3. The save succeeds, and area 2 now sits under an AREA. | Every save keeps the PLANT → AREA → UNIT rule for the whole hierarchy, so every node keeps a valid parent. | medium, not executed | Hierarchy.AsWrittenStrandsChildren | Hierarchy.SaveNodeExact |
| backend/apps/core_engineering/models.py:251-257 | Only `ValidationError` and `SchemaError` are caught. The library's draft lookup runs `"$schema" in schema` before any check, so a number template raises `TypeError`, and so does a string or list template holding "$schema". | The template 5 (a type's `schema_template` set to a JSON number) with any spec. | A malformed template is reported as "Invalid schema: …" like any other, as the `SchemaError` branch intends. | medium, not executed | SpecValidator.NumericTemplateRaises | SpecValidator.NonSchemaTemplateReported |
| backend/apps/tenants/views.py:50-52 | The create serializer builds `organization_id` from a column with no default, so the field is required. A request without it fails validation, and the fill-in from the user never runs. | A create request with a free project number and no `organization_id`, from a user whose organization is 3. | A request may leave out the organization and get the user's, as the fill-in and its comment say. | medium, not executed | Tenants.OrganizationFillInUnreachable | Tenants.PerformCreate |

Where the documented behaviour and the code differ, the model follows the code:

- `validate_spec_data` returns at most one message (the library's best match), not every violation.
- A tag's status is free: no transition rules are enforced, and a "deleted" tag can still be saved.

=== FILE: admin_api.dfy ===
/**
  The REST layer over the administration records: how users are named and
  created, the guard on deleting roles, user activation, and adding and
  removing task-force members.
*/
module AdminApi {
  import opened Wrappers
  import opened Json
  import Strings
  import A = Administration

  // ---------------------------------------------------------------------------
  // Display names
  // ---------------------------------------------------------------------------

  /** Django's `get_full_name`: first and last name separated by a space, stripped. */
  function FullName(u: A.User): string {
    Strings.Strip(u.firstName + " " + u.lastName)
  }

  /** `get_full_name` of the user serializers: the full name, or the username when it is empty. */
  function DisplayName(u: A.User): (r: string)
    ensures FullName(u) != "" ==> r == FullName(u)
    ensures FullName(u) == "" ==> r == u.username
  {
    var full := FullName(u);
    if full != "" then full else u.username
  }

  /** The username shows exactly when both name parts are blank. */
  lemma DisplayNameFallsBack(u: A.User)
    ensures FullName(u) == "" <==> AllSpace(u.firstName) && AllSpace(u.lastName)
  {
    Strings.StripEmptyIff(u.firstName + " " + u.lastName);
    AllSpaceJoined(u.firstName, u.lastName);
  }

  predicate AllSpace(s: string) {
    forall i | 0 <= i < |s| :: Strings.IsSpace(s[i])
  }

  lemma AllSpaceJoined(a: string, b: string)
    ensures AllSpace(a + " " + b) <==> AllSpace(a) && AllSpace(b)
  {
    var joined := a + " " + b;
    if AllSpace(joined) {
      forall i | 0 <= i < |a| ensures Strings.IsSpace(a[i]) {
        assert joined[i] == a[i];
      }
      forall i | 0 <= i < |b| ensures Strings.IsSpace(b[i]) {
        assert joined[|a| + 1 + i] == b[i];
      }
    }
    if AllSpace(a) && AllSpace(b) {
      forall i | 0 <= i < |joined| ensures Strings.IsSpace(joined[i]) {
        if i < |a| {
          assert joined[i] == a[i];
        } else if i > |a| {
          assert joined[i] == b[i - |a| - 1];
        }
      }
    }
  }

  // ---------------------------------------------------------------------------
  // User creation
  // ---------------------------------------------------------------------------

  /** The fields of a create request; the remaining profile fields pass through untouched and are left out. */
  datatype UserInput = UserInput(
    username: string,
    email: string,
    password: string,
    passwordConfirm: string,
    firstName: string,
    lastName: string,
    organization: Option<A.OrganizationId>,
    role: Option<A.RoleId>)

  /** The validated attributes: `password_confirm` is gone. */
  datatype ValidatedUser = ValidatedUser(
    username: string,
    email: string,
    password: string,
    firstName: string,
    lastName: string,
    organization: Option<A.OrganizationId>,
    role: Option<A.RoleId>)

  datatype FieldError = FieldError(field: string, message: string)

  const MinPasswordLength: nat := 8
  const BlankMessage: string := "This field may not be blank."
  const TooShortMessage: string := "Ensure this field has at least 8 characters."
  const MismatchMessage: string := "Passwords do not match."

  /**
    The per-field checks, which run before `validate`: both password fields
    are stripped of surrounding whitespace and may not be blank, and the
    password needs at least eight characters. All failures are reported together.
  */
  function PasswordFieldErrors(input: UserInput): (r: seq<FieldError>)
    ensures r == [] <==> |Strings.Strip(input.password)| >= MinPasswordLength && Strings.Strip(input.passwordConfirm) != ""
    ensures forall i | 0 <= i < |r| :: r[i].field in {"password", "password_confirm"}
  {
    var password := Strings.Strip(input.password);
    var passwordErrors :=
      if password == "" then [FieldError("password", BlankMessage)]
      else if |password| < MinPasswordLength then [FieldError("password", TooShortMessage)]
      else [];
    var confirmErrors := if Strings.Strip(input.passwordConfirm) == "" then [FieldError("password_confirm", BlankMessage)] else [];
    passwordErrors + confirmErrors
  }

  /**
    `UserCreateSerializer` validation: field checks, then the two passwords
    must agree. Every text field is a serializer `CharField` (or
    `EmailField`), which strips surrounding whitespace before `validate` runs.
  */
  function ValidateUserCreate(input: UserInput): (r: Result<ValidatedUser, seq<FieldError>>)
    ensures r.Ok? <==>
              && |Strings.Strip(input.password)| >= MinPasswordLength
              && Strings.Strip(input.password) == Strings.Strip(input.passwordConfirm)
    ensures r.Ok? ==> r.value.password == Strings.Strip(input.password)
    ensures r.Ok? ==> r.value.username == Strings.Strip(input.username) && r.value.email == Strings.Strip(input.email)
                      && r.value.firstName == Strings.Strip(input.firstName)
                      && r.value.lastName == Strings.Strip(input.lastName)
                      && r.value.organization == input.organization && r.value.role == input.role
    ensures r.Err? && PasswordFieldErrors(input) == [] ==> r.error == [FieldError("password_confirm", MismatchMessage)]
    ensures r.Err? && PasswordFieldErrors(input) != [] ==> r.error == PasswordFieldErrors(input)
  {
    var errors := PasswordFieldErrors(input);
    if errors != [] then Err(errors)
    else
      var password := Strings.Strip(input.password);
      if password != Strings.Strip(input.passwordConfirm) then Err([FieldError("password_confirm", MismatchMessage)])
      else Ok(ValidatedUser(Strings.Strip(input.username), Strings.Strip(input.email), password,
                            Strings.Strip(input.firstName), Strings.Strip(input.lastName),
                            input.organization, input.role))
  }

  /**
    `UserCreateSerializer.create`: the password is taken out of the data and
    only its hash, computed by `hash`, is stored; the new user is active.
  */
  function CreateUser(users: map<A.UserId, A.User>, newId: A.UserId, v: ValidatedUser, hash: string -> string)
    : (r: map<A.UserId, A.User>)
    requires newId !in users
    ensures r.Keys == users.Keys + {newId}
    ensures forall u | u in users :: r[u] == users[u]
    ensures r[newId].passwordHash == hash(v.password) && r[newId].isActive
    ensures r[newId].username == v.username && r[newId].email == v.email
    ensures r[newId].organization == v.organization && r[newId].role == v.role
  {
    users[newId := A.User(v.username, v.email, v.firstName, v.lastName, v.organization, v.role, hash(v.password), true)]
  }

  /** A created user's stored hash is the hash of the confirmed password, as typed less surrounding whitespace. */
  lemma CreatedUserHashesConfirmedPassword(users: map<A.UserId, A.User>, newId: A.UserId, input: UserInput, hash: string -> string)
    requires newId !in users && ValidateUserCreate(input).Ok?
    ensures CreateUser(users, newId, ValidateUserCreate(input).value, hash)[newId].passwordHash
            == hash(Strings.Strip(input.passwordConfirm))
  {
  }

  // ---------------------------------------------------------------------------
  // Roles and users
  // ---------------------------------------------------------------------------

  datatype RoleDeleteError = RoleNotFound | SystemRole | RoleInUse

  const SystemRoleMessage: string := "System roles cannot be deleted."

  /**
    `RoleViewSet.destroy`: a system role is refused. Otherwise the delete is
    refused while a project membership uses the role, and users holding it
    lose it.
  */
  function DestroyRole(d: A.Directory, id: A.RoleId): (r: Result<A.Directory, RoleDeleteError>)
    ensures id !in d.roles ==> r == Err(RoleNotFound)
    ensures id in d.roles && d.roles[id].isSystemRole ==> r == Err(SystemRole)
    ensures r.Ok? <==>
              id in d.roles && !d.roles[id].isSystemRole
              && forall m | m in d.projectMemberships :: d.projectMemberships[m].role != id
    ensures r.Ok? ==> r.value.roles == d.roles - {id}
    ensures r.Ok? ==> r.value.users.Keys == d.users.Keys
    ensures r.Ok? ==> forall u | u in d.users ::
              r.value.users[u] == (if d.users[u].role == Some(id) then d.users[u].(role := None) else d.users[u])
    ensures r.Ok? ==> r.value.(roles := d.roles, users := d.users) == d
  {
    if id !in d.roles then Err(RoleNotFound)
    else if d.roles[id].isSystemRole then Err(SystemRole)
    else if exists m | m in d.projectMemberships :: d.projectMemberships[m].role == id then Err(RoleInUse)
    else
      var users := map u | u in d.users :: if d.users[u].role == Some(id) then d.users[u].(role := None) else d.users[u];
      Ok(d.(roles := d.roles - {id}, users := users))
  }

  /** A refused delete leaves every role in place. */
  lemma SystemRoleSurvives(d: A.Directory, id: A.RoleId)
    requires id in d.roles && d.roles[id].isSystemRole
    ensures DestroyRole(d, id).Err?
    ensures forall other | other in d.roles :: d.roles[other].isSystemRole ==> DestroyRole(d, other).Err?
  {
  }

  datatype UserError = UserNotFound

  /** `activate` (`active` true) and `deactivate` (false): only the flag changes. */
  function SetActive(users: map<A.UserId, A.User>, id: A.UserId, active: bool): (r: Result<map<A.UserId, A.User>, UserError>)
    ensures r.Err? <==> id !in users
    ensures r.Ok? ==> r.value.Keys == users.Keys && r.value[id].isActive == active
    ensures r.Ok? ==> r.value[id].(isActive := users[id].isActive) == users[id]
    ensures r.Ok? ==> forall u | u in users && u != id :: r.value[u] == users[u]
  {
    if id !in users then Err(UserNotFound) else Ok(users[id := users[id].(isActive := active)])
  }

  /** Deactivating and then activating a user who was active restores the table. */
  lemma DeactivateActivate(users: map<A.UserId, A.User>, id: A.UserId)
    requires id in users && users[id].isActive
    ensures SetActive(SetActive(users, id, false).value, id, true) == Ok(users)
  {
    var back := SetActive(SetActive(users, id, false).value, id, true).value;
    assert back[id] == users[id];
    assert back == users;
  }

  // ---------------------------------------------------------------------------
  // Task-force members
  // ---------------------------------------------------------------------------

  datatype MemberError =
    | TaskForceNotFound
    | UserIdRequired
    | LookupFailed
    | MemberUserNotFound
    | AlreadyMember
    | MembershipNotFound

  /**
    The primary key a request value names when used in a lookup: an integer,
    the text of an integer, or a boolean (`True` is 1). Anything else makes
    the lookup raise.
  */
  function PrimaryKeyOf(j: Json): (r: Option<int>)
    ensures j.JNum? ==> r == Some(j.n)
    ensures j.JStr? ==> r == Strings.ParseInt(j.s)
    ensures j.JNull? || j.JArr? || j.JObj? ==> r.None?
  {
    match j
    case JNum(n) => Some(n)
    case JStr(s) => Strings.ParseInt(s)
    case JBool(b) => Some(if b then 1 else 0)
    case _ => None
  }

  /** The memberships of `user` in task force `tf`. */
  function MembershipsOf(ms: map<A.MembershipId, A.TaskForceMembership>, user: A.UserId, tf: A.TaskForceId)
    : set<A.MembershipId>
  {
    set m | m in ms && ms[m].user == user && ms[m].taskForce == tf
  }

  /**
    `add_member`: `user_id` must be given and truthy and name an existing
    user; an existing membership is an error; otherwise exactly one
    membership is added, its role defaulting to "member".
  */
  function AddMember(d: A.Directory, tf: A.TaskForceId, userId: Option<Json>, role: Option<string>, newId: A.MembershipId)
    : (r: Result<A.Directory, MemberError>)
    requires newId !in d.taskForceMemberships
    ensures r == Err(TaskForceNotFound) <==> tf !in d.taskForces
    ensures r == Err(UserIdRequired) <==> tf in d.taskForces && (userId.None? || !Truthy(userId.value))
    ensures r == Err(LookupFailed) <==>
              tf in d.taskForces && userId.Some? && Truthy(userId.value) && PrimaryKeyOf(userId.value).None?
    ensures r == Err(MemberUserNotFound) <==>
              && tf in d.taskForces && userId.Some? && Truthy(userId.value)
              && PrimaryKeyOf(userId.value).Some? && PrimaryKeyOf(userId.value).value !in d.users
    ensures r.Ok? <==>
              && tf in d.taskForces && userId.Some? && Truthy(userId.value)
              && PrimaryKeyOf(userId.value).Some? && PrimaryKeyOf(userId.value).value in d.users
              && MembershipsOf(d.taskForceMemberships, PrimaryKeyOf(userId.value).value, tf) == {}
    ensures r.Ok? ==>
              && userId.Some? && PrimaryKeyOf(userId.value).Some?
              && var user := PrimaryKeyOf(userId.value).value;
              && user in d.users
              && MembershipsOf(d.taskForceMemberships, user, tf) == {}
              && r.value == d.(taskForceMemberships := d.taskForceMemberships[newId :=
                   A.TaskForceMembership(user, tf, role.GetOr(A.DefaultTaskForceRole))])
    ensures r == Err(AlreadyMember) <==>
              && tf in d.taskForces && userId.Some? && Truthy(userId.value)
              && PrimaryKeyOf(userId.value).Some? && PrimaryKeyOf(userId.value).value in d.users
              && MembershipsOf(d.taskForceMemberships, PrimaryKeyOf(userId.value).value, tf) != {}
  {
    if tf !in d.taskForces then Err(TaskForceNotFound)
    else if userId.None? || !Truthy(userId.value) then Err(UserIdRequired)
    else match PrimaryKeyOf(userId.value)
      case None => Err(LookupFailed)
      case Some(user) =>
        if user !in d.users then Err(MemberUserNotFound)
        else if MembershipsOf(d.taskForceMemberships, user, tf) != {} then Err(AlreadyMember)
        else Ok(d.(taskForceMemberships := d.taskForceMemberships[newId :=
               A.TaskForceMembership(user, tf, role.GetOr(A.DefaultTaskForceRole))]))
  }

  /** Adding a member keeps every (user, task force) pair unique. */
  lemma AddMemberPreservesConstrained(d: A.Directory, tf: A.TaskForceId, userId: Option<Json>, role: Option<string>, newId: A.MembershipId)
    requires A.Constrained(d) && newId !in d.taskForceMemberships
    requires AddMember(d, tf, userId, role, newId).Ok?
    ensures A.Constrained(AddMember(d, tf, userId, role, newId).value)
  {
    var user := PrimaryKeyOf(userId.value).value;
    var row := A.TaskForceMembership(user, tf, role.GetOr(A.DefaultTaskForceRole));
    var ms := d.taskForceMemberships;
    forall other | other in ms
      ensures A.TaskForceMembershipKey(ms[other]) != A.TaskForceMembershipKey(row)
    {
      assert other !in MembershipsOf(ms, user, tf);
    }
    A.SaveUniquePreserves(ms, newId, row, A.TaskForceMembershipKey);
  }

  /**
    `remove_member`: `user_id` must be given and truthy; deleting nothing is
    not found; otherwise the user's memberships in the task force are removed
    and nothing else.
  */
  function RemoveMember(d: A.Directory, tf: A.TaskForceId, userId: Option<Json>): (r: Result<A.Directory, MemberError>)
    ensures r == Err(TaskForceNotFound) <==> tf !in d.taskForces
    ensures r == Err(UserIdRequired) <==> tf in d.taskForces && (userId.None? || !Truthy(userId.value))
    ensures r == Err(LookupFailed) <==>
              tf in d.taskForces && userId.Some? && Truthy(userId.value) && PrimaryKeyOf(userId.value).None?
    ensures r.Ok? <==>
              && tf in d.taskForces && userId.Some? && Truthy(userId.value) && PrimaryKeyOf(userId.value).Some?
              && MembershipsOf(d.taskForceMemberships, PrimaryKeyOf(userId.value).value, tf) != {}
    ensures r.Ok? ==>
              && userId.Some? && PrimaryKeyOf(userId.value).Some?
              && var user := PrimaryKeyOf(userId.value).value;
              && MembershipsOf(d.taskForceMemberships, user, tf) != {}
              && r.value == d.(taskForceMemberships := d.taskForceMemberships - MembershipsOf(d.taskForceMemberships, user, tf))
    ensures r == Err(MembershipNotFound) <==>
              && tf in d.taskForces && userId.Some? && Truthy(userId.value) && PrimaryKeyOf(userId.value).Some?
              && MembershipsOf(d.taskForceMemberships, PrimaryKeyOf(userId.value).value, tf) == {}
  {
    if tf !in d.taskForces then Err(TaskForceNotFound)
    else if userId.None? || !Truthy(userId.value) then Err(UserIdRequired)
    else match PrimaryKeyOf(userId.value)
      case None => Err(LookupFailed)
      case Some(user) =>
        var gone := MembershipsOf(d.taskForceMemberships, user, tf);
        if gone == {} then Err(MembershipNotFound)
        else Ok(d.(taskForceMemberships := d.taskForceMemberships - gone))
  }

  /** After a removal the user has no membership left in the task force. */
  lemma RemoveMemberRemovesPair(d: A.Directory, tf: A.TaskForceId, userId: Option<Json>)
    requires RemoveMember(d, tf, userId).Ok?
    ensures MembershipsOf(RemoveMember(d, tf, userId).value.taskForceMemberships, PrimaryKeyOf(userId.value).value, tf) == {}
  {
  }

  /** Removing a member just added gives back the memberships as they were. */
  lemma AddThenRemove(d: A.Directory, tf: A.TaskForceId, userId: Option<Json>, role: Option<string>, newId: A.MembershipId)
    requires newId !in d.taskForceMemberships
    requires AddMember(d, tf, userId, role, newId).Ok?
    ensures RemoveMember(AddMember(d, tf, userId, role, newId).value, tf, userId) == Ok(d)
  {
    var added := AddMember(d, tf, userId, role, newId).value;
    var user := PrimaryKeyOf(userId.value).value;
    var ms := added.taskForceMemberships;
    assert MembershipsOf(ms, user, tf) == {newId} by {
      forall m | m in ms && m != newId ensures m !in MembershipsOf(ms, user, tf) {
        assert m !in MembershipsOf(d.taskForceMemberships, user, tf);
        assert ms[m] == d.taskForceMemberships[m];
      }
    }
    assert ms - {newId} == d.taskForceMemberships;
  }
}

=== FILE: administration.dfy ===
/**
  The shared (public-schema) administration records: roles with levels and
  permission matrices, users, project and task-force memberships, and the
  audit log's link to a project.
*/
module Administration {
  import opened Wrappers
  import opened Json
  import Strings
  import T = Tenants

  type OrganizationId = int
  type RoleId = int
  type UserId = int
  type MembershipId = int
  type TaskForceId = int

  // ---------------------------------------------------------------------------
  // Roles and permissions
  // ---------------------------------------------------------------------------

  /** `Role.Level`: GUEST is the lowest level, ADMINISTRATOR the highest. */
  const Guest: int := 1
  const EngineerL2: int := 2
  const EngineerL3: int := 3
  const ProjectEngineer: int := 4
  const Administrator: int := 5

  predicate IsLevel(level: int) {
    Guest <= level <= Administrator
  }

  /** `permissions` maps a model name to the actions granted on it, e.g. `{"tag": ["read"]}`. */
  datatype Role = Role(
    organization: OrganizationId,
    name: string,
    code: string,
    level: int,
    description: string,
    permissions: Json,
    isSystemRole: bool)

  datatype User = User(
    username: string,
    email: string,
    firstName: string,
    lastName: string,
    organization: Option<OrganizationId>,
    role: Option<RoleId>,
    passwordHash: string,
    isActive: bool)

  /**
    Why `has_permission` raises instead of answering: the matrix is not a
    dict, or the entry for the model is a value `in` cannot search.
  */
  datatype PermissionFault = MatrixNotADict | EntryNotSearchable

  /** Python's `action in entry` for a decoded JSON entry. */
  function EntryAllows(entry: Json, action: string): (r: Result<bool, PermissionFault>)
    ensures entry.JArr? ==> r == Ok(JStr(action) in entry.items)
    ensures entry.JStr? ==> r == Ok(Strings.Contains(entry.s, action))
    ensures entry.JObj? ==> r == Ok(HasKey(entry.members, action))
    ensures r.Err? <==> entry.JNull? || entry.JBool? || entry.JNum?
  {
    match entry
    case JArr(items) => Ok(JStr(action) in items)
    case JStr(s) => Ok(Strings.Contains(s, action))
    case JObj(members) => Ok(HasKey(members, action))
    case _ => Err(EntryNotSearchable)
  }

  /**
    `User.has_permission`: no role grants nothing, an administrator is
    granted everything, and otherwise the action must appear in the entry
    for the model, a missing entry granting nothing.
  */
  function HasPermission(role: Option<Role>, model: string, action: string): (r: Result<bool, PermissionFault>)
    ensures role.None? ==> r == Ok(false)
    ensures role.Some? && role.value.level == Administrator ==> r == Ok(true)
    ensures role.Some? && role.value.level != Administrator ==>
              (r == Err(MatrixNotADict) <==> !role.value.permissions.JObj?)
    ensures role.Some? && role.value.level != Administrator && role.value.permissions.JObj? ==>
              var entry := Get(role.value.permissions.members, model);
              && (entry.None? ==> r == Ok(false))
              && (entry.Some? ==> r == EntryAllows(entry.value, action))
  {
    if role.None? then Ok(false)
    else if role.value.level == Administrator then Ok(true)
    else if !role.value.permissions.JObj? then Err(MatrixNotADict)
    else EntryAllows(Get(role.value.permissions.members, model).GetOr(JArr([])), action)
  }

  /** Listing an action for a model grants exactly that action on that model. */
  lemma ListedActionGranted(r: Role, model: string, action: string, actions: seq<Json>)
    requires r.level != Administrator && r.permissions.JObj?
    requires Get(r.permissions.members, model) == Some(JArr(actions))
    ensures HasPermission(Some(r), model, action) == Ok(JStr(action) in actions)
  {
  }

  /** A `"*"` entry is not a wildcard: a model without its own entry is still refused. */
  lemma StarIsNotWildcard(r: Role, model: string, action: string)
    requires r.level != Administrator && r.permissions.JObj?
    requires !HasKey(r.permissions.members, model)
    ensures HasPermission(Some(r), model, action) == Ok(false)
  {
    var entry := Get(r.permissions.members, model);
    assert entry.None?;
  }

  /** The same, on a concrete matrix that grants every action under `"*"`. */
  lemma StarIsNotWildcardExample()
    ensures var star := Role(1, "Reader", "READER", EngineerL2, "",
                             JObj([Member("*", JArr([JStr("read")]))]), false);
            HasPermission(Some(star), "tag", "read") == Ok(false)
  {
    var members := [Member("*", JArr([JStr("read")]))];
    assert !HasKey(members, "tag") by {
      assert members[0].key != "tag";
    }
    var star := Role(1, "Reader", "READER", EngineerL2, "", JObj(members), false);
    StarIsNotWildcard(star, "tag", "read");
  }

  /**
    An entry written as a string instead of a list is searched as text, so
    any substring of it is granted.
  */
  lemma StringEntryGrantsSubstrings()
    ensures var r := Role(1, "Editor", "EDITOR", EngineerL3, "",
                          JObj([Member("tag", JStr("read"))]), false);
            HasPermission(Some(r), "tag", "ead") == Ok(true)
  {
    var members := [Member("tag", JStr("read"))];
    assert Strings.OccursAt("read", "ead", 1);
    assert Get(members, "tag") == Some(JStr("read"));
  }

  // ---------------------------------------------------------------------------
  // Memberships
  // ---------------------------------------------------------------------------

  /** A project membership; `projectId` names a tenant by id, without a foreign key. */
  datatype ProjectMembership = ProjectMembership(user: UserId, projectId: T.TenantId, role: RoleId, isActive: bool)

  datatype ProjectTaskForce = ProjectTaskForce(
    projectId: T.TenantId,
    name: string,
    code: string,
    description: string,
    leader: Option<UserId>,
    isActive: bool)

  datatype TaskForceMembership = TaskForceMembership(user: UserId, taskForce: TaskForceId, role: string)

  /** The role a task-force membership gets when none is given. */
  const DefaultTaskForceRole: string := "member"

  // ---------------------------------------------------------------------------
  // Composite uniqueness
  // ---------------------------------------------------------------------------

  /** No two rows of `table` share a key. */
  predicate UniqueBy<K(==), V>(table: map<int, V>, key: V -> K) {
    forall a, b | a in table && b in table && a != b :: key(table[a]) != key(table[b])
  }

  predicate KeyTaken<K(==), V>(table: map<int, V>, id: int, key: V -> K, k: K) {
    exists other | other in table && other != id :: key(table[other]) == k
  }

  datatype UniqueError = UniqueViolation

  /** Writing row `id` under a unique constraint on `key`: refused when another row holds the key. */
  function SaveUnique<K(==), V>(table: map<int, V>, id: int, row: V, key: V -> K): (r: Result<map<int, V>, UniqueError>)
    ensures r.Err? <==> KeyTaken(table, id, key, key(row))
    ensures r.Ok? ==> r.value.Keys == table.Keys + {id} && r.value[id] == row
    ensures r.Ok? ==> forall other | other in table && other != id :: r.value[other] == table[other]
  {
    if KeyTaken(table, id, key, key(row)) then Err(UniqueViolation) else Ok(table[id := row])
  }

  lemma SaveUniquePreserves<K, V>(table: map<int, V>, id: int, row: V, key: V -> K)
    requires UniqueBy(table, key) && SaveUnique(table, id, row, key).Ok?
    ensures UniqueBy(SaveUnique(table, id, row, key).value, key)
  {
    var t := SaveUnique(table, id, row, key).value;
    forall a, b | a in t && b in t && a != b ensures key(t[a]) != key(t[b]) {
      if a == id {
        assert !KeyTaken(table, id, key, key(row));
        assert b in table && b != id;
      } else if b == id {
        assert !KeyTaken(table, id, key, key(row));
        assert a in table && a != id;
      }
    }
  }

  /** A role code is unique within its organization. */
  function RoleKey(r: Role): (OrganizationId, string) { (r.organization, r.code) }

  /** A user joins a project once. */
  function ProjectMembershipKey(m: ProjectMembership): (UserId, T.TenantId) { (m.user, m.projectId) }

  /** A task-force code is unique within its project. */
  function TaskForceKey(f: ProjectTaskForce): (T.TenantId, string) { (f.projectId, f.code) }

  /** A user joins a task force once. */
  function TaskForceMembershipKey(m: TaskForceMembership): (UserId, TaskForceId) { (m.user, m.taskForce) }

  /** Two roles may share a code in different organizations. */
  lemma RoleCodeScopedToOrganization(roles: map<RoleId, Role>, id: RoleId, r: Role)
    requires forall other | other in roles && other != id :: roles[other].organization != r.organization
    ensures SaveUnique(roles, id, r, RoleKey).Ok?
  {
  }

  /** The shared records. */
  datatype Directory = Directory(
    roles: map<RoleId, Role>,
    users: map<UserId, User>,
    projectMemberships: map<MembershipId, ProjectMembership>,
    taskForces: map<TaskForceId, ProjectTaskForce>,
    taskForceMemberships: map<MembershipId, TaskForceMembership>)

  /** The composite constraints the database enforces. */
  predicate Constrained(d: Directory) {
    && UniqueBy(d.roles, RoleKey)
    && UniqueBy(d.projectMemberships, ProjectMembershipKey)
    && UniqueBy(d.taskForces, TaskForceKey)
    && UniqueBy(d.taskForceMemberships, TaskForceMembershipKey)
  }

  // ---------------------------------------------------------------------------
  // Project lookups
  // ---------------------------------------------------------------------------

  /** `ProjectMembership.project` and `ProjectTaskForce.project`: the tenant with that id, if any. */
  function ProjectOf(ts: T.Tenants, projectId: T.TenantId): (r: Option<T.ProjectTenant>)
    ensures r.Some? <==> projectId in ts
    ensures r.Some? ==> r.value == ts[projectId]
  {
    if projectId in ts then Some(ts[projectId]) else None
  }

  /** `AuditLog.project`: nothing when the id is unset or 0, the tenant with that id otherwise. */
  function AuditLogProject(ts: T.Tenants, projectId: Option<int>): (r: Option<T.ProjectTenant>)
    ensures projectId.None? || projectId == Some(0) ==> r.None?
    ensures projectId.Some? && projectId.value != 0 ==> r == ProjectOf(ts, projectId.value)
  {
    if projectId.None? || projectId.value == 0 then None else ProjectOf(ts, projectId.value)
  }

  /**
    Where no tenant has id 0, the audit log's lookup and the memberships'
    lookup agree on every set id.
  */
  lemma AuditLogProjectAgrees(ts: T.Tenants, projectId: int)
    requires 0 !in ts
    ensures AuditLogProject(ts, Some(projectId)) == ProjectOf(ts, projectId)
  {
  }
}

=== FILE: conventions.dfy ===
/**
  Naming conventions: per-project rules for how tag numbers are formed. Only
  the `is_default` flag has behaviour here; the other fields are carried as
  opaque values (no regular expression is ever compiled).
*/
module Conventions {
  import opened Wrappers
  import opened Json

  type ConventionId = int

  datatype NamingConvention = NamingConvention(
    name: string,
    description: string,
    hierarchyFormat: string,
    regexPattern: string,
    segmentDefinitions: Json,
    exampleTags: Json,
    isDefault: bool,
    isActive: bool)

  type Conventions = map<ConventionId, NamingConvention>

  datatype ConventionError = NotFound

  /** The ids of the conventions flagged as default. */
  function Defaults(cs: Conventions): set<ConventionId> {
    set c | c in cs && cs[c].isDefault
  }

  /** Two convention tables agree on everything but the `is_default` flags. */
  predicate SameButDefaults(a: Conventions, b: Conventions) {
    a.Keys == b.Keys && forall c | c in a :: a[c].(isDefault := b[c].isDefault) == b[c]
  }

  /**
    `set_default`: every default is cleared, then the chosen convention is
    flagged and saved. An unknown id is not found and changes nothing.
  */
  function SetDefault(cs: Conventions, id: ConventionId): (r: Result<Conventions, ConventionError>)
    ensures r.Err? <==> id !in cs
    ensures r.Ok? ==> Defaults(r.value) == {id}
    ensures r.Ok? ==> SameButDefaults(cs, r.value)
  {
    if id !in cs then Err(NotFound)
    else
      var cleared := map c | c in cs :: cs[c].(isDefault := false);
      var r := cleared[id := cs[id].(isDefault := true)];
      assert forall c | c in r :: c in Defaults(r) <==> c == id;
      Ok(r)
  }

  /** The table after `set_default` is determined by the id: exactly one default, all else kept. */
  lemma SetDefaultUnique(cs: Conventions, id: ConventionId, other: Conventions)
    requires id in cs
    requires SameButDefaults(cs, other) && Defaults(other) == {id}
    ensures SetDefault(cs, id) == Ok(other)
  {
    var r := SetDefault(cs, id).value;
    forall c | c in cs ensures r[c] == other[c] {
      assert c in Defaults(other) <==> c == id;
      assert c in Defaults(r) <==> c == id;
    }
    assert r == other;
  }

  /** Setting the same default twice is the same as setting it once. */
  lemma SetDefaultIdempotent(cs: Conventions, id: ConventionId)
    requires id in cs
    ensures SetDefault(SetDefault(cs, id).value, id) == SetDefault(cs, id)
  {
    var once := SetDefault(cs, id).value;
    SetDefaultUnique(once, id, once);
  }

  /** The last `set_default` wins: an earlier one leaves no trace. */
  lemma SetDefaultLastWins(cs: Conventions, a: ConventionId, b: ConventionId)
    requires a in cs && b in cs
    ensures SetDefault(SetDefault(cs, a).value, b) == SetDefault(cs, b)
  {
    var first := SetDefault(cs, a).value;
    var direct := SetDefault(cs, b).value;
    assert SameButDefaults(first, direct) by {
      forall c | c in first ensures first[c].(isDefault := direct[c].isDefault) == direct[c] {
        assert cs[c].(isDefault := first[c].isDefault) == first[c];
        assert cs[c].(isDefault := direct[c].isDefault) == direct[c];
      }
    }
    SetDefaultUnique(first, b, direct);
  }
}

=== FILE: engineering.dfy ===
/**
  The engineering records that hang off the plant hierarchy: control loops,
  instrument types and instrument tags, with the validation their `save`
  methods run, the revision counter, default specification data and the
  delete behaviour of their foreign keys (CASCADE on the hierarchy, PROTECT
  on units and instrument types, SET_NULL on a tag's loop).
*/
module Engineering {
  import opened Wrappers
  import opened Json
  import Strings
  import H = Hierarchy
  import SV = SpecValidator

  type LoopId = int
  type TypeId = int
  type TagId = int

  datatype LoopFunction =
    | Flow | Temperature | Pressure | Level | Analysis | Control | Hand | Indicate | Safety | OtherFunction

  datatype Loop = Loop(
    loopTag: string,
    loopFunction: LoopFunction,
    suffix: string,
    unit: H.NodeId,
    description: string,
    isActive: bool)

  datatype Category =
    | Transmitter | ControlValve | Switch | Indicator | Analyzer | Sensor | Controller | Recorder | OtherCategory

  datatype InstrumentType = InstrumentType(
    name: string,
    code: string,
    category: Category,
    description: string,
    schemaTemplate: Json,
    defaultSpecData: Json,
    isActive: bool)

  datatype TagStatus = Active | Inactive | Deleted | Pending | UnderReview

  /** The writable fields of a tag; `revision` is kept apart because clients never set it. */
  datatype TagFields = TagFields(
    tagNumber: string,
    unit: H.NodeId,
    loop: Option<LoopId>,
    instrumentType: TypeId,
    service: string,
    description: string,
    specData: Json,
    status: TagStatus)

  datatype Tag = Tag(fields: TagFields, revision: nat)

  /** The tables of one project schema. */
  datatype Store = Store(
    nodes: H.Tree,
    loops: map<LoopId, Loop>,
    types: map<TypeId, InstrumentType>,
    tags: map<TagId, Tag>)

  // ---------------------------------------------------------------------------
  // The store invariant
  // ---------------------------------------------------------------------------

  predicate IsUnit(nodes: H.Tree, id: H.NodeId) {
    id in nodes && nodes[id].kind == H.Unit
  }

  predicate LoopTagsUnique(loops: map<LoopId, Loop>) {
    forall a, b | a in loops && b in loops && a != b :: loops[a].loopTag != loops[b].loopTag
  }

  predicate TypeCodesUnique(types: map<TypeId, InstrumentType>) {
    forall a, b | a in types && b in types && a != b :: types[a].code != types[b].code
  }

  /** The `(unit, tag_number)` constraint. */
  predicate TagNumbersUniquePerUnit(tags: map<TagId, Tag>) {
    forall a, b | a in tags && b in tags && a != b && tags[a].fields.unit == tags[b].fields.unit ::
      tags[a].fields.tagNumber != tags[b].fields.tagNumber
  }

  /** A tag sits on a UNIT, its loop (if any) exists and shares that unit, and its type exists. */
  predicate TagPlaced(s: Store, t: TagFields) {
    && IsUnit(s.nodes, t.unit)
    && (t.loop.Some? ==> t.loop.value in s.loops && s.loops[t.loop.value].unit == t.unit)
    && t.instrumentType in s.types
  }

  predicate Consistent(s: Store) {
    && H.Valid(s.nodes)
    && (forall l | l in s.loops :: IsUnit(s.nodes, s.loops[l].unit))
    && (forall t | t in s.tags :: TagPlaced(s, s.tags[t].fields))
    && LoopTagsUnique(s.loops)
    && TypeCodesUnique(s.types)
    && TagNumbersUniquePerUnit(s.tags)
  }

  // ---------------------------------------------------------------------------
  // Loop.save
  // ---------------------------------------------------------------------------

  datatype LoopError = UnknownUnit | LoopNotOnUnit | DuplicateLoopTag

  predicate LoopTagTaken(loops: map<LoopId, Loop>, id: LoopId, loopTag: string) {
    exists o | o in loops :: o != id && loops[o].loopTag == loopTag
  }

  /**
    `Loop.save`: the unit must be a UNIT node and the loop tag must be unused
    by every other loop; both problems are reported together.
  */
  function SaveLoop(s: Store, id: LoopId, l: Loop): (r: Result<Store, seq<LoopError>>)
    ensures r.Ok? <==> IsUnit(s.nodes, l.unit) && !LoopTagTaken(s.loops, id, l.loopTag)
    ensures r.Ok? ==> r.value == s.(loops := s.loops[id := l])
    ensures r.Err? && l.unit in s.nodes ==>
              (LoopNotOnUnit in r.error <==> !IsUnit(s.nodes, l.unit))
              && (DuplicateLoopTag in r.error <==> LoopTagTaken(s.loops, id, l.loopTag))
  {
    if l.unit !in s.nodes then Err([UnknownUnit])
    else
      var errors := (if s.nodes[l.unit].kind != H.Unit then [LoopNotOnUnit] else [])
        + (if LoopTagTaken(s.loops, id, l.loopTag) then [DuplicateLoopTag] else []);
      if errors != [] then Err(errors) else Ok(s.(loops := s.loops[id := l]))
  }

  /** Saving a loop keeps the store consistent as long as the tags already in it sit on its unit. */
  lemma SaveLoopPreservesConsistent(s: Store, id: LoopId, l: Loop)
    requires Consistent(s) && SaveLoop(s, id, l).Ok?
    requires forall t | t in s.tags && s.tags[t].fields.loop == Some(id) :: s.tags[t].fields.unit == l.unit
    ensures Consistent(SaveLoop(s, id, l).value)
  {
    var s' := SaveLoop(s, id, l).value;
    forall t | t in s'.tags
      ensures TagPlaced(s', s'.tags[t].fields)
    {
      assert TagPlaced(s, s.tags[t].fields);
    }
  }

  /** A plant with one area holding two units, 3 and 4. */
  const OneAreaTwoUnits: H.Tree := map[
    1 := H.Node("Plant", "P", H.Plant, None, "", true),
    2 := H.Node("Area", "A", H.Area, Some(1), "", true),
    3 := H.Node("Unit 1", "U1", H.Unit, Some(2), "", true),
    4 := H.Node("Unit 2", "U2", H.Unit, Some(2), "", true)]

  lemma OneAreaTwoUnitsValid()
    ensures H.Valid(OneAreaTwoUnits)
    ensures IsUnit(OneAreaTwoUnits, 3) && IsUnit(OneAreaTwoUnits, 4)
  {
    var t := OneAreaTwoUnits;
    assert t.Keys == {1, 2, 3, 4};
    assert H.ParentRuleHolds(t, t[1]) && H.ParentRuleHolds(t, t[2]);
    assert H.ParentRuleHolds(t, t[3]) && H.ParentRuleHolds(t, t[4]);
  }

  /** Loop 10 and its tag 30 on unit 3. */
  const LoopWithTag: Store := Store(
    OneAreaTwoUnits,
    map[10 := Loop("FIC-101", Flow, "101", 3, "", true)],
    map[20 := InstrumentType("Flow transmitter", "FT", Transmitter, "", EmptyObject, EmptyObject, true)],
    map[30 := Tag(TagFields("FT-101", 3, Some(10), 20, "", "", EmptyObject, Active), 1)])

  /** Loop 10 moved to unit 4. */
  const LoopMoved: Loop := Loop("FIC-101", Flow, "101", 4, "", true)

  lemma LoopWithTagConsistent()
    ensures Consistent(LoopWithTag)
  {
    OneAreaTwoUnitsValid();
    var s := LoopWithTag;
    assert s.loops.Keys == {10} && s.tags.Keys == {30} && s.types.Keys == {20};
    assert TagPlaced(s, s.tags[30].fields);
  }

  /**
    `Loop.save` never looks at the loop's tags: moving a loop that holds a
    tag to another unit succeeds and leaves the tag on the old unit.
  */
  lemma SaveLoopCanSplitItsTags()
    ensures Consistent(LoopWithTag)
    ensures SaveLoop(LoopWithTag, 10, LoopMoved).Ok?
    ensures !Consistent(SaveLoop(LoopWithTag, 10, LoopMoved).value)
  {
    LoopWithTagConsistent();
    OneAreaTwoUnitsValid();
    assert !LoopTagTaken(LoopWithTag.loops, 10, LoopMoved.loopTag);
    var r := SaveLoop(LoopWithTag, 10, LoopMoved).value;
    assert !TagPlaced(r, r.tags[30].fields);
  }

  // ---------------------------------------------------------------------------
  // InstrumentType.save
  // ---------------------------------------------------------------------------

  datatype TypeError = DuplicateTypeCode

  predicate TypeCodeTaken(types: map<TypeId, InstrumentType>, id: TypeId, code: string) {
    exists o | o in types :: o != id && types[o].code == code
  }

  /** Saving an instrument type only has to keep its code unique. */
  function SaveInstrumentType(s: Store, id: TypeId, it: InstrumentType): (r: Result<Store, TypeError>)
    ensures r.Ok? <==> !TypeCodeTaken(s.types, id, it.code)
    ensures r.Ok? ==> r.value == s.(types := s.types[id := it])
  {
    if TypeCodeTaken(s.types, id, it.code) then Err(DuplicateTypeCode)
    else Ok(s.(types := s.types[id := it]))
  }

  lemma SaveInstrumentTypePreservesConsistent(s: Store, id: TypeId, it: InstrumentType)
    requires Consistent(s) && SaveInstrumentType(s, id, it).Ok?
    ensures Consistent(SaveInstrumentType(s, id, it).value)
  {
    var s' := SaveInstrumentType(s, id, it).value;
    forall t | t in s'.tags
      ensures TagPlaced(s', s'.tags[t].fields)
    {
      assert TagPlaced(s, s.tags[t].fields);
    }
  }

  // ---------------------------------------------------------------------------
  // Tag.save
  // ---------------------------------------------------------------------------

  datatype TagError =
    | TagNotFound
    | UnknownReference
    | UnitNotAUnit
    | LoopInOtherUnit
    | SpecInvalid(message: string)
    | DuplicateTagNumber
    | Raised(cause: SaveException)

  /**
    An exception that escapes a tag save instead of a validation error: the
    type's `default_spec_data` has no `copy` (it is neither a dict nor a
    list), or the schema library's draft lookup raises on the template.
    A save that raises reports it as its only error.
  */
  datatype SaveException = DefaultHasNoCopy | TemplateLookupRaised

  const SpecFailurePrefix: string := "Spec data validation failed: "

  /** The unit, loop and instrument type a tag names all exist. */
  predicate ReferencesExist(s: Store, f: TagFields) {
    f.unit in s.nodes && (f.loop.Some? ==> f.loop.value in s.loops) && f.instrumentType in s.types
  }

  /**
    The spec a save stores: an empty one is replaced by `copy()` of the
    type's defaults, which only a dict or a list has.
  */
  function FilledSpec(s: Store, f: TagFields): (r: Result<Json, SaveException>)
    requires f.instrumentType in s.types
    ensures r.Err? <==>
              !Truthy(f.specData)
              && !(s.types[f.instrumentType].defaultSpecData.JObj? || s.types[f.instrumentType].defaultSpecData.JArr?)
    ensures r.Err? ==> r.error == DefaultHasNoCopy
    ensures Truthy(f.specData) ==> r == Ok(f.specData)
    ensures r.Ok? && !Truthy(f.specData) ==> r.value == s.types[f.instrumentType].defaultSpecData
    ensures r.Ok? ==> Truthy(f.specData) || r.value.JObj? || r.value.JArr?
  {
    if Truthy(f.specData) then Ok(f.specData)
    else
      var defaults := s.types[f.instrumentType].defaultSpecData;
      if defaults.JObj? || defaults.JArr? then Ok(defaults) else Err(DefaultHasNoCopy)
  }

  predicate TagNumberTaken(tags: map<TagId, Tag>, id: TagId, unit: H.NodeId, tagNumber: string) {
    exists o | o in tags :: o != id && tags[o].fields.unit == unit && tags[o].fields.tagNumber == tagNumber
  }

  /** `clean`'s call of `validate_spec_data` raises: the spec is non-empty and the library's draft lookup fails. */
  predicate SpecRaises(s: Store, f: TagFields)
    requires f.instrumentType in s.types
  {
    Truthy(f.specData) && SV.ValidateSpecDataAsWritten(s.types[f.instrumentType].schemaTemplate, f.specData).Err?
  }

  /** The result of `validate_spec_data` when it does not raise (the two agree whenever it does not). */
  function SpecCheckOf(s: Store, f: TagFields): SV.SpecCheck
    requires f.instrumentType in s.types
  {
    SV.ValidateSpecData(s.types[f.instrumentType].schemaTemplate, f.specData)
  }

  function SpecMessage(check: SV.SpecCheck): string {
    SpecFailurePrefix + Strings.Join(check.errors, "; ")
  }

  /** The errors of a tag save in the order `clean` meets them, then the unique constraint's. */
  function ErrorList(unitError: bool, loopError: bool, specError: Option<string>, numberError: bool): (r: seq<TagError>)
    ensures UnitNotAUnit in r <==> unitError
    ensures LoopInOtherUnit in r <==> loopError
    ensures forall m :: SpecInvalid(m) in r <==> specError == Some(m)
    ensures forall i | 0 <= i < |r| && r[i].SpecInvalid? :: specError == Some(r[i].message)
    ensures DuplicateTagNumber in r <==> numberError
    ensures TagNotFound !in r && UnknownReference !in r
    ensures forall i | 0 <= i < |r| :: !r[i].Raised?
  {
    (if unitError then [UnitNotAUnit] else [])
    + (if loopError then [LoopInOtherUnit] else [])
    + (if specError.Some? then [SpecInvalid(specError.value)] else [])
    + (if numberError then [DuplicateTagNumber] else [])
  }

  /**
    The errors `full_clean` collects for a tag whose references exist: the
    unit must be a UNIT, the loop must share the unit, a non-empty spec must
    pass the type's template, all reported together; the `(unit, tag_number)`
    constraint is skipped when the unit itself is in error. A template the
    library's draft lookup refuses makes `clean` raise instead.
  */
  function TagErrors(s: Store, id: TagId, f: TagFields): (r: seq<TagError>)
    requires ReferencesExist(s, f)
    ensures r == [Raised(TemplateLookupRaised)] <==> SpecRaises(s, f)
    ensures SpecRaises(s, f) <==>
              var template := s.types[f.instrumentType].schemaTemplate;
              Truthy(f.specData) && Truthy(template) && SV.DraftLookupRaises(template)
    ensures forall i | 0 <= i < |r| && r[i].Raised? :: r == [Raised(TemplateLookupRaised)]
    ensures !SpecRaises(s, f) ==> (UnitNotAUnit in r <==> !IsUnit(s.nodes, f.unit))
    ensures !SpecRaises(s, f) ==> (LoopInOtherUnit in r <==> f.loop.Some? && s.loops[f.loop.value].unit != f.unit)
    ensures !SpecRaises(s, f) ==>
              (SpecInvalid(SpecMessage(SpecCheckOf(s, f))) in r <==> Truthy(f.specData) && !SpecCheckOf(s, f).valid)
    ensures forall i | 0 <= i < |r| && r[i].SpecInvalid? :: r[i] == SpecInvalid(SpecMessage(SpecCheckOf(s, f)))
    ensures !SpecRaises(s, f) ==>
              (DuplicateTagNumber in r <==> IsUnit(s.nodes, f.unit) && TagNumberTaken(s.tags, id, f.unit, f.tagNumber))
    ensures TagNotFound !in r && UnknownReference !in r
  {
    if SpecRaises(s, f) then [Raised(TemplateLookupRaised)]
    else
    var check := SpecCheckOf(s, f);
    var unitError := !IsUnit(s.nodes, f.unit);
    ErrorList(
      unitError,
      f.loop.Some? && s.loops[f.loop.value].unit != f.unit,
      if Truthy(f.specData) && !check.valid then Some(SpecMessage(check)) else None,
      !unitError && TagNumberTaken(s.tags, id, f.unit, f.tagNumber))
  }

  /**
    What a save writes for tag `id`, or why it refuses; `revision` is the
    value to store. The defaults are copied before `full_clean` runs, so a
    missing `copy` is raised before any validation.
  */
  function SaveTag(s: Store, id: TagId, f: TagFields, revision: nat): (r: Result<Store, seq<TagError>>)
    ensures r.Err? ==> |r.error| > 0
    ensures r == Err([Raised(DefaultHasNoCopy)]) <==> ReferencesExist(s, f) && FilledSpec(s, f).Err?
    ensures r == Err([Raised(TemplateLookupRaised)]) <==>
              ReferencesExist(s, f) && FilledSpec(s, f).Ok? && SpecRaises(s, f.(specData := FilledSpec(s, f).value))
    ensures r.Ok? ==> ReferencesExist(s, f) && FilledSpec(s, f).Ok?
    ensures r.Ok? ==>
              var stored := f.(specData := FilledSpec(s, f).value);
              && r.value == s.(tags := s.tags[id := Tag(stored, revision)])
              && TagPlaced(s, stored)
              && !TagNumberTaken(s.tags, id, f.unit, f.tagNumber)
              && !SpecRaises(s, stored)
              && (Truthy(stored.specData) ==> SpecCheckOf(s, stored).valid)
  {
    if !ReferencesExist(s, f) then Err([UnknownReference])
    else match FilledSpec(s, f)
      case Err(e) => Err([Raised(e)])
      case Ok(spec) =>
        var stored := f.(specData := spec);
        var errors := TagErrors(s, id, stored);
        if errors != [] then Err(errors)
        else Ok(s.(tags := s.tags[id := Tag(stored, revision)]))
  }

  /** Creating a tag: the new row starts at revision 1. */
  function CreateTag(s: Store, newId: TagId, f: TagFields): (r: Result<Store, seq<TagError>>)
    requires newId !in s.tags
    ensures !ReferencesExist(s, f) ==> r == Err([UnknownReference])
    ensures ReferencesExist(s, f) ==>
              (r.Ok? <==>
                 && FilledSpec(s, f).Ok?
                 && !SpecRaises(s, f.(specData := FilledSpec(s, f).value))
                 && TagRulesHold(s, newId, f.(specData := FilledSpec(s, f).value)))
    ensures r.Ok? ==> newId in r.value.tags && r.value.tags[newId].revision == 1
  {
    if ReferencesExist(s, f) then SaveTagExact(s, newId, f, 1); SaveTag(s, newId, f, 1)
    else SaveTag(s, newId, f, 1)
  }

  /** Updating a tag: every successful save adds exactly one to the stored revision. */
  function UpdateTag(s: Store, id: TagId, f: TagFields): (r: Result<Store, seq<TagError>>)
    ensures id !in s.tags ==> r == Err([TagNotFound])
    ensures id in s.tags && !ReferencesExist(s, f) ==> r == Err([UnknownReference])
    ensures id in s.tags && ReferencesExist(s, f) ==>
              (r.Ok? <==>
                 && FilledSpec(s, f).Ok?
                 && !SpecRaises(s, f.(specData := FilledSpec(s, f).value))
                 && TagRulesHold(s, id, f.(specData := FilledSpec(s, f).value)))
    ensures r.Ok? ==> id in s.tags && id in r.value.tags && r.value.tags[id].revision == s.tags[id].revision + 1
  {
    if id !in s.tags then Err([TagNotFound])
    else if ReferencesExist(s, f) then
      SaveTagExact(s, id, f, s.tags[id].revision + 1); SaveTag(s, id, f, s.tags[id].revision + 1)
    else SaveTag(s, id, f, s.tags[id].revision + 1)
  }

  /**
    The stored spec of a tag would pass a save again: the defaults still copy,
    the template lookup does not raise and a non-empty spec passes it. (A
    type's template or defaults may have changed since the tag was saved.)
  */
  predicate SpecStillAccepted(s: Store, f: TagFields)
    requires f.instrumentType in s.types
  {
    && FilledSpec(s, f).Ok?
    && var stored := f.(specData := FilledSpec(s, f).value);
       !SpecRaises(s, stored) && (Truthy(stored.specData) ==> SpecCheckOf(s, stored).valid)
  }

  /**
    Saving a tag again with nothing changed is accepted on a consistent store
    whose spec still passes, and it still counts as a revision.
  */
  lemma ResaveAccepted(s: Store, id: TagId)
    requires Consistent(s) && id in s.tags
    requires SpecStillAccepted(s, s.tags[id].fields)
    ensures UpdateTag(s, id, s.tags[id].fields).Ok?
    ensures var s' := UpdateTag(s, id, s.tags[id].fields).value;
            s'.tags[id].revision == s.tags[id].revision + 1
  {
  }

  /** A created tag saved again unchanged is accepted and reaches revision 2. */
  lemma CreateThenResave(s: Store, newId: TagId, f: TagFields)
    requires newId !in s.tags && CreateTag(s, newId, f).Ok?
    ensures var s' := CreateTag(s, newId, f).value;
            && UpdateTag(s', newId, s'.tags[newId].fields).Ok?
            && UpdateTag(s', newId, s'.tags[newId].fields).value.tags[newId].revision == 2
  {
  }

  /** The rules a tag save enforces, stated without the error list. */
  predicate TagRulesHold(s: Store, id: TagId, stored: TagFields)
    requires ReferencesExist(s, stored)
  {
    && IsUnit(s.nodes, stored.unit)
    && (stored.loop.Some? ==> s.loops[stored.loop.value].unit == stored.unit)
    && (Truthy(stored.specData) ==> SpecCheckOf(s, stored).valid)
    && !TagNumberTaken(s.tags, id, stored.unit, stored.tagNumber)
  }

  /**
    A save with existing references succeeds exactly when nothing raises
    and the filled-in tag satisfies every rule.
  */
  lemma SaveTagExact(s: Store, id: TagId, f: TagFields, revision: nat)
    requires ReferencesExist(s, f)
    ensures SaveTag(s, id, f, revision).Ok? <==>
              && FilledSpec(s, f).Ok?
              && !SpecRaises(s, f.(specData := FilledSpec(s, f).value))
              && TagRulesHold(s, id, f.(specData := FilledSpec(s, f).value))
  {
    if FilledSpec(s, f).Ok? {
      var stored := f.(specData := FilledSpec(s, f).value);
      var errors := TagErrors(s, id, stored);
      if !SpecRaises(s, stored) && TagRulesHold(s, id, stored) {
        assert UnitNotAUnit !in errors && LoopInOtherUnit !in errors && DuplicateTagNumber !in errors;
      }
    }
  }

  lemma {:induction false} SaveTagPreservesConsistent(s: Store, id: TagId, f: TagFields, revision: nat)
    requires Consistent(s) && SaveTag(s, id, f, revision).Ok?
    ensures Consistent(SaveTag(s, id, f, revision).value)
  {
    var s' := SaveTag(s, id, f, revision).value;
    var stored := f.(specData := FilledSpec(s, f).value);
    assert s'.tags == s.tags[id := Tag(stored, revision)];
    forall a, b | a in s'.tags && b in s'.tags && a != b && s'.tags[a].fields.unit == s'.tags[b].fields.unit
      ensures s'.tags[a].fields.tagNumber != s'.tags[b].fields.tagNumber
    {
      if a == id {
        assert b in s.tags;
      } else if b == id {
        assert a in s.tags;
      }
    }
  }

  /** Applies updates to one tag in order, stopping at the first refusal. */
  function UpdateAll(s: Store, id: TagId, updates: seq<TagFields>): Result<Store, seq<TagError>>
    decreases |updates|
  {
    if |updates| == 0 then Ok(s)
    else match UpdateTag(s, id, updates[0])
      case Err(e) => Err(e)
      case Ok(s') => UpdateAll(s', id, updates[1..])
  }

  /** After `n` accepted saves of an existing tag its revision has gone up by exactly `n`. */
  lemma {:induction false} RevisionCountsSaves(s: Store, id: TagId, updates: seq<TagFields>)
    requires id in s.tags && UpdateAll(s, id, updates).Ok?
    ensures id in UpdateAll(s, id, updates).value.tags
    ensures UpdateAll(s, id, updates).value.tags[id].revision == s.tags[id].revision + |updates|
    decreases |updates|
  {
    if |updates| > 0 {
      var s' := UpdateTag(s, id, updates[0]).value;
      RevisionCountsSaves(s', id, updates[1..]);
    }
  }

  /** `full_tag`: the unit's full path, then the tag number. */
  function FullTag(s: Store, f: TagFields): string {
    H.FullPath(s.nodes, f.unit) + H.PathSeparator + f.tagNumber
  }

  /** On a consistent store a tag's full identifier has four segments: plant, area, unit and tag number. */
  lemma FullTagSegments(s: Store, id: TagId)
    requires Consistent(s) && id in s.tags
    ensures var f := s.tags[id].fields;
            var path := H.Path(s.nodes, f.unit);
            && |path| == 3
            && FullTag(s, f) == Strings.Join(H.Codes(s.nodes, path) + [f.tagNumber], H.PathSeparator)
  {
    var f := s.tags[id].fields;
    assert TagPlaced(s, f);
    H.ValidPath(s.nodes, f.unit);
    var path := H.Path(s.nodes, f.unit);
    Strings.JoinSnoc(H.Codes(s.nodes, path), H.PathSeparator, f.tagNumber);
  }

  // ---------------------------------------------------------------------------
  // Deletes
  // ---------------------------------------------------------------------------

  datatype DeleteError = NotFound | Protected

  /** Some loop or tag sits on a node of the subtree rooted at `id`. */
  predicate SubtreeReferenced(s: Store, id: H.NodeId) {
    || (exists l | l in s.loops :: H.InSubtree(s.nodes, id, s.loops[l].unit))
    || (exists t | t in s.tags :: H.InSubtree(s.nodes, id, s.tags[t].fields.unit))
  }

  /**
    Deleting a hierarchy node removes its whole subtree (CASCADE), unless a
    loop or tag still sits on one of those nodes (PROTECT).
  */
  function DeleteNode(s: Store, id: H.NodeId): (r: Result<Store, DeleteError>)
    ensures r == Err(NotFound) <==> id !in s.nodes
    ensures r == Err(Protected) <==> id in s.nodes && SubtreeReferenced(s, id)
    ensures r.Ok? ==> r.value == s.(nodes := H.RemoveSubtree(s.nodes, id))
  {
    if id !in s.nodes then Err(NotFound)
    else if SubtreeReferenced(s, id) then Err(Protected)
    else Ok(s.(nodes := H.RemoveSubtree(s.nodes, id)))
  }

  lemma {:induction false} DeleteNodePreservesConsistent(s: Store, id: H.NodeId)
    requires Consistent(s) && DeleteNode(s, id).Ok?
    ensures Consistent(DeleteNode(s, id).value)
  {
    var s' := DeleteNode(s, id).value;
    H.RemoveSubtreePreservesValid(s.nodes, id);
    forall l | l in s'.loops
      ensures IsUnit(s'.nodes, s'.loops[l].unit)
    {
      assert !H.InSubtree(s.nodes, id, s.loops[l].unit);
    }
    forall t | t in s'.tags
      ensures TagPlaced(s', s'.tags[t].fields)
    {
      assert TagPlaced(s, s.tags[t].fields);
      assert !H.InSubtree(s.nodes, id, s.tags[t].fields.unit);
    }
  }

  /** Deleting a loop detaches its tags (SET_NULL) and touches nothing else. */
  function DeleteLoop(s: Store, id: LoopId): (r: Result<Store, DeleteError>)
    ensures r.Err? <==> id !in s.loops
    ensures r.Ok? ==>
              && r.value.nodes == s.nodes && r.value.types == s.types
              && r.value.loops == s.loops - {id}
              && r.value.tags.Keys == s.tags.Keys
              && (forall t | t in s.tags :: r.value.tags[t].revision == s.tags[t].revision)
              && (forall t | t in s.tags :: r.value.tags[t].fields == s.tags[t].fields.(loop := r.value.tags[t].fields.loop))
              && (forall t | t in s.tags ::
                    r.value.tags[t].fields.loop == if s.tags[t].fields.loop == Some(id) then None else s.tags[t].fields.loop)
  {
    if id !in s.loops then Err(NotFound)
    else
      var tags := map t | t in s.tags ::
        if s.tags[t].fields.loop == Some(id) then s.tags[t].(fields := s.tags[t].fields.(loop := None)) else s.tags[t];
      Ok(s.(loops := s.loops - {id}, tags := tags))
  }

  lemma DeleteLoopPreservesConsistent(s: Store, id: LoopId)
    requires Consistent(s) && DeleteLoop(s, id).Ok?
    ensures Consistent(DeleteLoop(s, id).value)
  {
    var s' := DeleteLoop(s, id).value;
    forall t | t in s'.tags
      ensures TagPlaced(s', s'.tags[t].fields)
    {
      assert TagPlaced(s, s.tags[t].fields);
    }
    forall a, b | a in s'.tags && b in s'.tags && a != b && s'.tags[a].fields.unit == s'.tags[b].fields.unit
      ensures s'.tags[a].fields.tagNumber != s'.tags[b].fields.tagNumber
    {
      assert s'.tags[a].fields.tagNumber == s.tags[a].fields.tagNumber;
      assert s'.tags[b].fields.tagNumber == s.tags[b].fields.tagNumber;
    }
  }

  /** Deleting an instrument type is refused while any tag uses it (PROTECT). */
  function DeleteInstrumentType(s: Store, id: TypeId): (r: Result<Store, DeleteError>)
    ensures r == Err(NotFound) <==> id !in s.types
    ensures r == Err(Protected) <==> id in s.types && exists t | t in s.tags :: s.tags[t].fields.instrumentType == id
    ensures r.Ok? ==> r.value == s.(types := s.types - {id})
  {
    if id !in s.types then Err(NotFound)
    else if exists t | t in s.tags :: s.tags[t].fields.instrumentType == id then Err(Protected)
    else Ok(s.(types := s.types - {id}))
  }

  lemma DeleteInstrumentTypePreservesConsistent(s: Store, id: TypeId)
    requires Consistent(s) && DeleteInstrumentType(s, id).Ok?
    ensures Consistent(DeleteInstrumentType(s, id).value)
  {
    var s' := DeleteInstrumentType(s, id).value;
    forall t | t in s'.tags
      ensures TagPlaced(s', s'.tags[t].fields)
    {
      assert TagPlaced(s, s.tags[t].fields);
    }
  }

  /** Nothing references a tag, so deleting one only removes its row. */
  function DeleteTag(s: Store, id: TagId): (r: Result<Store, DeleteError>)
    ensures r.Err? <==> id !in s.tags
    ensures r.Ok? ==> r.value == s.(tags := s.tags - {id})
  {
    if id !in s.tags then Err(NotFound) else Ok(s.(tags := s.tags - {id}))
  }

  lemma DeleteTagPreservesConsistent(s: Store, id: TagId)
    requires Consistent(s) && DeleteTag(s, id).Ok?
    ensures Consistent(DeleteTag(s, id).value)
  {
    var s' := DeleteTag(s, id).value;
    forall t | t in s'.tags
      ensures TagPlaced(s', s'.tags[t].fields)
    {
      assert TagPlaced(s, s.tags[t].fields);
    }
  }
}

=== FILE: hierarchy.dfy ===
/**
  The plant hierarchy (`PlantHierarchy`): a forest of PLANT, AREA and UNIT
  nodes stored as an id-keyed table. Every save re-runs the model's
  validation: a parentless node must be a PLANT, an AREA sits under a PLANT,
  a UNIT under an AREA, nothing under a UNIT, and codes are unique among the
  children of one parent. The tree library additionally refuses to move a
  node under itself or one of its descendants.
*/
module Hierarchy {
  import opened Wrappers
  import Strings

  datatype NodeKind = Plant | Area | Unit

  /** The depth a node of each kind has in a well-formed hierarchy. */
  function Level(k: NodeKind): nat {
    match k
    case Plant => 0
    case Area => 1
    case Unit => 2
  }

  /** The fixed parent-to-child rule: PLANT -> AREA -> UNIT, nothing below a UNIT. */
  predicate ValidChild(parent: NodeKind, child: NodeKind) {
    (parent == Plant && child == Area) || (parent == Area && child == Unit)
  }

  type NodeId = int

  datatype Node = Node(
    name: string,
    code: string,
    kind: NodeKind,
    parent: Option<NodeId>,
    description: string,
    isActive: bool)

  type Tree = map<NodeId, Node>

  // ---------------------------------------------------------------------------
  // The well-formedness invariant
  // ---------------------------------------------------------------------------

  /** The hierarchy rule for one node, read against the stored table. */
  predicate ParentRuleHolds(t: Tree, n: Node) {
    match n.parent
    case None => n.kind == Plant
    case Some(p) => p in t && ValidChild(t[p].kind, n.kind)
  }

  /**
    The `(parent, code)` constraint. A parentless node has a SQL NULL parent,
    and NULLs never collide, so root codes may repeat.
  */
  predicate SiblingCodesUnique(t: Tree) {
    forall a, b | a in t && b in t && a != b && t[a].parent.Some? && t[a].parent == t[b].parent ::
      t[a].code != t[b].code
  }

  /** Every stored node obeys the parent-to-child rule. */
  predicate ParentRulesHold(t: Tree) {
    forall id | id in t :: ParentRuleHolds(t, t[id])
  }

  predicate Valid(t: Tree) {
    ParentRulesHold(t) && SiblingCodesUnique(t)
  }

  // ---------------------------------------------------------------------------
  // Ancestry
  // ---------------------------------------------------------------------------

  /**
    The ids from the root down to `id`, inclusive (`get_ancestors(include_self=True)`).
    Each visited node is dropped from the table before its parent is looked
    up, so the walk ends on any table.
  */
  function Path(t: Tree, id: NodeId): (r: seq<NodeId>)
    ensures forall i | 0 <= i < |r| :: r[i] in t
    ensures id in t <==> |r| > 0
    ensures |r| > 0 ==> r[|r| - 1] == id
    decreases |t|
  {
    if id !in t then []
    else
      var above := match t[id].parent
        case None => []
        case Some(p) => Path(t - {id}, p);
      above + [id]
  }

  /** Dropping a node that is not on the way up from `p` leaves that way unchanged. */
  lemma {:induction false} RemoveOffPath(t: Tree, x: NodeId, p: NodeId)
    requires x !in Path(t, p)
    ensures Path(t - {x}, p) == Path(t, p)
    decreases |t|
  {
    if p in t {
      assert (t - {x}) - {p} == (t - {p}) - {x};
      match t[p].parent
      case None =>
      case Some(q) =>
        RemoveOffPath(t - {p}, x, q);
    }
  }

  /** The node at position `i` of `s` is stored and has level `i`. */
  predicate LevelsMatch(t: Tree, s: seq<NodeId>) {
    forall i | 0 <= i < |s| :: s[i] in t && Level(t[s[i]].kind) == i
  }

  /** Appending a node one level below the last keeps the levels matched, and the node is new. */
  lemma LevelsExtend(t: Tree, up: seq<NodeId>, id: NodeId)
    requires LevelsMatch(t, up) && id in t && Level(t[id].kind) == |up|
    ensures id !in up
    ensures LevelsMatch(t, up + [id])
  {
    var r := up + [id];
    forall i | 0 <= i < |r|
      ensures r[i] in t && Level(t[r[i]].kind) == i
    {
      if i < |up| {
        assert r[i] == up[i];
      }
    }
  }

  /**
    In a valid hierarchy the way up from a node is its parent's way up plus
    the node itself, and the node at position `i` has level `i`.
  */
  lemma {:induction false} ValidPath(t: Tree, id: NodeId)
    requires ParentRulesHold(t) && id in t
    ensures |Path(t, id)| == Level(t[id].kind) + 1
    ensures t[id].parent.None? ==> Path(t, id) == [id]
    ensures t[id].parent.Some? ==> Path(t, id) == Path(t, t[id].parent.value) + [id]
    ensures LevelsMatch(t, Path(t, id))
    decreases Level(t[id].kind)
  {
    assert ParentRuleHolds(t, t[id]);
    if t[id].parent.Some? {
      var p := t[id].parent.value;
      ChildLevel(t[p].kind, t[id].kind);
      ValidPath(t, p);
      LevelsExtend(t, Path(t, p), id);
      PathThroughParent(t, id, p);
    } else {
      assert Path(t, id) == [id];
    }
  }

  /** A child sits exactly one level below its parent. */
  lemma ChildLevel(parent: NodeKind, child: NodeKind)
    requires ValidChild(parent, child)
    ensures Level(child) == Level(parent) + 1
  {
  }

  /** A node that is not on its parent's way up extends that way by itself. */
  lemma PathThroughParent(t: Tree, id: NodeId, p: NodeId)
    requires id in t && t[id].parent == Some(p) && id !in Path(t, p)
    ensures Path(t, id) == Path(t, p) + [id]
  {
    RemoveOffPath(t, id, p);
  }

  /** In a valid hierarchy each node on the way up from `id` is the parent of the next one. */
  lemma {:induction false} PathLinks(t: Tree, id: NodeId)
    requires Valid(t) && id in t
    ensures forall i | 0 <= i < |Path(t, id)| - 1 :: t[Path(t, id)[i + 1]].parent == Some(Path(t, id)[i])
    decreases Level(t[id].kind)
  {
    ValidPath(t, id);
    if t[id].parent.Some? {
      var p := t[id].parent.value;
      ValidPath(t, p);
      PathLinks(t, p);
      var up := Path(t, p);
      var r := Path(t, id);
      forall i | 0 <= i < |r| - 1
        ensures t[r[i + 1]].parent == Some(r[i])
      {
        if i + 1 < |up| {
          assert r[i + 1] == up[i + 1] && r[i] == up[i];
        }
      }
    }
  }

  /** A valid hierarchy is at most three levels deep. */
  lemma DepthAtMostThree(t: Tree, id: NodeId)
    requires Valid(t) && id in t
    ensures 1 <= |Path(t, id)| <= 3
    ensures t[Path(t, id)[0]].parent.None? && t[Path(t, id)[0]].kind == Plant
  {
    ValidPath(t, id);
    var r := Path(t, id);
    assert ParentRuleHolds(t, t[r[0]]);
  }

  /** `d` lies in the subtree rooted at `a` (a node is its own descendant). */
  predicate InSubtree(t: Tree, a: NodeId, d: NodeId) {
    a in Path(t, d)
  }

  /** The children of a node whose parent is inside a subtree are inside it too. */
  lemma SubtreeClosed(t: Tree, a: NodeId, c: NodeId)
    requires Valid(t) && c in t && t[c].parent.Some?
    requires InSubtree(t, a, t[c].parent.value)
    ensures InSubtree(t, a, c)
  {
    ValidPath(t, c);
  }

  // ---------------------------------------------------------------------------
  // full_path
  // ---------------------------------------------------------------------------

  function Codes(t: Tree, ids: seq<NodeId>): (r: seq<string>)
    requires forall i | 0 <= i < |ids| :: ids[i] in t
    ensures |r| == |ids|
    ensures forall i | 0 <= i < |ids| :: r[i] == t[ids[i]].code
  {
    seq(|ids|, i requires 0 <= i < |ids| => t[ids[i]].code)
  }

  const PathSeparator: string := " / "

  /** `full_path`: the codes from the root to the node, joined by " / ". */
  function FullPath(t: Tree, id: NodeId): string {
    Strings.Join(Codes(t, Path(t, id)), PathSeparator)
  }

  /** A root's path is its own code; a child's path extends its parent's by one segment. */
  lemma FullPathExtendsParent(t: Tree, id: NodeId)
    requires Valid(t) && id in t
    ensures t[id].parent.None? ==> FullPath(t, id) == t[id].code
    ensures t[id].parent.Some? ==>
              FullPath(t, id) == FullPath(t, t[id].parent.value) + PathSeparator + t[id].code
  {
    ValidPath(t, id);
    match t[id].parent
    case None =>
    case Some(p) =>
      var up := Path(t, p);
      assert Codes(t, up + [id]) == Codes(t, up) + [t[id].code];
      Strings.JoinSnoc(Codes(t, up), PathSeparator, t[id].code);
  }

  // ---------------------------------------------------------------------------
  // save()
  // ---------------------------------------------------------------------------

  datatype NodeError =
    | UnknownParent(parent: NodeId)
    | NotAllowedUnder(kind: NodeKind, parentKind: NodeKind)
    | RootMustBePlant
    | DuplicateCode
    | InvalidMove
    | StrandsChildren

  /** Some other child of `p` already uses `code`. */
  predicate CodeTaken(t: Tree, id: NodeId, p: NodeId, code: string) {
    exists o | o in t :: o != id && t[o].parent == Some(p) && t[o].code == code
  }

  /**
    What `full_clean` reports for node `id` saved with the values `n`: the
    parent must exist, the hierarchy rule is checked against the stored
    parent, and the `(parent, code)` constraint is checked against every other
    node. Both of the last two are reported together.
  */
  function NodeErrors(t: Tree, id: NodeId, n: Node): (r: seq<NodeError>)
    ensures r == [] <==> ParentRuleHolds(t, n) && (n.parent.Some? ==> !CodeTaken(t, id, n.parent.value, n.code))
  {
    match n.parent
    case None => if n.kind == Plant then [] else [RootMustBePlant]
    case Some(p) =>
      if p !in t then [UnknownParent(p)]
      else
        (if ValidChild(t[p].kind, n.kind) then [] else [NotAllowedUnder(n.kind, t[p].kind)])
        + (if CodeTaken(t, id, p, n.code) then [DuplicateCode] else [])
  }

  /** The tree library's refusal to re-parent a node under itself or its own descendant. */
  predicate MovesUnderItself(t: Tree, id: NodeId, n: Node) {
    id in t && n.parent.Some? && t[id].parent != n.parent && InSubtree(t, id, n.parent.value)
  }

  /**
    `save()` as written: validation looks at the saved node only, so the
    existing children of a node whose kind or parent changes are not
    re-checked.
  */
  function SaveNodeAsWritten(t: Tree, id: NodeId, n: Node): (r: Result<Tree, seq<NodeError>>)
    ensures r.Ok? <==> NodeErrors(t, id, n) == [] && !MovesUnderItself(t, id, n)
    ensures NodeErrors(t, id, n) != [] ==> r == Err(NodeErrors(t, id, n))
    ensures NodeErrors(t, id, n) == [] && MovesUnderItself(t, id, n) ==> r == Err([InvalidMove])
    ensures r.Ok? ==> r.value == t[id := n] && ParentRuleHolds(t, n)
    ensures r.Ok? && n.parent.Some? ==> !CodeTaken(t, id, n.parent.value, n.code)
    ensures r.Err? ==> |r.error| > 0
  {
    var errors := NodeErrors(t, id, n);
    if errors != [] then Err(errors)
    else if MovesUnderItself(t, id, n) then Err([InvalidMove])
    else Ok(t[id := n])
  }

  /** A stored child of `id` that would break the hierarchy rule under a node of kind `k`. */
  predicate HasStrandedChild(t: Tree, id: NodeId, k: NodeKind) {
    exists c | c in t :: c != id && t[c].parent == Some(id) && !ValidChild(k, t[c].kind)
  }

  /** `save()` with the hierarchy rule re-checked for the node's existing children. */
  function SaveNode(t: Tree, id: NodeId, n: Node): (r: Result<Tree, seq<NodeError>>)
    ensures r.Ok? ==> r.value == t[id := n]
    ensures r.Ok? ==> ParentRuleHolds(t, n)
    ensures r.Ok? ==> forall c | c in r.value && c != id && r.value[c].parent == Some(id) :: ValidChild(n.kind, r.value[c].kind)
    ensures HasStrandedChild(t, id, n.kind) ==> r == Err(NodeErrors(t, id, n) + [StrandsChildren])
    ensures r.Err? ==> |r.error| > 0
  {
    var errors := NodeErrors(t, id, n) + (if HasStrandedChild(t, id, n.kind) then [StrandsChildren] else []);
    if errors != [] then Err(errors)
    else if MovesUnderItself(t, id, n) then Err([InvalidMove])
    else Ok(t[id := n])
  }

  /** The corrected save accepts a subset of what the written one accepts, with the same result. */
  lemma SaveNodeRefinesAsWritten(t: Tree, id: NodeId, n: Node)
    ensures SaveNode(t, id, n).Ok? ==> SaveNodeAsWritten(t, id, n) == SaveNode(t, id, n)
  {
  }

  /** On a valid hierarchy, the corrected save succeeds exactly when the table it writes is valid. */
  lemma {:induction false} SaveNodeExact(t: Tree, id: NodeId, n: Node)
    requires Valid(t)
    ensures SaveNode(t, id, n).Ok? <==> Valid(t[id := n])
  {
    if SaveNode(t, id, n).Ok? {
      SaveNodePreservesValid(t, id, n);
    } else if Valid(t[id := n]) {
      SaveNodeAcceptsValid(t, id, n);
    }
  }

  lemma {:induction false} SaveNodePreservesValid(t: Tree, id: NodeId, n: Node)
    requires Valid(t) && SaveNode(t, id, n).Ok?
    ensures Valid(t[id := n])
  {
    var u := t[id := n];
    assert !HasStrandedChild(t, id, n.kind);
    forall c | c in u
      ensures ParentRuleHolds(u, u[c])
    {
      if c != id {
        assert ParentRuleHolds(t, t[c]);
      }
    }
  }

  lemma {:induction false} SaveNodeAcceptsValid(t: Tree, id: NodeId, n: Node)
    requires Valid(t) && Valid(t[id := n])
    ensures SaveNode(t, id, n).Ok?
  {
    var u := t[id := n];
    assert ParentRuleHolds(u, u[id]);
    if n.parent.Some? {
      var p := n.parent.value;
      if p == id {
        assert false;
      }
      forall o | o in t && o != id && t[o].parent == Some(p)
        ensures t[o].code != n.code
      {
        assert u[o].parent == u[id].parent;
      }
    }
    forall c | c in t && c != id && t[c].parent == Some(id)
      ensures ValidChild(n.kind, t[c].kind)
    {
      assert ParentRuleHolds(u, u[c]);
    }
    if MovesUnderItself(t, id, n) {
      NoMoveUnderDescendant(t, id, n);
    }
  }

  /**
    In a valid hierarchy, placing a node under one of its own proper
    descendants never yields a valid one: the descendant's level is larger
    than the node's, while the node's child on the way down would need the
    node to keep its level.
  */
  lemma {:induction false} NoMoveUnderDescendant(t: Tree, id: NodeId, n: Node)
    requires Valid(t) && MovesUnderItself(t, id, n)
    ensures !Valid(t[id := n])
  {
    var u := t[id := n];
    var p := n.parent.value;
    if Valid(u) {
      assert ParentRuleHolds(u, u[id]);
      if p == id {
        assert false;
      } else {
        ValidPath(t, p);
        PathLinks(t, p);
        assert false;
      }
    }
  }

  /** A valid hierarchy with a plant `P1` (holding area `A1`) next to a second plant `P2`. */
  const TwoPlants: Tree := map[
    1 := Node("Plant 1", "P1", Plant, None, "", true),
    2 := Node("Area 1", "A1", Area, Some(1), "", true),
    3 := Node("Plant 2", "P2", Plant, None, "", true)]

  /** `P1` saved as an AREA under `P2`. */
  const PlantMovedUnderPlant: Node := Node("Plant 1", "P1", Area, Some(3), "", true)

  /**
    The written save can break the hierarchy: moving a PLANT that has an AREA
    below it under another PLANT, as an AREA, leaves an AREA under an AREA.
    The corrected save refuses the same request.
  */
  lemma AsWrittenStrandsChildren()
    ensures Valid(TwoPlants)
    ensures SaveNodeAsWritten(TwoPlants, 1, PlantMovedUnderPlant).Ok?
    ensures !Valid(SaveNodeAsWritten(TwoPlants, 1, PlantMovedUnderPlant).value)
    ensures SaveNode(TwoPlants, 1, PlantMovedUnderPlant) == Err([StrandsChildren])
  {
    var t := TwoPlants;
    var moved := PlantMovedUnderPlant;
    assert t.Keys == {1, 2, 3};
    assert ParentRuleHolds(t, t[1]) && ParentRuleHolds(t, t[2]) && ParentRuleHolds(t, t[3]);
    assert Path(t, 3) == [3];
    assert !MovesUnderItself(t, 1, moved);
    assert !CodeTaken(t, 1, 3, "P1");
    var u := t[1 := moved];
    assert !ParentRuleHolds(u, u[2]);
    assert t[2].parent == Some(1) && !ValidChild(Area, t[2].kind);
    assert HasStrandedChild(t, 1, moved.kind);
    assert NodeErrors(t, 1, moved) + [StrandsChildren] == [StrandsChildren];
  }

  // ---------------------------------------------------------------------------
  // Deletion and the list views
  // ---------------------------------------------------------------------------

  /** Deleting node `id` cascades to every node of its subtree. */
  function RemoveSubtree(t: Tree, id: NodeId): (r: Tree)
    ensures id !in r
    ensures forall n | n in r :: n in t && r[n] == t[n] && !InSubtree(t, id, n)
    ensures forall n | n in t && !InSubtree(t, id, n) :: n in r
  {
    map n | n in t && !InSubtree(t, id, n) :: t[n]
  }

  /** Removing a whole subtree leaves a valid hierarchy valid. */
  lemma {:induction false} RemoveSubtreePreservesValid(t: Tree, id: NodeId)
    requires Valid(t)
    ensures Valid(RemoveSubtree(t, id))
  {
    var r := RemoveSubtree(t, id);
    forall c | c in r
      ensures ParentRuleHolds(r, r[c])
    {
      assert ParentRuleHolds(t, t[c]);
      match t[c].parent
      case None =>
      case Some(p) =>
        if InSubtree(t, id, p) {
          SubtreeClosed(t, id, c);
        }
    }
  }

  /** The `tree` view starts from the active root nodes. */
  function ActiveRoots(t: Tree): (r: set<NodeId>)
    ensures forall id | id in r :: id in t && t[id].parent.None? && t[id].isActive
    ensures forall id | id in t && t[id].parent.None? && t[id].isActive :: id in r
  {
    set id | id in t && t[id].parent.None? && t[id].isActive
  }

  /** The `units` view: every active UNIT node. */
  function ActiveUnits(t: Tree): (r: set<NodeId>)
    ensures forall id | id in r :: id in t && t[id].kind == Unit && t[id].isActive
    ensures forall id | id in t && t[id].kind == Unit && t[id].isActive :: id in r
  {
    set id | id in t && t[id].kind == Unit && t[id].isActive
  }

  /** In a valid hierarchy the roots are plants, and every unit sits three levels down. */
  lemma ViewsInValidTree(t: Tree)
    requires Valid(t)
    ensures forall id | id in ActiveRoots(t) :: t[id].kind == Plant
    ensures forall id | id in ActiveUnits(t) :: |Path(t, id)| == 3
  {
    forall id | id in ActiveRoots(t)
      ensures t[id].kind == Plant
    {
      assert ParentRuleHolds(t, t[id]);
    }
    forall id | id in ActiveUnits(t)
      ensures |Path(t, id)| == 3
    {
      ValidPath(t, id);
    }
  }
}

=== FILE: hierarchy_selection.dfy ===
/**
  The frontend's hierarchy selector: four cascading choices (project,
  client, site, plant), each list loaded once the level above is chosen.
  State changes are modelled as functions from one state to the next; the
  fetches themselves are left out and their results arrive as `Load*` events.
*/
module HierarchySelection {
  import opened Wrappers
  import Strings

  /** A listed record: its id and the code shown in the path (a project's `project_no`). */
  datatype Item = Item(id: int, code: string)

  datatype State = State(
    projects: seq<Item>,
    clients: seq<Item>,
    sites: seq<Item>,
    plants: seq<Item>,
    project: Option<Item>,
    client: Option<Item>,
    site: Option<Item>,
    plant: Option<Item>)

  const Initial: State := State([], [], [], [], None, None, None, None)

  // ---------------------------------------------------------------------------
  // Selecting
  // ---------------------------------------------------------------------------

  /** The lists are kept by every selection. */
  predicate SameLists(a: State, b: State) {
    a.projects == b.projects && a.clients == b.clients && a.sites == b.sites && a.plants == b.plants
  }

  /** `selectProject`: sets the project and clears client, site and plant. */
  function SelectProject(s: State, p: Option<Item>): (r: State)
    ensures r.project == p && r.client.None? && r.site.None? && r.plant.None?
    ensures SameLists(r, s)
  {
    s.(project := p, client := None, site := None, plant := None)
  }

  /** `selectClient`: keeps the project, sets the client, clears site and plant. */
  function SelectClient(s: State, c: Option<Item>): (r: State)
    ensures r.project == s.project && r.client == c && r.site.None? && r.plant.None?
    ensures SameLists(r, s)
  {
    s.(client := c, site := None, plant := None)
  }

  /** `selectSite`: keeps project and client, sets the site, clears the plant. */
  function SelectSite(s: State, x: Option<Item>): (r: State)
    ensures r.project == s.project && r.client == s.client && r.site == x && r.plant.None?
    ensures SameLists(r, s)
  {
    s.(site := x, plant := None)
  }

  /** `selectPlant`: changes the plant only. */
  function SelectPlant(s: State, x: Option<Item>): (r: State)
    ensures r.project == s.project && r.client == s.client && r.site == s.site && r.plant == x
    ensures SameLists(r, s)
  {
    s.(plant := x)
  }

  // ---------------------------------------------------------------------------
  // Clearing effects
  // ---------------------------------------------------------------------------

  /** Every empty selection has an empty list and an empty selection below it. */
  predicate Settled(s: State) {
    && (s.project.None? ==> s.clients == [] && s.client.None?)
    && (s.client.None? ==> s.sites == [] && s.site.None?)
    && (s.site.None? ==> s.plants == [] && s.plant.None?)
  }

  /**
    The three effects that watch the selections, run top-down: a null
    project empties the clients and clears the client, and so on down.
  */
  function Settle(s: State): (r: State)
    ensures Settled(r)
    ensures r.projects == s.projects && r.project == s.project
    ensures r.client == (if s.project.None? then None else s.client)
    ensures r.site == (if r.client.None? then None else s.site)
    ensures r.plant == (if r.site.None? then None else s.plant)
    ensures r.clients == (if s.project.None? then [] else s.clients)
    ensures r.sites == (if r.client.None? then [] else s.sites)
    ensures r.plants == (if r.site.None? then [] else s.plants)
  {
    var afterProject := if s.project.None? then s.(clients := [], client := None) else s;
    var afterClient := if afterProject.client.None? then afterProject.(sites := [], site := None) else afterProject;
    if afterClient.site.None? then afterClient.(plants := [], plant := None) else afterClient
  }

  /** A settled state is left alone by the effects. */
  lemma SettleFixesSettled(s: State)
    requires Settled(s)
    ensures Settle(s) == s
  {
  }

  /** Once settled, an empty selection clears every level below it. */
  lemma {:induction false} SettledCascades(s: State)
    requires Settled(s)
    ensures s.project.None? ==> s.client.None? && s.site.None? && s.plant.None?
    ensures s.project.None? ==> s.clients == [] && s.sites == [] && s.plants == []
    ensures s.client.None? ==> s.site.None? && s.plant.None? && s.sites == [] && s.plants == []
  {
  }

  /** Clearing the project and letting the effects run returns to the empty selection, lists aside. */
  lemma ClearProjectClearsAll(s: State)
    ensures var r := Settle(SelectProject(s, None));
            r.project.None? && r.client.None? && r.site.None? && r.plant.None?
            && r.clients == [] && r.sites == [] && r.plants == [] && r.projects == s.projects
  {
  }

  // ---------------------------------------------------------------------------
  // Loads
  // ---------------------------------------------------------------------------

  /** `loadProjects`: stores the list and selects its first project only if none is selected. */
  function LoadProjects(s: State, data: seq<Item>): (r: State)
    ensures r.projects == data
    ensures s.project.Some? ==> r.project == s.project
    ensures s.project.None? && |data| > 0 ==> r.project == Some(data[0])
    ensures s.project.None? && |data| == 0 ==> r.project.None?
    ensures r.(projects := s.projects, project := s.project) == s
  {
    var r := s.(projects := data);
    if |data| > 0 && s.project.None? then r.(project := Some(data[0])) else r
  }

  /** `loadClients`: stores the list and selects its first client whenever it is non-empty. */
  function LoadClients(s: State, data: seq<Item>): (r: State)
    ensures r.clients == data
    ensures |data| > 0 ==> r.client == Some(data[0])
    ensures |data| == 0 ==> r.client == s.client
    ensures r.(clients := s.clients, client := s.client) == s
  {
    var r := s.(clients := data);
    if |data| > 0 then r.(client := Some(data[0])) else r
  }

  /** `loadSites`. */
  function LoadSites(s: State, data: seq<Item>): (r: State)
    ensures r.sites == data
    ensures |data| > 0 ==> r.site == Some(data[0])
    ensures |data| == 0 ==> r.site == s.site
    ensures r.(sites := s.sites, site := s.site) == s
  {
    var r := s.(sites := data);
    if |data| > 0 then r.(site := Some(data[0])) else r
  }

  /** `loadPlants`. */
  function LoadPlants(s: State, data: seq<Item>): (r: State)
    ensures r.plants == data
    ensures |data| > 0 ==> r.plant == Some(data[0])
    ensures |data| == 0 ==> r.plant == s.plant
    ensures r.(plants := s.plants, plant := s.plant) == s
  {
    var r := s.(plants := data);
    if |data| > 0 then r.(plant := Some(data[0])) else r
  }

  /** Reloading the projects never replaces a project the user already chose. */
  lemma ReloadKeepsChoice(s: State, data: seq<Item>)
    requires s.project.Some?
    ensures LoadProjects(s, data).project == s.project
  {
  }

  /**
    From the initial state, loading non-empty lists level by level selects
    the first entry of each.
  */
  lemma FirstLoadSelectsFirsts(ps: seq<Item>, cs: seq<Item>, ss: seq<Item>, pls: seq<Item>)
    requires |ps| > 0 && |cs| > 0 && |ss| > 0 && |pls| > 0
    ensures var r := LoadPlants(LoadSites(LoadClients(LoadProjects(Initial, ps), cs), ss), pls);
            r.project == Some(ps[0]) && r.client == Some(cs[0]) && r.site == Some(ss[0]) && r.plant == Some(pls[0])
  {
  }

  // ---------------------------------------------------------------------------
  // The current path
  // ---------------------------------------------------------------------------

  const NoSelectionText: string := "Select Project"
  const PathSeparator: string := " / "

  /** The code of a selection when it is present and non-empty (JavaScript's `filter(Boolean)`). */
  function Part(x: Option<Item>): seq<string> {
    if x.Some? && x.value.code != "" then [x.value.code] else []
  }

  /** The codes shown, top-down. */
  function Parts(s: State): (r: seq<string>)
    ensures |r| <= 4
    ensures forall i | 0 <= i < |r| :: r[i] != ""
  {
    Part(s.project) + Part(s.client) + Part(s.site) + Part(s.plant)
  }

  /** `currentPath`: the codes joined by " / ", or "Select Project" when there are none. */
  function CurrentPath(s: State): (r: string)
    ensures r != ""
    ensures Parts(s) == [] ==> r == NoSelectionText
    ensures Parts(s) != [] ==> r == Strings.Join(Parts(s), PathSeparator)
  {
    var joined := Strings.Join(Parts(s), PathSeparator);
    if joined == "" then NoSelectionText else joined
  }

  /** Right after a project is chosen, the path is its number alone. */
  lemma PathAfterSelectProject(s: State, p: Item)
    ensures CurrentPath(SelectProject(s, Some(p))) == if p.code != "" then p.code else NoSelectionText
  {
    var r := SelectProject(s, Some(p));
    assert Parts(r) == Part(Some(p));
  }

  /** Choosing a plant with a code extends a non-empty path by one segment. */
  lemma PathAfterSelectPlant(s: State, x: Item)
    requires x.code != "" && Parts(s.(plant := None)) != []
    ensures CurrentPath(SelectPlant(s, Some(x))) == CurrentPath(s.(plant := None)) + PathSeparator + x.code
  {
    var before := s.(plant := None);
    var after := SelectPlant(s, Some(x));
    assert Parts(after) == Parts(before) + [x.code];
    Strings.JoinSnoc(Parts(before), PathSeparator, x.code);
  }
}

=== FILE: json.dfy ===
/**
  JSON values as the backend's `JSONField`s hold them once decoded into
  Python: `None`, booleans, numbers, strings, lists and dicts. A dict is an
  ordered list of members because Python dicts keep insertion order, and the
  schema validator walks a template's keywords in that order.
*/
module Json {
  import opened Wrappers
  import Strings

  datatype Json =
    | JNull
    | JBool(b: bool)
    | JNum(n: int)
    | JStr(s: string)
    | JArr(items: seq<Json>)
    | JObj(members: seq<Member>)

  datatype Member = Member(key: string, value: Json)

  /** The empty dict `{}`, the default of every `JSONField(default=dict)`. */
  const EmptyObject: Json := JObj([])

  /** Python truthiness (`if value:`): `None`, `False`, `0`, `""`, `[]` and `{}` are false. */
  predicate Truthy(j: Json) {
    match j
    case JNull => false
    case JBool(b) => b
    case JNum(n) => n != 0
    case JStr(s) => |s| > 0
    case JArr(items) => |items| > 0
    case JObj(members) => |members| > 0
  }

  function Keys(members: seq<Member>): seq<string> {
    seq(|members|, i requires 0 <= i < |members| => members[i].key)
  }

  /** `key in d` for a dict. */
  predicate HasKey(members: seq<Member>, key: string) {
    exists i | 0 <= i < |members| :: members[i].key == key
  }

  /** `d.get(key)`: the value stored under `key`, if any. */
  function Get(members: seq<Member>, key: string): (r: Option<Json>)
    ensures r.Some? <==> HasKey(members, key)
    ensures r.Some? ==> exists i | 0 <= i < |members| :: members[i] == Member(key, r.value)
  {
    if |members| == 0 then None
    else if members[0].key == key then Some(members[0].value)
    else
      var rest := Get(members[1..], key);
      assert rest.Some? ==> exists i | 0 <= i < |members| - 1 :: members[1..][i] == Member(key, rest.value);
      rest
  }

  /**
    Equality of decoded JSON values as jsonschema's `equal` decides it for
    the values modelled here: dicts compare by key set and per-key value,
    whatever their insertion order; lists compare element-wise.
  */
  predicate JsonEqual(a: Json, b: Json)
    decreases a, 0
  {
    if a.JArr? then
      b.JArr? && |a.items| == |b.items| && forall i | 0 <= i < |a.items| :: JsonEqual(a.items[i], b.items[i])
    else if a.JObj? then
      b.JObj? && |a.members| == |b.members| && forall i | 0 <= i < |a.members| :: MemberMatched(a.members[i], b.members)
    else
      a == b
  }

  /** Some member of `ys` has the key of `x` and a value equal to that of `x`. */
  predicate MemberMatched(x: Member, ys: seq<Member>)
    decreases x.value, 1
  {
    exists k | 0 <= k < |ys| :: ys[k].key == x.key && JsonEqual(x.value, ys[k].value)
  }

  lemma {:induction false} JsonEqualReflexive(a: Json)
    ensures JsonEqual(a, a)
  {
    match a
    case JArr(xs) =>
      forall i | 0 <= i < |xs| ensures JsonEqual(xs[i], xs[i]) {
        JsonEqualReflexive(xs[i]);
      }
    case JObj(xs) =>
      forall i | 0 <= i < |xs| ensures MemberMatched(xs[i], xs) {
        JsonEqualReflexive(xs[i].value);
      }
    case _ =>
  }

  /**
    Python's `repr` of a decoded JSON value, used to render validation
    messages. Strings are always single-quoted; Python's choice of quote
    character and its escaping of special characters are not modelled.
  */
  function Repr(j: Json): string {
    match j
    case JNull => "None"
    case JBool(b) => if b then "True" else "False"
    case JNum(n) => Strings.IntToString(n)
    case JStr(s) => "'" + s + "'"
    case JArr(items) => "[" + Strings.Join(ReprItems(items), ", ") + "]"
    case JObj(members) => "{" + Strings.Join(ReprMembers(members), ", ") + "}"
  }

  function ReprItems(items: seq<Json>): (r: seq<string>)
    ensures |r| == |items|
  {
    if |items| == 0 then [] else [Repr(items[0])] + ReprItems(items[1..])
  }

  function ReprMembers(members: seq<Member>): (r: seq<string>)
    ensures |r| == |members|
  {
    if |members| == 0 then []
    else ["'" + members[0].key + "': " + Repr(members[0].value)] + ReprMembers(members[1..])
  }
}

=== FILE: spec_validator.dfy ===
/**
  `InstrumentType.validate_spec_data`: checks a tag's specification document
  against its instrument type's template and reports at most one message.

  The library call underneath is modelled for the keywords instrument-type
  templates use: `type` and `enum` (sections 6.1.1 and 6.1.2 of JSON Schema
  Validation draft 2020-12), `required` (section 6.5.3 of the same draft) and
  `properties` (section 10.3.2.1 of JSON Schema Core draft 2020-12). Boolean
  schemas are modelled too; every other keyword is ignored.

  The library (the jsonschema 4 releases, whose default draft is 2020-12)
  first checks the template itself against the draft's metaschema and
  reports the first problem in the metaschema's order; it then collects the
  instance's violations in the order of the template's keywords and reports
  the most relevant one, the first among those found at the shallowest
  instance path.
*/
module SpecValidator {
  import opened Wrappers
  import opened Json
  import Strings

  /** The seven type names a `type` keyword may use. */
  const SimpleTypes: seq<string> := ["array", "boolean", "integer", "null", "number", "object", "string"]

  /**
    The library's type test. Booleans are not numbers, and with integer-only
    numbers `integer` and `number` accept the same values.
  */
  predicate HasType(j: Json, t: string) {
    if t == "array" then j.JArr?
    else if t == "boolean" then j.JBool?
    else if t == "integer" || t == "number" then j.JNum?
    else if t == "null" then j.JNull?
    else if t == "object" then j.JObj?
    else if t == "string" then j.JStr?
    else false
  }

  // ---------------------------------------------------------------------------
  // Checking the template itself (the library's SchemaError)
  // ---------------------------------------------------------------------------

  /** Why a template is not a schema, with the offending value. */
  datatype SchemaProblem =
    | NotASchema(value: Json)
    | BadType(value: Json)
    | BadEnum(value: Json)
    | RequiredNotArray(value: Json)
    | RequiredItemNotString(item: Json)
    | RequiredNotUnique(value: Json)
    | BadProperties(value: Json)

  /** The message of the first metaschema error, as the library words it. */
  function ProblemMessage(p: SchemaProblem): string {
    match p
    case NotASchema(v) => Repr(v) + " is not of type 'object', 'boolean'"
    case BadType(v) => Repr(v) + " is not valid under any of the given schemas"
    case BadEnum(v) => Repr(v) + " is not of type 'array'"
    case RequiredNotArray(v) => Repr(v) + " is not of type 'array'"
    case RequiredItemNotString(x) => Repr(x) + " is not of type 'string'"
    case RequiredNotUnique(v) => Repr(v) + " has non-unique elements"
    case BadProperties(v) => Repr(v) + " is not of type 'object'"
  }

  predicate IsTypeName(j: Json) {
    j.JStr? && j.s in SimpleTypes
  }

  /** A `type` value: one type name, or a non-empty list of distinct type names. */
  predicate WellFormedType(v: Json) {
    || IsTypeName(v)
    || (&& v.JArr? && |v.items| > 0
        && (forall i | 0 <= i < |v.items| :: IsTypeName(v.items[i]))
        && (forall i, k | 0 <= i < k < |v.items| :: v.items[i] != v.items[k]))
  }

  /** A `required` value: a list of distinct strings. */
  predicate WellFormedRequired(v: Json) {
    && v.JArr?
    && (forall i | 0 <= i < |v.items| :: v.items[i].JStr?)
    && (forall i, k | 0 <= i < k < |v.items| :: v.items[i] != v.items[k])
  }

  /**
    The first problem of a template, or `None` when it is a schema. The
    metaschema of JSON Schema draft 2020-12 is applied in its own order, not
    the template's: the core vocabulary's `type: ["object", "boolean"]`
    first, then the applicator vocabulary (here `properties`), then the
    validation vocabulary's `type`, `enum` and `required`, in that order.
    The library reaches the sub-schemas of `properties` through the
    metaschema's `additionalProperties`, which walks the names as a Python
    set, so among several malformed sub-schemas the one reported depends on
    the process's string hashing; the model takes them in the template's
    order.
  */
  function SchemaCheck(schema: Json): Option<SchemaProblem>
    decreases schema, 3
  {
    match schema
    case JBool(_) => None
    case JObj(members) =>
      var applicator := PropertiesKeywordCheck(members);
      if applicator.Some? then applicator else ValidationKeywordsCheck(members)
    case _ => Some(NotASchema(schema))
  }

  /** The applicator vocabulary: a `properties` value must be an object of schemas. */
  function PropertiesKeywordCheck(members: seq<Member>): Option<SchemaProblem>
    decreases members, 2
  {
    if |members| == 0 then None
    else if members[0].key == "properties" then
      match members[0].value
      case JObj(props) => PropertiesCheck(props)
      case v => Some(BadProperties(v))
    else PropertiesKeywordCheck(members[1..])
  }

  function PropertiesCheck(props: seq<Member>): Option<SchemaProblem>
    decreases props, 1
  {
    if |props| == 0 then None
    else
      var first := SchemaCheck(props[0].value);
      if first.Some? then first else PropertiesCheck(props[1..])
  }

  /** The validation vocabulary: `type`, then `enum`, then `required`. */
  function ValidationKeywordsCheck(members: seq<Member>): Option<SchemaProblem> {
    var t := Get(members, "type");
    var e := Get(members, "enum");
    var q := Get(members, "required");
    if t.Some? && !WellFormedType(t.value) then Some(BadType(t.value))
    else if e.Some? && !e.value.JArr? then Some(BadEnum(e.value))
    else if q.Some? then RequiredCheck(q.value)
    else None
  }

  /**
    A `required` value against the metaschema's string array: an array,
    then each item a string in order, then no repeated item.
  */
  function RequiredCheck(v: Json): (r: Option<SchemaProblem>)
    ensures r.None? <==> WellFormedRequired(v)
  {
    if !v.JArr? then Some(RequiredNotArray(v))
    else
      var bad := FirstNonString(v.items);
      if bad < |v.items| then Some(RequiredItemNotString(v.items[bad]))
      else if exists i, k | 0 <= i < k < |v.items| :: v.items[i] == v.items[k] then Some(RequiredNotUnique(v))
      else None
  }

  /** Index of the first item that is not a string, or the length when all are. */
  function FirstNonString(items: seq<Json>): (r: nat)
    ensures r <= |items|
    ensures forall i | 0 <= i < r :: items[i].JStr?
    ensures r < |items| ==> !items[r].JStr?
  {
    if |items| == 0 || !items[0].JStr? then 0 else 1 + FirstNonString(items[1..])
  }

  /**
    A template is a schema, stated without any order: a boolean, or an
    object whose `properties` (if any) maps to schemas and whose `type`,
    `enum` and `required` (if any) are well formed.
  */
  predicate IsSchema(schema: Json)
    decreases schema, 1
  {
    match schema
    case JBool(_) => true
    case JObj(members) =>
      && (forall i | 0 <= i < |members| && FirstKeyAt(members, "properties", i) :: PropertiesAreSchemas(members[i].value))
      && ValidationKeywordsCheck(members).None?
    case _ => false
  }

  /** Member `i` is the first one with `key`, the one `d.get(key)` reads. */
  predicate FirstKeyAt(members: seq<Member>, key: string, i: int) {
    0 <= i < |members| && members[i].key == key && forall k | 0 <= k < i :: members[k].key != key
  }

  predicate PropertiesAreSchemas(v: Json)
    decreases v, 0
  {
    v.JObj? && forall i | 0 <= i < |v.members| :: IsSchema(v.members[i].value)
  }

  /** The ordered check finds a problem exactly when the template is not a schema. */
  lemma {:induction false} SchemaCheckCharacterizes(schema: Json)
    ensures SchemaCheck(schema).None? <==> IsSchema(schema)
    decreases schema, 3
  {
    match schema
    case JObj(members) => PropertiesKeywordCharacterizes(members);
    case _ =>
  }

  lemma {:induction false} PropertiesKeywordCharacterizes(members: seq<Member>)
    ensures PropertiesKeywordCheck(members).None? <==>
              forall i | 0 <= i < |members| && FirstKeyAt(members, "properties", i) :: PropertiesAreSchemas(members[i].value)
    decreases members, 2
  {
    if |members| > 0 {
      if members[0].key == "properties" {
        assert FirstKeyAt(members, "properties", 0);
        forall i | 0 < i < |members|
          ensures !FirstKeyAt(members, "properties", i)
        {
          assert members[0].key == "properties";
        }
        if members[0].value.JObj? {
          PropertiesCheckCharacterizes(members[0].value.members);
        }
      } else {
        var rest := members[1..];
        PropertiesKeywordCharacterizes(rest);
        forall i | 0 < i < |members|
          ensures FirstKeyAt(members, "properties", i) <==> FirstKeyAt(rest, "properties", i - 1)
        {
          assert members[i] == rest[i - 1];
          assert forall k | 1 <= k < i :: members[k] == rest[k - 1];
        }
        assert !FirstKeyAt(members, "properties", 0);
      }
    }
  }

  lemma {:induction false} PropertiesCheckCharacterizes(props: seq<Member>)
    ensures PropertiesCheck(props).None? <==> forall i | 0 <= i < |props| :: IsSchema(props[i].value)
    decreases props, 1
  {
    if |props| > 0 {
      SchemaCheckCharacterizes(props[0].value);
      PropertiesCheckCharacterizes(props[1..]);
      assert forall i | 1 <= i < |props| :: props[i] == props[1..][i - 1];
    }
  }

  /**
    The metaschema's order decides which problem is reported: a bad
    `properties` is found before a bad `type`, wherever each sits in the
    template.
  */
  lemma PropertiesProblemFirst()
    ensures SchemaCheck(JObj([Member("type", JStr("foo")), Member("properties", JNum(5))])) == Some(BadProperties(JNum(5)))
    ensures ProblemMessage(BadProperties(JNum(5))) == "5 is not of type 'object'"
  {
    var members := [Member("type", JStr("foo")), Member("properties", JNum(5))];
    assert members[1..][0].key == "properties";
    assert PropertiesKeywordCheck(members[1..]) == Some(BadProperties(JNum(5)));
    assert Strings.NatToString(5) == "5";
  }

  /** Likewise `type` is checked before `required`. */
  lemma TypeProblemBeforeRequired()
    ensures SchemaCheck(JObj([Member("required", JNum(5)), Member("type", JStr("foo"))])) == Some(BadType(JStr("foo")))
  {
    var members := [Member("required", JNum(5)), Member("type", JStr("foo"))];
    assert Get(members, "type") == Some(JStr("foo"));
    assert !IsTypeName(JStr("foo")) by {
      assert forall i | 0 <= i < |SimpleTypes| :: SimpleTypes[i] != "foo";
    }
  }

  // ---------------------------------------------------------------------------
  // Checking an instance (the library's ValidationError)
  // ---------------------------------------------------------------------------

  /** One failed keyword, located by the instance path (property names from the document root). */
  datatype Violation =
    | TypeMismatch(path: seq<string>, instance: Json, expected: seq<string>)
    | NotInEnum(path: seq<string>, instance: Json, options: seq<Json>)
    | MissingRequired(path: seq<string>, property: string)
    | FalseSchema(path: seq<string>, instance: Json)

  function Depth(v: Violation): nat {
    |v.path|
  }

  /** The library's message text for a violation. */
  function Message(v: Violation): string {
    match v
    case TypeMismatch(_, inst, expected) =>
      Repr(inst) + " is not of type " + Strings.Join(Quoted(expected), ", ")
    case NotInEnum(_, inst, options) => Repr(inst) + " is not one of " + Repr(JArr(options))
    case MissingRequired(_, p) => "'" + p + "' is a required property"
    case FalseSchema(_, inst) => "False schema does not allow " + Repr(inst)
  }

  function Quoted(names: seq<string>): (r: seq<string>)
    ensures |r| == |names|
  {
    if |names| == 0 then [] else ["'" + names[0] + "'"] + Quoted(names[1..])
  }

  /** The type names listed by a `type` value. */
  function TypeNames(v: Json): seq<string> {
    match v
    case JStr(t) => [t]
    case JArr(items) => StringItems(items)
    case _ => []
  }

  function StringItems(items: seq<Json>): seq<string> {
    if |items| == 0 then []
    else if items[0].JStr? then [items[0].s] + StringItems(items[1..])
    else StringItems(items[1..])
  }

  predicate MatchesSomeType(inst: Json, names: seq<string>) {
    exists i | 0 <= i < |names| :: HasType(inst, names[i])
  }

  predicate EqualsSomeOption(inst: Json, options: seq<Json>) {
    exists i | 0 <= i < |options| :: JsonEqual(inst, options[i])
  }

  /** Every violation of `inst` against `schema`, in the order the library finds them. */
  function Violations(inst: Json, schema: Json, path: seq<string>): seq<Violation>
    decreases schema, 2
  {
    match schema
    case JBool(b) => if b then [] else [FalseSchema(path, inst)]
    case JObj(members) => KeywordsViolations(inst, members, path)
    case _ => []
  }

  function KeywordsViolations(inst: Json, members: seq<Member>, path: seq<string>): seq<Violation>
    decreases members, 1
  {
    if |members| == 0 then []
    else KeywordViolations(inst, members[0], path) + KeywordsViolations(inst, members[1..], path)
  }

  function KeywordViolations(inst: Json, m: Member, path: seq<string>): seq<Violation>
    decreases m, 0
  {
    if m.key == "type" then
      var names := TypeNames(m.value);
      if MatchesSomeType(inst, names) then [] else [TypeMismatch(path, inst, names)]
    else if m.key == "enum" then
      match m.value
      case JArr(options) => if EqualsSomeOption(inst, options) then [] else [NotInEnum(path, inst, options)]
      case _ => []
    else if m.key == "required" then
      match (inst, m.value)
      case (JObj(fields), JArr(names)) => MissingFields(fields, names, path)
      case _ => []
    else if m.key == "properties" then
      match (inst, m.value)
      case (JObj(fields), JObj(props)) => PropertiesViolations(fields, props, path)
      case _ => []
    else []
  }

  function MissingFields(fields: seq<Member>, names: seq<Json>, path: seq<string>): seq<Violation> {
    if |names| == 0 then []
    else
      var rest := MissingFields(fields, names[1..], path);
      if names[0].JStr? && !HasKey(fields, names[0].s) then [MissingRequired(path, names[0].s)] + rest
      else rest
  }

  function PropertiesViolations(fields: seq<Member>, props: seq<Member>, path: seq<string>): seq<Violation>
    decreases props, 1
  {
    if |props| == 0 then []
    else
      var here := match Get(fields, props[0].key)
        case Some(v) => Violations(v, props[0].value, path + [props[0].key])
        case None => [];
      here + PropertiesViolations(fields, props[1..], path)
  }

  /** Index of the violation the library reports: the first one at the shallowest path. */
  function BestMatch(vs: seq<Violation>): (b: nat)
    requires |vs| > 0
    ensures b < |vs|
    ensures forall j | 0 <= j < |vs| :: Depth(vs[b]) <= Depth(vs[j])
    ensures forall j | 0 <= j < b :: Depth(vs[j]) > Depth(vs[b])
  {
    if |vs| == 1 then 0
    else
      var k := BestMatch(vs[1..]);
      if Depth(vs[0]) <= Depth(vs[1 + k]) then 0 else 1 + k
  }

  // ---------------------------------------------------------------------------
  // validate_spec_data
  // ---------------------------------------------------------------------------

  /** The `(is_valid, errors)` pair `validate_spec_data` returns. */
  datatype SpecCheck = SpecCheck(valid: bool, errors: seq<string>)

  const InvalidSchemaPrefix: string := "Invalid schema: "

  /**
    `validate_spec_data` with the draft lookup's error caught (see
    `ValidateSpecDataAsWritten`): an empty (falsy) template accepts
    everything; a malformed template is reported as a failure, never raised;
    otherwise the document passes exactly when it conforms, and a failure
    carries one message taken from one of its violations.
  */
  function ValidateSpecData(template: Json, spec: Json): (r: SpecCheck)
    ensures r.valid <==> r.errors == []
    ensures |r.errors| <= 1
    ensures !Truthy(template) ==> r == SpecCheck(true, [])
    ensures Truthy(template) && SchemaCheck(template).Some? ==>
              r == SpecCheck(false, [InvalidSchemaPrefix + ProblemMessage(SchemaCheck(template).value)])
    ensures Truthy(template) && SchemaCheck(template).None? ==> (r.valid <==> Conforms(spec, template))
    ensures Truthy(template) && SchemaCheck(template).None? && !r.valid ==>
              exists v | v in Violations(spec, template, []) :: r.errors == [Message(v)]
  {
    if !Truthy(template) then SpecCheck(true, [])
    else match SchemaCheck(template)
      case Some(problem) => SpecCheck(false, [InvalidSchemaPrefix + ProblemMessage(problem)])
      case None =>
        var vs := Violations(spec, template, []);
        ViolationsCharacterizeConformance(spec, template, []);
        if |vs| == 0 then SpecCheck(true, [])
        else
          var best := vs[BestMatch(vs)];
          SpecCheck(false, [Message(best)])
  }

  /** Every truthy template that is not a schema is reported as an invalid schema. */
  lemma NonSchemaTemplateReported(template: Json, spec: Json)
    requires Truthy(template) && !IsSchema(template)
    ensures var r := ValidateSpecData(template, spec);
            !r.valid && Strings.StartsWith(r.errors[0], InvalidSchemaPrefix)
  {
    SchemaCheckCharacterizes(template);
    var r := ValidateSpecData(template, spec);
    assert r.errors[0][..|InvalidSchemaPrefix|] == InvalidSchemaPrefix;
  }

  // ---------------------------------------------------------------------------
  // The draft lookup as written
  // ---------------------------------------------------------------------------

  /**
    Whether the library's draft lookup raises before any check. It first
    evaluates `"$schema" in template`, which Python refuses on a number; on a
    string or list that contains "$schema" it then indexes the template by
    that key, which a string or list refuses too.
  */
  predicate DraftLookupRaises(template: Json) {
    match template
    case JNum(_) => true
    case JStr(s) => Strings.Contains(s, "$schema")
    case JArr(items) => JStr("$schema") in items
    case _ => false
  }

  /** The `TypeError` the draft lookup raises. */
  datatype Raised = LibraryTypeError

  /**
    `validate_spec_data` as written: the lookup's `TypeError` is neither a
    `ValidationError` nor a `SchemaError`, so it escapes the wrapper for a
    truthy number, and for a string or list mentioning "$schema".
  */
  function ValidateSpecDataAsWritten(template: Json, spec: Json): (r: Result<SpecCheck, Raised>)
    ensures r.Err? <==> Truthy(template) && DraftLookupRaises(template)
    ensures r.Err? ==> template.JNum? || template.JStr? || template.JArr?
    ensures r.Ok? ==> r.value == ValidateSpecData(template, spec)
    ensures template.JNum? && template.n != 0 ==> r == Err(LibraryTypeError)
    ensures template.JStr? ==> (r.Err? <==> Strings.Contains(template.s, "$schema"))
    ensures template.JArr? ==> (r.Err? <==> JStr("$schema") in template.items)
    ensures template.JObj? || template.JBool? || template.JNull? ==> r == Ok(ValidateSpecData(template, spec))
  {
    if Truthy(template) && DraftLookupRaises(template) then Err(LibraryTypeError)
    else Ok(ValidateSpecData(template, spec))
  }

  /**
    A numeric template makes the wrapper raise as written, while the
    corrected wrapper reports it as an invalid schema.
  */
  lemma NumericTemplateRaises(spec: Json)
    ensures ValidateSpecDataAsWritten(JNum(5), spec) == Err(LibraryTypeError)
    ensures ValidateSpecData(JNum(5), spec) == SpecCheck(false, [InvalidSchemaPrefix + ProblemMessage(NotASchema(JNum(5)))])
    ensures ProblemMessage(NotASchema(JNum(5))) == Repr(JNum(5)) + " is not of type 'object', 'boolean'"
    ensures Repr(JNum(5)) == "5"
  {
    assert SchemaCheck(JNum(5)) == Some(NotASchema(JNum(5)));
    assert Strings.NatToString(5) == "5";
  }

  // ---------------------------------------------------------------------------
  // Conformance, stated independently of the violation collector
  // ---------------------------------------------------------------------------

  /** `inst` satisfies every modelled keyword of `schema`, recursively through `properties`. */
  ghost predicate Conforms(inst: Json, schema: Json)
    decreases schema, 1
  {
    match schema
    case JBool(b) => b
    case JObj(members) => forall i | 0 <= i < |members| :: KeywordHolds(inst, members[i])
    case _ => true
  }

  ghost predicate KeywordHolds(inst: Json, m: Member)
    decreases m, 0
  {
    if m.key == "type" then MatchesSomeType(inst, TypeNames(m.value))
    else if m.key == "enum" then m.value.JArr? ==> EqualsSomeOption(inst, m.value.items)
    else if m.key == "required" then
      inst.JObj? && m.value.JArr? ==>
        forall i | 0 <= i < |m.value.items| :: m.value.items[i].JStr? ==> HasKey(inst.members, m.value.items[i].s)
    else if m.key == "properties" then
      inst.JObj? && m.value.JObj? ==>
        forall i | 0 <= i < |m.value.members| ::
          PropertyHolds(inst.members, m.value.members[i])
    else true
  }

  /** When the document has property `p.key`, its value conforms to `p`'s sub-schema. */
  ghost predicate PropertyHolds(fields: seq<Member>, p: Member)
    decreases p, 1
  {
    Get(fields, p.key).Some? ==> Conforms(Get(fields, p.key).value, p.value)
  }

  lemma {:induction false} ViolationsCharacterizeConformance(inst: Json, schema: Json, path: seq<string>)
    ensures Violations(inst, schema, path) == [] <==> Conforms(inst, schema)
    decreases schema, 2
  {
    match schema
    case JObj(members) => KeywordsCharacterize(inst, members, path);
    case _ =>
  }

  lemma {:induction false} KeywordsCharacterize(inst: Json, members: seq<Member>, path: seq<string>)
    ensures KeywordsViolations(inst, members, path) == [] <==>
              forall i | 0 <= i < |members| :: KeywordHolds(inst, members[i])
    decreases members, 1
  {
    if |members| > 0 {
      KeywordCharacterize(inst, members[0], path);
      KeywordsCharacterize(inst, members[1..], path);
      assert forall i | 1 <= i < |members| :: members[i] == members[1..][i - 1];
    }
  }

  lemma {:induction false} KeywordCharacterize(inst: Json, m: Member, path: seq<string>)
    ensures KeywordViolations(inst, m, path) == [] <==> KeywordHolds(inst, m)
    decreases m, 0
  {
    if m.key == "type" || m.key == "enum" {
    } else if m.key == "required" {
      if inst.JObj? && m.value.JArr? {
        MissingFieldsCharacterize(inst.members, m.value.items, path);
      }
    } else if m.key == "properties" {
      if inst.JObj? && m.value.JObj? {
        PropertiesCharacterize(inst.members, m.value.members, path);
      }
    }
  }

  lemma {:induction false} MissingFieldsCharacterize(fields: seq<Member>, names: seq<Json>, path: seq<string>)
    ensures MissingFields(fields, names, path) == [] <==>
              forall i | 0 <= i < |names| :: names[i].JStr? ==> HasKey(fields, names[i].s)
  {
    if |names| > 0 {
      MissingFieldsCharacterize(fields, names[1..], path);
      assert forall i | 1 <= i < |names| :: names[i] == names[1..][i - 1];
    }
  }

  lemma {:induction false} PropertiesCharacterize(fields: seq<Member>, props: seq<Member>, path: seq<string>)
    ensures PropertiesViolations(fields, props, path) == [] <==>
              forall i | 0 <= i < |props| :: PropertyHolds(fields, props[i])
    decreases props, 1
  {
    if |props| > 0 {
      var g := Get(fields, props[0].key);
      if g.Some? {
        ViolationsCharacterizeConformance(g.value, props[0].value, path + [props[0].key]);
      }
      PropertiesCharacterize(fields, props[1..], path);
      assert forall i | 1 <= i < |props| :: props[i] == props[1..][i - 1];
    }
  }

  // ---------------------------------------------------------------------------
  // Consequences
  // ---------------------------------------------------------------------------

  /**
    A document that lacks a field a well-formed object template lists under
    `required` fails validation.
  */
  lemma MissingRequiredFieldFails(members: seq<Member>, k: nat, i: nat, spec: seq<Member>)
    requires SchemaCheck(JObj(members)).None?
    requires k < |members| && members[k].key == "required" && members[k].value.JArr?
    requires i < |members[k].value.items| && members[k].value.items[i].JStr?
    requires !HasKey(spec, members[k].value.items[i].s)
    ensures !ValidateSpecData(JObj(members), JObj(spec)).valid
  {
    assert !KeywordHolds(JObj(spec), members[k]);
  }

  /** A `false` template is falsy, so the wrapper accepts every document without consulting the library. */
  lemma FalseTemplateAcceptsEverything(spec: Json)
    ensures ValidateSpecData(JBool(false), spec) == SpecCheck(true, [])
  {
  }

  /** A `true` template accepts every document. */
  lemma TrueTemplateAcceptsEverything(spec: Json)
    ensures ValidateSpecData(JBool(true), spec) == SpecCheck(true, [])
  {
  }

  // ---------------------------------------------------------------------------
  // The flow-transmitter template shipped with the demo data
  // ---------------------------------------------------------------------------

  function TypeIs(t: string): Member {
    Member("type", JStr(t))
  }

  function Described(text: string): Member {
    Member("description", JStr(text))
  }

  const RangeMinProperty: Member := Member("range_min", JObj([TypeIs("number"), Described("Minimum range")]))
  const RangeMaxProperty: Member := Member("range_max", JObj([TypeIs("number"), Described("Maximum range")]))
  const RangeUnitProperty: Member := Member("range_unit", JObj([TypeIs("string"), Described("Engineering unit")]))
  const OutputSignalProperty: Member :=
    Member("output_signal", JObj([TypeIs("string"),
                                  Member("enum", JArr([JStr("4-20mA"), JStr("HART"), JStr("Foundation Fieldbus")]))]))
  const ProcessConnectionProperty: Member := Member("process_connection", JObj([TypeIs("string")]))
  const MaterialProperty: Member := Member("material", JObj([TypeIs("string")]))

  const FlowTransmitterProperties: seq<Member> :=
    [RangeMinProperty, RangeMaxProperty, RangeUnitProperty, OutputSignalProperty, ProcessConnectionProperty, MaterialProperty]

  const FlowTransmitterRequired: Json :=
    JArr([JStr("range_min"), JStr("range_max"), JStr("range_unit"), JStr("output_signal")])

  /** The flow-transmitter template of the demo data. */
  const FlowTransmitterTemplate: Json :=
    JObj([TypeIs("object"), Member("properties", JObj(FlowTransmitterProperties)), Member("required", FlowTransmitterRequired)])

  /** The flow-transmitter defaults of the demo data. */
  const FlowTransmitterDefaults: Json := JObj([
    Member("range_min", JNum(0)),
    Member("range_max", JNum(100)),
    Member("range_unit", JStr("m³/h")),
    Member("output_signal", JStr("4-20mA"))
  ])

  /** The demo flow-transmitter type's defaults satisfy its own template. */
  lemma FlowTransmitterDefaultsConform()
    ensures ValidateSpecData(FlowTransmitterTemplate, FlowTransmitterDefaults) == SpecCheck(true, [])
  {
    FlowTransmitterTemplateIsSchema();
    FlowTransmitterDefaultsSatisfy();
  }

  lemma TypeIsWellFormed(t: string)
    requires t in SimpleTypes
    ensures WellFormedType(JStr(t))
  {
  }

  /** A sub-schema made of a `type` and a description is a schema. */
  lemma TypeDescribedIsSchema(t: string, text: string)
    requires t in SimpleTypes
    ensures SchemaCheck(JObj([TypeIs(t), Described(text)])).None?
  {
    var members := [TypeIs(t), Described(text)];
    NoKeywordNoProblem(members);
    assert members[1..] == [Described(text)] && members[1..][1..] == [];
    assert Get(members, "type") == Some(JStr(t));
    assert Get(members, "enum") == None && Get(members, "required") == None;
    TypeIsWellFormed(t);
  }

  /** A sub-schema made of a `type` alone is a schema. */
  lemma TypeOnlyIsSchema(t: string)
    requires t in SimpleTypes
    ensures SchemaCheck(JObj([TypeIs(t)])).None?
  {
    var members := [TypeIs(t)];
    NoKeywordNoProblem(members);
    assert members[1..] == [];
    TypeIsWellFormed(t);
  }

  lemma {:induction false} NoKeywordNoProblem(members: seq<Member>)
    requires forall i | 0 <= i < |members| :: members[i].key != "properties"
    ensures PropertiesKeywordCheck(members).None?
  {
    if |members| > 0 {
      NoKeywordNoProblem(members[1..]);
    }
  }

  lemma FlowTransmitterTemplateIsSchema()
    ensures SchemaCheck(FlowTransmitterTemplate).None?
  {
    FlowTransmitterPropertiesAreSchemas();
    PropertiesCheckAllNone(FlowTransmitterProperties);
    var t := FlowTransmitterTemplate.members;
    assert PropertiesKeywordCheck(t).None? by {
      assert t[1..][0].key == "properties";
      assert PropertiesKeywordCheck(t[1..]) == PropertiesCheck(FlowTransmitterProperties);
    }
    FlowTransmitterKeywordsWellFormed();
  }

  lemma FlowTransmitterKeywordsWellFormed()
    ensures ValidationKeywordsCheck(FlowTransmitterTemplate.members).None?
  {
    var t := FlowTransmitterTemplate.members;
    assert t[1..][1..] == [t[2]] && [t[2]][1..] == [];
    assert Get(t, "type") == Some(JStr("object"));
    assert Get(t, "enum") == None;
    assert Get(t, "required") == Some(FlowTransmitterRequired);
    assert WellFormedRequired(FlowTransmitterRequired);
    assert "object" == SimpleTypes[5];
    TypeIsWellFormed("object");
  }

  lemma FlowTransmitterPropertiesAreSchemas()
    ensures forall i | 0 <= i < |FlowTransmitterProperties| :: SchemaCheck(FlowTransmitterProperties[i].value).None?
  {
    assert "number" == SimpleTypes[4] && "string" == SimpleTypes[6];
    TypeDescribedIsSchema("number", "Minimum range");
    TypeDescribedIsSchema("number", "Maximum range");
    TypeDescribedIsSchema("string", "Engineering unit");
    TypeOnlyIsSchema("string");
    OutputSignalIsSchema();
  }

  lemma OutputSignalIsSchema()
    ensures SchemaCheck(OutputSignalProperty.value).None?
  {
    var signal := OutputSignalProperty.value.members;
    NoKeywordNoProblem(signal);
    assert signal[1..][1..] == [];
    assert Get(signal, "type") == Some(JStr("string"));
    assert Get(signal, "enum") == Some(signal[1].value);
    assert Get(signal, "required") == None;
    assert "string" == SimpleTypes[6];
    TypeIsWellFormed("string");
  }

  lemma {:induction false} PropertiesCheckAllNone(props: seq<Member>)
    requires forall i | 0 <= i < |props| :: SchemaCheck(props[i].value).None?
    ensures PropertiesCheck(props).None?
  {
    if |props| > 0 {
      PropertiesCheckAllNone(props[1..]);
    }
  }

  lemma TypeHolds(inst: Json, t: string)
    requires HasType(inst, t)
    ensures KeywordHolds(inst, TypeIs(t))
  {
    var names := TypeNames(TypeIs(t).value);
    assert names == [t];
    assert HasType(inst, names[0]);
  }

  lemma DefaultsLookups()
    ensures var d := FlowTransmitterDefaults.members;
      && Get(d, "range_min") == Some(JNum(0))
      && Get(d, "range_max") == Some(JNum(100))
      && Get(d, "range_unit") == Some(JStr("m³/h"))
      && Get(d, "output_signal") == Some(JStr("4-20mA"))
      && Get(d, "process_connection") == None
      && Get(d, "material") == None
  {
  }

  lemma OutputSignalAccepts()
    ensures Conforms(JStr("4-20mA"), OutputSignalProperty.value)
  {
    var ms := OutputSignalProperty.value.members;
    TypeHolds(JStr("4-20mA"), "string");
    assert JsonEqual(JStr("4-20mA"), ms[1].value.items[0]);
    assert KeywordHolds(JStr("4-20mA"), ms[1]);
  }

  lemma TypedConforms(inst: Json, t: string, text: string)
    requires HasType(inst, t)
    ensures Conforms(inst, JObj([TypeIs(t), Described(text)]))
    ensures Conforms(inst, JObj([TypeIs(t)]))
  {
    TypeHolds(inst, t);
    assert KeywordHolds(inst, Described(text));
  }

  lemma PresentPropertyHolds(fields: seq<Member>, p: Member, v: Json)
    requires Get(fields, p.key) == Some(v) && Conforms(v, p.value)
    ensures PropertyHolds(fields, p)
  {
  }

  lemma AbsentPropertyHolds(fields: seq<Member>, p: Member)
    requires Get(fields, p.key) == None
    ensures PropertyHolds(fields, p)
  {
  }

  lemma PresentPropertiesHold()
    ensures PropertyHolds(FlowTransmitterDefaults.members, RangeMinProperty)
    ensures PropertyHolds(FlowTransmitterDefaults.members, RangeMaxProperty)
    ensures PropertyHolds(FlowTransmitterDefaults.members, RangeUnitProperty)
    ensures PropertyHolds(FlowTransmitterDefaults.members, OutputSignalProperty)
  {
    var d := FlowTransmitterDefaults.members;
    DefaultsLookups();
    TypedConforms(JNum(0), "number", "Minimum range");
    PresentPropertyHolds(d, RangeMinProperty, JNum(0));
    TypedConforms(JNum(100), "number", "Maximum range");
    PresentPropertyHolds(d, RangeMaxProperty, JNum(100));
    TypedConforms(JStr("m³/h"), "string", "Engineering unit");
    PresentPropertyHolds(d, RangeUnitProperty, JStr("m³/h"));
    OutputSignalAccepts();
    PresentPropertyHolds(d, OutputSignalProperty, JStr("4-20mA"));
  }

  lemma AbsentPropertiesHold()
    ensures PropertyHolds(FlowTransmitterDefaults.members, ProcessConnectionProperty)
    ensures PropertyHolds(FlowTransmitterDefaults.members, MaterialProperty)
  {
    DefaultsLookups();
    AbsentPropertyHolds(FlowTransmitterDefaults.members, ProcessConnectionProperty);
    AbsentPropertyHolds(FlowTransmitterDefaults.members, MaterialProperty);
  }

  lemma DefaultsPropertiesHold()
    ensures forall i | 0 <= i < |FlowTransmitterProperties| ::
              PropertyHolds(FlowTransmitterDefaults.members, FlowTransmitterProperties[i])
  {
    PresentPropertiesHold();
    AbsentPropertiesHold();
    EachPropertyHolds(FlowTransmitterDefaults.members);
  }

  lemma EachPropertyHolds(d: seq<Member>)
    requires PropertyHolds(d, RangeMinProperty) && PropertyHolds(d, RangeMaxProperty)
    requires PropertyHolds(d, RangeUnitProperty) && PropertyHolds(d, OutputSignalProperty)
    requires PropertyHolds(d, ProcessConnectionProperty) && PropertyHolds(d, MaterialProperty)
    ensures forall i | 0 <= i < |FlowTransmitterProperties| :: PropertyHolds(d, FlowTransmitterProperties[i])
  {
  }

  lemma DefaultsHaveRequired()
    ensures forall i | 0 <= i < |FlowTransmitterRequired.items| ::
              HasKey(FlowTransmitterDefaults.members, FlowTransmitterRequired.items[i].s)
  {
    var d := FlowTransmitterDefaults.members;
    assert d[0].key == "range_min" && d[1].key == "range_max" && d[2].key == "range_unit" && d[3].key == "output_signal";
  }

  lemma FlowTransmitterDefaultsSatisfy()
    ensures Conforms(FlowTransmitterDefaults, FlowTransmitterTemplate)
  {
    var t := FlowTransmitterTemplate.members;
    TypeHolds(FlowTransmitterDefaults, "object");
    DefaultsPropertiesHold();
    DefaultsHaveRequired();
    assert KeywordHolds(FlowTransmitterDefaults, t[0]);
    assert KeywordHolds(FlowTransmitterDefaults, t[1]);
    assert KeywordHolds(FlowTransmitterDefaults, t[2]);
  }
}

=== FILE: strings.dfy ===
/**
  String helpers over `seq<char>`. Case and digit semantics are ASCII only:
  Python's Unicode-aware `lower` and `isdigit` agree with these on ASCII
  text. Whitespace is Python's whole `str.isspace` set, which `strip` and
  `int()` both use.
*/
module Strings {
  import opened Wrappers

  predicate IsAsciiUpper(c: char) {
    'A' <= c <= 'Z'
  }

  predicate IsAsciiDigit(c: char) {
    '0' <= c <= '9'
  }

  /**
    The characters Python's `str.isspace()` accepts, which `str.strip()` and
    `int()` remove: tab to carriage return, the four ASCII separators
    U+001C to U+001F, space, and the Unicode space separators and line breaks.
  */
  predicate IsSpace(c: char) {
    || ('\t' <= c <= '\r') || ('\U{1C}' <= c <= ' ')
    || c == '\U{85}' || c == '\U{A0}' || c == '\U{1680}' || ('\U{2000}' <= c <= '\U{200A}')
    || c == '\U{2028}' || c == '\U{2029}' || c == '\U{202F}' || c == '\U{205F}' || c == '\U{3000}'
  }

  function LowerChar(c: char): (r: char)
    ensures !IsAsciiUpper(r)
    ensures IsAsciiUpper(c) ==> r as int == c as int + 32
    ensures !IsAsciiUpper(c) ==> r == c
  {
    if IsAsciiUpper(c) then (c as int + 32) as char else c
  }

  /** `str.lower()` on ASCII: every upper-case letter is replaced by its lower-case form. */
  function Lower(s: string): (r: string)
    ensures |r| == |s|
    ensures forall i :: 0 <= i < |s| ==> r[i] == LowerChar(s[i])
  {
    seq(|s|, i requires 0 <= i < |s| => LowerChar(s[i]))
  }

  predicate StartsWith(s: string, prefix: string) {
    |prefix| <= |s| && s[..|prefix|] == prefix
  }

  /** `needle in hay` for Python strings: some contiguous slice of `hay` equals `needle`. */
  predicate Contains(hay: string, needle: string) {
    exists i | 0 <= i <= |hay| :: OccursAt(hay, needle, i)
  }

  predicate OccursAt(hay: string, needle: string, i: int) {
    0 <= i <= |hay| - |needle| && hay[i..i + |needle|] == needle
  }

  /** SQL `icontains`: substring test after lower-casing both sides. */
  predicate ContainsIgnoreCase(hay: string, needle: string) {
    Contains(Lower(hay), Lower(needle))
  }

  /** `sep.join(parts)`. */
  function Join(parts: seq<string>, sep: string): string
  {
    if |parts| == 0 then ""
    else if |parts| == 1 then parts[0]
    else parts[0] + sep + Join(parts[1..], sep)
  }

  /** Appending one more part to a non-empty join adds exactly the separator and that part. */
  lemma {:induction false} JoinSnoc(parts: seq<string>, sep: string, last: string)
    requires |parts| > 0
    ensures Join(parts + [last], sep) == Join(parts, sep) + sep + last
  {
    if |parts| == 1 {
      assert parts + [last] == [parts[0], last];
      assert (parts + [last])[1..] == [last];
    } else {
      assert (parts + [last])[1..] == parts[1..] + [last];
      JoinSnoc(parts[1..], sep, last);
    }
  }

  /** Length of the slice `s[lo..hi]` after removing leading whitespace. */
  function SkipLeading(s: string, lo: nat, hi: nat): (r: nat)
    requires lo <= hi <= |s|
    ensures lo <= r <= hi
    ensures forall i :: lo <= i < r ==> IsSpace(s[i])
    ensures r < hi ==> !IsSpace(s[r])
    decreases hi - lo
  {
    if lo < hi && IsSpace(s[lo]) then SkipLeading(s, lo + 1, hi) else lo
  }

  function SkipTrailing(s: string, lo: nat, hi: nat): (r: nat)
    requires lo <= hi <= |s|
    ensures lo <= r <= hi
    ensures forall i :: r <= i < hi ==> IsSpace(s[i])
    ensures lo < r ==> !IsSpace(s[r - 1])
    decreases hi - lo
  {
    if lo < hi && IsSpace(s[hi - 1]) then SkipTrailing(s, lo, hi - 1) else hi
  }

  /** `str.strip()`: the longest slice of `s` that neither starts nor ends with whitespace. */
  function Strip(s: string): (r: string)
    ensures |r| <= |s|
    ensures exists lo :: StrippedAt(s, r, lo)
    ensures |r| > 0 ==> !IsSpace(r[0]) && !IsSpace(r[|r| - 1])
  {
    var lo := SkipLeading(s, 0, |s|);
    var hi := SkipTrailing(s, lo, |s|);
    assert StrippedAt(s, s[lo..hi], lo);
    s[lo..hi]
  }

  /** `r` is the slice of `s` starting at `lo`, and everything outside it is whitespace. */
  predicate StrippedAt(s: string, r: string, lo: int) {
    && 0 <= lo <= |s| - |r| && s[lo..lo + |r|] == r
    && (forall i :: 0 <= i < lo ==> IsSpace(s[i]))
    && (forall i :: lo + |r| <= i < |s| ==> IsSpace(s[i]))
  }

  /** Code-point lexicographic order (the order a byte-wise database collation gives). */
  predicate LexLessEq(a: string, b: string)
    decreases |a|
  {
    if |a| == 0 then true
    else if |b| == 0 then false
    else if a[0] != b[0] then a[0] < b[0]
    else LexLessEq(a[1..], b[1..])
  }

  lemma {:induction false} LexTotal(a: string, b: string)
    ensures LexLessEq(a, b) || LexLessEq(b, a)
    decreases |a|
  {
    if |a| > 0 && |b| > 0 && a[0] == b[0] {
      LexTotal(a[1..], b[1..]);
    }
  }

  lemma {:induction false} LexAntisymmetric(a: string, b: string)
    requires LexLessEq(a, b) && LexLessEq(b, a)
    ensures a == b
    decreases |a|
  {
    if |a| > 0 && |b| > 0 {
      LexAntisymmetric(a[1..], b[1..]);
      assert a == [a[0]] + a[1..] && b == [b[0]] + b[1..];
    }
  }

  lemma {:induction false} LexTransitive(a: string, b: string, c: string)
    requires LexLessEq(a, b) && LexLessEq(b, c)
    ensures LexLessEq(a, c)
    decreases |a|
  {
    if |a| > 0 && |b| > 0 && |c| > 0 && a[0] == b[0] && b[0] == c[0] {
      LexTransitive(a[1..], b[1..], c[1..]);
    }
  }

  // ---------------------------------------------------------------------------
  // Integers as text
  // ---------------------------------------------------------------------------

  /** `str(n)` for a non-negative integer: its decimal digits, most significant first. */
  function NatToString(n: nat): (r: string)
    ensures |r| > 0
    ensures forall i | 0 <= i < |r| :: IsAsciiDigit(r[i])
    decreases n
  {
    var digit := ['0' + (n % 10) as char];
    if n < 10 then digit else NatToString(n / 10) + digit
  }

  /** `str(n)` for any integer. */
  function IntToString(n: int): string {
    if n < 0 then "-" + NatToString(-n) else NatToString(n)
  }

  /**
    The digit part Python's `int()` accepts in base 10: ASCII digits, with
    single underscores allowed between two digits.
  */
  predicate WellFormedDigits(s: string) {
    && |s| > 0
    && IsAsciiDigit(s[0])
    && IsAsciiDigit(s[|s| - 1])
    && (forall i | 0 <= i < |s| :: IsAsciiDigit(s[i]) || s[i] == '_')
    && (forall i | 0 <= i < |s| - 1 :: s[i] == '_' ==> s[i + 1] != '_')
  }

  /** The number a digit string denotes, underscores ignored. */
  function DigitsValue(s: string): nat
    decreases |s|
  {
    if |s| == 0 then 0
    else
      var last := s[|s| - 1];
      var rest := DigitsValue(s[..|s| - 1]);
      if IsAsciiDigit(last) then 10 * rest + (last as int - '0' as int) else rest
  }

  /**
    Python's `int(s)`: surrounding whitespace (the `IsSpace` set) is
    ignored, then one optional sign and ASCII base-10 digits. `None` stands
    for the `ValueError`.
  */
  function ParseInt(s: string): (r: Option<int>)
  {
    var body := Strip(s);
    if |body| > 0 && (body[0] == '+' || body[0] == '-') then
      var digits := body[1..];
      var magnitude: int := DigitsValue(digits);
      if WellFormedDigits(digits) then Some(if body[0] == '-' then -magnitude else magnitude)
      else None
    else if WellFormedDigits(body) then Some(DigitsValue(body))
    else None
  }

  /** Text that neither starts nor ends with whitespace is left alone by `strip`. */
  lemma StripUnpadded(s: string)
    requires |s| > 0 && !IsSpace(s[0]) && !IsSpace(s[|s| - 1])
    ensures Strip(s) == s
  {
    assert SkipLeading(s, 0, |s|) == 0;
    assert SkipTrailing(s, 0, |s|) == |s|;
  }

  lemma {:induction false} NatToStringValue(n: nat)
    ensures DigitsValue(NatToString(n)) == n
    decreases n
  {
    var r := NatToString(n);
    if n >= 10 {
      NatToStringValue(n / 10);
      assert r[..|r| - 1] == NatToString(n / 10);
    }
  }

  /** Reading back the decimal text of any integer gives that integer. */
  lemma ParseIntOfIntToString(n: int)
    ensures ParseInt(IntToString(n)) == Some(n)
  {
    var s := IntToString(n);
    var digits := NatToString(if n < 0 then -n else n);
    NatToStringValue(if n < 0 then -n else n);
    assert WellFormedDigits(digits);
    StripUnpadded(s);
    if n < 0 {
      assert s[1..] == digits;
    }
  }

  /** `str.strip()` gives the empty string exactly when the text is all whitespace. */
  lemma StripEmptyIff(s: string)
    ensures Strip(s) == "" <==> forall i | 0 <= i < |s| :: IsSpace(s[i])
  {
    var r := Strip(s);
    var lo :| StrippedAt(s, r, lo);
    if r != "" {
      assert s[lo] == r[0];
    }
  }
}

=== FILE: tag_api.dfy ===
/**
  The REST layer over the engineering records: the tag and loop serializers'
  checks, which run before the model's own save, and the custom tag actions
  `bulk_update`, `search` and `by_unit`.
*/
module TagApi {
  import opened Wrappers
  import opened Json
  import Strings
  import H = Hierarchy
  import E = Engineering
  import SV = SpecValidator

  // ---------------------------------------------------------------------------
  // Field validators
  // ---------------------------------------------------------------------------

  const TagUnitMessage: string := "Tag must be assigned to a UNIT, not a PLANT or AREA."
  const LoopUnitMessage: string := "Loop must be assigned to a UNIT, not a PLANT or AREA."

  /** `TagSerializer.validate_unit`, applied to a unit the field has already looked up. */
  function ValidateTagUnit(nodes: H.Tree, unit: H.NodeId): (r: Result<H.NodeId, string>)
    requires unit in nodes
    ensures r.Ok? <==> E.IsUnit(nodes, unit)
    ensures r.Ok? ==> r.value == unit
    ensures r.Err? ==> r.error == TagUnitMessage
  {
    if nodes[unit].kind != H.Unit then Err(TagUnitMessage) else Ok(unit)
  }

  /** `LoopSerializer.validate_unit`. */
  function ValidateLoopUnit(nodes: H.Tree, unit: H.NodeId): (r: Result<H.NodeId, string>)
    requires unit in nodes
    ensures r.Ok? <==> E.IsUnit(nodes, unit)
    ensures r.Ok? ==> r.value == unit
    ensures r.Err? ==> r.error == LoopUnitMessage
  {
    if nodes[unit].kind != H.Unit then Err(LoopUnitMessage) else Ok(unit)
  }

  // ---------------------------------------------------------------------------
  // TagSerializer.validate
  // ---------------------------------------------------------------------------

  /**
    The request values `validate` reads. A field the request leaves out is
    `None`; `loop` may also be given as null, which is `Some(None)`.
  */
  datatype TagInput = TagInput(
    unit: Option<H.NodeId>,
    loop: Option<Option<E.LoopId>>,
    instrumentType: Option<E.TypeId>,
    specData: Option<Json>)

  /** A serializer error keyed by field name. */
  datatype FieldError = FieldError(field: string, message: string)

  /**
    Why `validate` refuses a request: a field error (a 400 response), or the
    exception the schema library's draft lookup raises, which no handler
    catches.
  */
  datatype Rejection = Invalid(error: FieldError) | TemplateLookupRaised

  /** The merged view `validate` checks: request values first, then the stored tag's. */
  datatype Merged = Merged(
    unit: Option<H.NodeId>,
    loop: Option<E.LoopId>,
    instrumentType: Option<E.TypeId>,
    specData: Json)

  function Merge(attrs: TagInput, instance: Option<E.TagFields>): (m: Merged)
    ensures attrs.unit.Some? ==> m.unit == attrs.unit
    ensures attrs.unit.None? ==> m.unit == (if instance.Some? then Some(instance.value.unit) else None)
    ensures attrs.loop.Some? ==> m.loop == attrs.loop.value
    ensures attrs.loop.None? ==> m.loop == (if instance.Some? then instance.value.loop else None)
    ensures attrs.instrumentType.Some? ==> m.instrumentType == attrs.instrumentType
    ensures attrs.instrumentType.None? ==>
              m.instrumentType == (if instance.Some? then Some(instance.value.instrumentType) else None)
    ensures attrs.specData.Some? ==> m.specData == attrs.specData.value
    ensures attrs.specData.None? ==> m.specData == (if instance.Some? then instance.value.specData else EmptyObject)
  {
    Merged(
      if attrs.unit.Some? then attrs.unit else if instance.Some? then Some(instance.value.unit) else None,
      if attrs.loop.Some? then attrs.loop.value else if instance.Some? then instance.value.loop else None,
      if attrs.instrumentType.Some? then attrs.instrumentType
      else if instance.Some? then Some(instance.value.instrumentType) else None,
      if attrs.specData.Some? then attrs.specData.value else if instance.Some? then instance.value.specData else EmptyObject)
  }

  /** Every record the merged view names has been resolved by its field, and a loop's unit exists. */
  predicate Resolved(s: E.Store, m: Merged) {
    && (m.unit.Some? ==> m.unit.value in s.nodes)
    && (m.loop.Some? ==> m.loop.value in s.loops && s.loops[m.loop.value].unit in s.nodes)
    && (m.instrumentType.Some? ==> m.instrumentType.value in s.types)
  }

  predicate LoopMismatch(s: E.Store, m: Merged)
    requires Resolved(s, m)
  {
    m.loop.Some? && m.unit.Some? && s.loops[m.loop.value].unit != m.unit.value
  }

  /** `validate`'s call of `validate_spec_data` raises: the spec is non-empty and the draft lookup fails. */
  predicate SpecRaises(s: E.Store, m: Merged)
    requires Resolved(s, m)
  {
    && m.instrumentType.Some? && Truthy(m.specData)
    && SV.ValidateSpecDataAsWritten(s.types[m.instrumentType.value].schemaTemplate, m.specData).Err?
  }

  /** The result of `validate_spec_data` when it does not raise. */
  function SpecCheckOf(s: E.Store, m: Merged): SV.SpecCheck
    requires Resolved(s, m) && m.instrumentType.Some?
  {
    SV.ValidateSpecData(s.types[m.instrumentType.value].schemaTemplate, m.specData)
  }

  predicate SpecRejected(s: E.Store, m: Merged)
    requires Resolved(s, m)
  {
    m.instrumentType.Some? && Truthy(m.specData) && !SpecCheckOf(s, m).valid
  }

  /**
    `TagSerializer.validate`: the loop/unit check comes first and only the
    first failing check is reported; a template the library's draft lookup
    refuses raises instead of reporting; the attributes pass through
    unchanged.
  */
  function ValidateTag(s: E.Store, attrs: TagInput, instance: Option<E.TagFields>): (r: Result<TagInput, Rejection>)
    requires Resolved(s, Merge(attrs, instance))
    ensures r.Ok? <==>
              var m := Merge(attrs, instance);
              !LoopMismatch(s, m) && !SpecRaises(s, m) && !SpecRejected(s, m)
    ensures r.Ok? ==> r.value == attrs
    ensures r == Err(TemplateLookupRaised) <==>
              var m := Merge(attrs, instance);
              && !LoopMismatch(s, m) && m.instrumentType.Some? && Truthy(m.specData)
              && var template := s.types[m.instrumentType.value].schemaTemplate;
                 Truthy(template) && SV.DraftLookupRaises(template)
    ensures r.Err? && r.error.Invalid? && r.error.error.field == "loop" <==> LoopMismatch(s, Merge(attrs, instance))
    ensures r.Err? && r.error.Invalid? && r.error.error.field == "spec_data" <==>
              var m := Merge(attrs, instance);
              !LoopMismatch(s, m) && !SpecRaises(s, m) && SpecRejected(s, m)
    ensures r.Err? && r.error.Invalid? && r.error.error.field == "spec_data" ==>
              r.error.error.message == "Validation failed: " + Strings.Join(SpecCheckOf(s, Merge(attrs, instance)).errors, "; ")
  {
    var m := Merge(attrs, instance);
    if LoopMismatch(s, m) then
      var tagUnit := s.nodes[m.unit.value].code;
      var loopUnit := s.nodes[s.loops[m.loop.value].unit].code;
      Err(Invalid(FieldError("loop", "Loop must belong to the same unit as the tag. Tag unit: " + tagUnit + ", Loop unit: " + loopUnit)))
    else if SpecRaises(s, m) then Err(TemplateLookupRaised)
    else if SpecRejected(s, m) then
      Err(Invalid(FieldError("spec_data", "Validation failed: " + Strings.Join(SpecCheckOf(s, m).errors, "; "))))
    else Ok(attrs)
  }

  /** The request's values written over the stored tag, as the save that follows validation sees them. */
  function Apply(attrs: TagInput, f: E.TagFields): E.TagFields {
    f.(unit := attrs.unit.GetOr(f.unit),
       loop := attrs.loop.GetOr(f.loop),
       instrumentType := attrs.instrumentType.GetOr(f.instrumentType),
       specData := attrs.specData.GetOr(f.specData))
  }

  /**
    When the serializer accepts an update whose resulting spec is non-empty,
    the model's own save raises neither the loop error nor the spec error for
    it. (With an empty spec the model validates the type's defaults, which the
    serializer never looked at.)
  */
  lemma SerializerAgreesWithModel(s: E.Store, id: E.TagId, attrs: TagInput)
    requires id in s.tags
    requires var f := Apply(attrs, s.tags[id].fields);
             E.ReferencesExist(s, f) && Resolved(s, Merge(attrs, Some(s.tags[id].fields)))
    requires ValidateTag(s, attrs, Some(s.tags[id].fields)).Ok?
    requires Truthy(Apply(attrs, s.tags[id].fields).specData)
    ensures var f := Apply(attrs, s.tags[id].fields);
            && E.FilledSpec(s, f) == Ok(f.specData)
            && var stored := f.(specData := E.FilledSpec(s, f).value);
            && !E.SpecRaises(s, stored)
            && E.LoopInOtherUnit !in E.TagErrors(s, id, stored)
            && (forall i | 0 <= i < |E.TagErrors(s, id, stored)| :: !E.TagErrors(s, id, stored)[i].SpecInvalid?)
  {
    var f := Apply(attrs, s.tags[id].fields);
    var m := Merge(attrs, Some(s.tags[id].fields));
    assert m.unit == Some(f.unit) && m.loop == f.loop && m.instrumentType == Some(f.instrumentType);
    assert m.specData == f.specData;
    var stored := f.(specData := E.FilledSpec(s, f).value);
    assert stored == f;
    assert E.SpecCheckOf(s, stored) == SpecCheckOf(s, m);
  }

  /**
    `revision` is read-only: a request has no way to set it, so two accepted
    updates of the same tag store the same revision whatever they carried.
  */
  lemma RequestCannotSetRevision(s: E.Store, id: E.TagId, a: TagInput, b: TagInput)
    requires id in s.tags
    requires E.UpdateTag(s, id, Apply(a, s.tags[id].fields)).Ok?
    requires E.UpdateTag(s, id, Apply(b, s.tags[id].fields)).Ok?
    ensures E.UpdateTag(s, id, Apply(a, s.tags[id].fields)).value.tags[id].revision
            == E.UpdateTag(s, id, Apply(b, s.tags[id].fields)).value.tags[id].revision
            == s.tags[id].revision + 1
  {
  }

  // ---------------------------------------------------------------------------
  // bulk_update
  // ---------------------------------------------------------------------------

  /**
    The bulk-update request: tag ids, an optional status and an optional loop,
    where a given loop may be null.
  */
  datatype BulkRequest = BulkRequest(ids: seq<E.TagId>, status: Option<E.TagStatus>, loop: Option<Option<E.LoopId>>)

  datatype BulkError = UnknownLoop | NoFieldsToUpdate

  /** The supplied fields written over one tag; nothing else about it changes. */
  function BulkApply(t: E.Tag, req: BulkRequest): E.Tag {
    t.(fields := t.fields.(status := req.status.GetOr(t.fields.status), loop := req.loop.GetOr(t.fields.loop)))
  }

  /** The tags a request addresses: the stored ones whose id it lists. */
  function Matched(s: E.Store, ids: seq<E.TagId>): set<E.TagId> {
    set t | t in s.tags && t in ids
  }

  /**
    `bulk_update`: a queryset update of `status` and/or `loop` on the listed
    tags, bypassing `Tag.save`, answering with the number of rows matched.
  */
  function BulkUpdate(s: E.Store, req: BulkRequest): (r: Result<(E.Store, nat), BulkError>)
    ensures r == Err(UnknownLoop) <==> req.loop.Some? && req.loop.value.Some? && req.loop.value.value !in s.loops
    ensures r == Err(NoFieldsToUpdate) <==>
              req.status.None? && req.loop.None?
    ensures r.Ok? <==>
              && (req.status.Some? || req.loop.Some?)
              && !(req.loop.Some? && req.loop.value.Some? && req.loop.value.value !in s.loops)
    ensures r.Ok? ==>
              var s' := r.value.0;
              && s'.nodes == s.nodes && s'.loops == s.loops && s'.types == s.types
              && s'.tags.Keys == s.tags.Keys
              && r.value.1 == |Matched(s, req.ids)|
              && (forall t | t in s.tags && t !in req.ids :: s'.tags[t] == s.tags[t])
              && (forall t | t in s.tags && t in req.ids ::
                    && s'.tags[t].revision == s.tags[t].revision
                    && s'.tags[t].fields.status == req.status.GetOr(s.tags[t].fields.status)
                    && s'.tags[t].fields.loop == req.loop.GetOr(s.tags[t].fields.loop)
                    && s'.tags[t].fields.(status := s.tags[t].fields.status, loop := s.tags[t].fields.loop)
                       == s.tags[t].fields)
  {
    if req.loop.Some? && req.loop.value.Some? && req.loop.value.value !in s.loops then Err(UnknownLoop)
    else if req.status.None? && req.loop.None? then Err(NoFieldsToUpdate)
    else
      var tags := map t | t in s.tags :: if t in req.ids then BulkApply(s.tags[t], req) else s.tags[t];
      Ok((s.(tags := tags), |Matched(s, req.ids)|))
  }

  /** A status-only bulk update keeps a consistent store consistent. */
  lemma BulkStatusUpdatePreservesConsistent(s: E.Store, req: BulkRequest)
    requires E.Consistent(s) && req.loop.None? && BulkUpdate(s, req).Ok?
    ensures E.Consistent(BulkUpdate(s, req).value.0)
  {
    var s' := BulkUpdate(s, req).value.0;
    assert s'.nodes == s.nodes && s'.loops == s.loops && s'.types == s.types;
    forall t | t in s.tags
      ensures s'.tags[t].fields == s.tags[t].fields.(status := s'.tags[t].fields.status)
    {
    }
    forall t | t in s'.tags
      ensures E.TagPlaced(s', s'.tags[t].fields)
    {
      assert E.TagPlaced(s, s.tags[t].fields);
    }
    forall a, b | a in s'.tags && b in s'.tags && a != b && s'.tags[a].fields.unit == s'.tags[b].fields.unit
      ensures s'.tags[a].fields.tagNumber != s'.tags[b].fields.tagNumber
    {
      assert s'.tags[a].fields.tagNumber == s.tags[a].fields.tagNumber;
      assert s'.tags[b].fields.tagNumber == s.tags[b].fields.tagNumber;
    }
  }

  /** Two units of one area; loop 10 sits on unit 4 and tag 30, without a loop, on unit 3. */
  const TwoUnits: E.Store := E.Store(
    E.OneAreaTwoUnits,
    map[10 := E.Loop("FIC-201", E.Flow, "201", 4, "", true)],
    map[20 := E.InstrumentType("Flow transmitter", "FT", E.Transmitter, "", EmptyObject, EmptyObject, true)],
    map[30 := E.Tag(E.TagFields("FT-101", 3, None, 20, "", "", EmptyObject, E.Active), 1)])

  /** Put tag 30 into loop 10. */
  const JoinOtherUnitsLoop: BulkRequest := BulkRequest([30], None, Some(Some(10)))

  lemma TwoUnitsConsistent()
    ensures E.Consistent(TwoUnits)
  {
    E.OneAreaTwoUnitsValid();
    var s := TwoUnits;
    assert s.loops.Keys == {10} && s.tags.Keys == {30} && s.types.Keys == {20};
    assert E.TagPlaced(s, s.tags[30].fields);
  }

  /**
    Because the update skips `Tag.save`, moving a tag into a loop of another
    unit succeeds and leaves the store inconsistent.
  */
  lemma BulkLoopUpdateSkipsChecks()
    ensures E.Consistent(TwoUnits)
    ensures BulkUpdate(TwoUnits, JoinOtherUnitsLoop).Ok?
    ensures BulkUpdate(TwoUnits, JoinOtherUnitsLoop).value.1 == 1
    ensures !E.Consistent(BulkUpdate(TwoUnits, JoinOtherUnitsLoop).value.0)
  {
    TwoUnitsConsistent();
    var s := TwoUnits;
    assert Matched(s, JoinOtherUnitsLoop.ids) == {30};
    var after := BulkUpdate(s, JoinOtherUnitsLoop).value.0;
    assert after.tags[30].fields.loop == Some(10);
    assert !E.TagPlaced(after, after.tags[30].fields);
  }

  // ---------------------------------------------------------------------------
  // search
  // ---------------------------------------------------------------------------

  const SearchLimit: nat := 50

  /** A tag matches `q` when its number, service, description or loop tag contains it, ignoring case. */
  predicate Matches(s: E.Store, t: E.Tag, q: string) {
    || Strings.ContainsIgnoreCase(t.fields.tagNumber, q)
    || Strings.ContainsIgnoreCase(t.fields.service, q)
    || Strings.ContainsIgnoreCase(t.fields.description, q)
    || (t.fields.loop.Some? && t.fields.loop.value in s.loops
        && Strings.ContainsIgnoreCase(s.loops[t.fields.loop.value].loopTag, q))
  }

  /** The ids of the tags matching `q`. */
  function Hits(s: E.Store, q: string): (r: set<E.TagId>)
    ensures forall t :: t in r <==> t in s.tags && Matches(s, s.tags[t], q)
  {
    set t | t in s.tags && Matches(s, s.tags[t], q)
  }

  /** The ids of `order` that `keep` holds, in the order of `order`. */
  function Filter(order: seq<E.TagId>, keep: set<E.TagId>): (r: seq<E.TagId>)
    ensures |r| <= |order|
    ensures forall i | 0 <= i < |r| :: r[i] in keep && r[i] in order
    ensures forall i | 0 <= i < |order| :: order[i] in keep ==> order[i] in r
  {
    if |order| == 0 then []
    else
      var rest := Filter(order[1..], keep);
      assert forall i | 1 <= i < |order| :: order[i] == order[1..][i - 1];
      if order[0] in keep then [order[0]] + rest else rest
  }

  /** The matching ids of `order`, in that order. */
  function MatchingIds(s: E.Store, order: seq<E.TagId>, q: string): seq<E.TagId> {
    Filter(order, Hits(s, q))
  }

  lemma {:induction false} FilterSnoc(order: seq<E.TagId>, x: E.TagId, keep: set<E.TagId>)
    ensures Filter(order + [x], keep) == Filter(order, keep) + (if x in keep then [x] else [])
  {
    if |order| > 0 {
      assert (order + [x])[1..] == order[1..] + [x];
      FilterSnoc(order[1..], x, keep);
    }
  }

  /** Filtering a prefix of the order gives a prefix of the filtered order. */
  lemma {:induction false} FilterPrefix(order: seq<E.TagId>, i: nat, keep: set<E.TagId>)
    requires i <= |order|
    ensures Filter(order[..i], keep) <= Filter(order, keep)
    decreases |order| - i
  {
    if i < |order| {
      FilterPrefix(order, i + 1, keep);
      assert order[..i + 1] == order[..i] + [order[i]];
      FilterSnoc(order[..i], order[i], keep);
    } else {
      assert order[..i] == order;
    }
  }

  /**
    Filtering keeps the relative order: two kept ids, one before the other,
    sit at positions of `order` in the same relative order.
  */
  lemma {:induction false} FilterFollowsOrder(order: seq<E.TagId>, keep: set<E.TagId>, a: nat, b: nat)
    returns (i: nat, j: nat)
    requires a < b < |Filter(order, keep)|
    ensures i < j < |order|
    ensures order[i] == Filter(order, keep)[a] && order[j] == Filter(order, keep)[b]
  {
    var tail := order[1..];
    var rest := Filter(tail, keep);
    if order[0] in keep {
      assert Filter(order, keep) == [order[0]] + rest;
      if a == 0 {
        var k :| 0 <= k < |tail| && tail[k] == rest[b - 1];
        i, j := 0, k + 1;
      } else {
        var i', j' := FilterFollowsOrder(tail, keep, a - 1, b - 1);
        i, j := i' + 1, j' + 1;
      }
    } else {
      assert Filter(order, keep) == rest;
      var i', j' := FilterFollowsOrder(tail, keep, a, b);
      i, j := i' + 1, j' + 1;
    }
  }

  function Min(a: nat, b: nat): nat {
    if a <= b then a else b
  }

  /**
    `search`: an empty query is refused; otherwise the first fifty matching
    tags in the queryset's order. `order` is that order: every tag once,
    sorted by tag number.
  */
  method Search(s: E.Store, order: seq<E.TagId>, q: string) returns (r: Result<seq<E.TagId>, string>)
    ensures r.Err? <==> q == ""
    ensures r.Ok? ==> |r.value| <= SearchLimit
    ensures r.Ok? ==> forall i | 0 <= i < |r.value| :: r.value[i] in s.tags && Matches(s, s.tags[r.value[i]], q)
    ensures r.Ok? ==> r.value == MatchingIds(s, order, q)[..Min(SearchLimit, |MatchingIds(s, order, q)|)]
  {
    if q == "" {
      return Err("Query parameter 'q' is required");
    }
    var hits := Hits(s, q);
    var found: seq<E.TagId> := [];
    var i := 0;
    while i < |order| && |found| < SearchLimit
      invariant 0 <= i <= |order|
      invariant found == Filter(order[..i], hits)
      invariant |found| <= SearchLimit
    {
      assert order[..i + 1] == order[..i] + [order[i]];
      FilterSnoc(order[..i], order[i], hits);
      if order[i] in hits {
        found := found + [order[i]];
      }
      i := i + 1;
    }
    FilterPrefix(order, i, hits);
    if i == |order| {
      assert order[..i] == order;
    }
    forall k | 0 <= k < |found|
      ensures found[k] in s.tags && Matches(s, s.tags[found[k]], q)
    {
      assert found[k] in hits;
    }
    return Ok(found);
  }

  /**
    With `order` sorted by tag number, a matching tag left out of a search
    result means the result is full and every returned tag number sorts no
    later than the one left out.
  */
  lemma SearchKeepsSmallest(s: E.Store, order: seq<E.TagId>, q: string, result: seq<E.TagId>, x: E.TagId)
    requires forall i | 0 <= i < |order| :: order[i] in s.tags
    requires forall i, j | 0 <= i < j < |order| ::
               Strings.LexLessEq(s.tags[order[i]].fields.tagNumber, s.tags[order[j]].fields.tagNumber)
    requires result == MatchingIds(s, order, q)[..Min(SearchLimit, |MatchingIds(s, order, q)|)]
    requires x in order && Matches(s, s.tags[x], q) && x !in result
    ensures |result| == SearchLimit
    ensures forall y | y in result :: Strings.LexLessEq(s.tags[y].fields.tagNumber, s.tags[x].fields.tagNumber)
  {
    var all := MatchingIds(s, order, q);
    var k :| 0 <= k < |order| && order[k] == x;
    assert x in all;
    forall y | y in result
      ensures Strings.LexLessEq(s.tags[y].fields.tagNumber, s.tags[x].fields.tagNumber)
    {
      MatchingIdsOrdered(s, order, q, y, x, result);
    }
  }

  /** A returned id sorts no later than a matching id the result left out. */
  lemma MatchingIdsOrdered(s: E.Store, order: seq<E.TagId>, q: string, y: E.TagId, x: E.TagId, result: seq<E.TagId>)
    requires forall i | 0 <= i < |order| :: order[i] in s.tags
    requires forall i, j | 0 <= i < j < |order| ::
               Strings.LexLessEq(s.tags[order[i]].fields.tagNumber, s.tags[order[j]].fields.tagNumber)
    requires result == MatchingIds(s, order, q)[..Min(SearchLimit, |MatchingIds(s, order, q)|)]
    requires y in result && x in order && Matches(s, s.tags[x], q) && x !in result
    ensures Strings.LexLessEq(s.tags[y].fields.tagNumber, s.tags[x].fields.tagNumber)
  {
    var all := MatchingIds(s, order, q);
    var k :| 0 <= k < |order| && order[k] == x;
    assert x in all;
    var iy :| 0 <= iy < |result| && result[iy] == y;
    var ix :| 0 <= ix < |all| && all[ix] == x;
    assert ix >= |result|;
    var i, j := FilterFollowsOrder(order, Hits(s, q), iy, ix);
  }

  // ---------------------------------------------------------------------------
  // by_unit
  // ---------------------------------------------------------------------------

  datatype ByUnitError = MissingUnitId | NotANumber

  /**
    `by_unit`: a missing or empty `unit_id` is refused; text that is not an
    integer makes the lookup fail; otherwise exactly the tags on that unit.
  */
  function ByUnit(s: E.Store, unitId: Option<string>): (r: Result<set<E.TagId>, ByUnitError>)
    ensures r == Err(MissingUnitId) <==> unitId.None? || unitId == Some("")
    ensures r == Err(NotANumber) <==> unitId.Some? && unitId.value != "" && Strings.ParseInt(unitId.value).None?
    ensures r.Ok? <==> unitId.Some? && unitId.value != "" && Strings.ParseInt(unitId.value).Some?
    ensures r.Ok? ==> forall t :: t in r.value <==>
              t in s.tags && s.tags[t].fields.unit == Strings.ParseInt(unitId.value).value
  {
    if unitId.None? || unitId.value == "" then Err(MissingUnitId)
    else match Strings.ParseInt(unitId.value)
      case None => Err(NotANumber)
      case Some(u) => Ok(set t | t in s.tags && s.tags[t].fields.unit == u)
  }

  /** Asking by the decimal text of a unit id finds exactly that unit's tags. */
  lemma ByUnitOfId(s: E.Store, u: H.NodeId)
    ensures ByUnit(s, Some(Strings.IntToString(u))).Ok?
    ensures forall t :: t in ByUnit(s, Some(Strings.IntToString(u))).value <==> t in s.tags && s.tags[t].fields.unit == u
  {
    Strings.ParseIntOfIntToString(u);
  }
}

=== FILE: tenant_routing.dfy ===
/**
  Choosing the schema a request runs against. Admin and token endpoints use
  the public schema; every other request names its project in the
  `X-Project-ID` header, or uses the public schema when it names none.
*/
module TenantRouting {
  import opened Wrappers
  import Strings
  import T = Tenants

  /**
    Where a request goes, or the error response that ends it. A failure's
    text is the raised exception's, which is not modelled.
  */
  datatype Resolution =
    | Public
    | TenantOf(id: T.TenantId)
    | NotFound(message: string)
    | Failure

  const AdminPrefix: string := "/admin/"
  const TokenPrefix: string := "/api/token"

  predicate AlwaysPublic(path: string) {
    Strings.StartsWith(path, AdminPrefix) || Strings.StartsWith(path, TokenPrefix)
  }

  /**
    `HeaderBasedTenantMiddleware.process_request`. The header is looked up as
    a primary key, so text that is not an integer fails the lookup like any
    other error; `storageFails` stands for a failing database.
  */
  function Resolve(path: string, header: Option<string>, ts: T.Tenants, storageFails: bool): (r: Resolution)
    ensures AlwaysPublic(path) ==> r == Public
    ensures !AlwaysPublic(path) && (header.None? || header == Some("")) ==> r == Public
    ensures r.Public? <==> AlwaysPublic(path) || header.None? || header == Some("")
    ensures r.TenantOf? <==>
              && !AlwaysPublic(path) && header.Some? && header.value != ""
              && Strings.ParseInt(header.value).Some? && !storageFails
              && Strings.ParseInt(header.value).value in ts
    ensures r.TenantOf? ==> Some(r.id) == Strings.ParseInt(header.value) && r.id in ts
    ensures r.NotFound? <==>
              && !AlwaysPublic(path) && header.Some? && header.value != ""
              && Strings.ParseInt(header.value).Some? && !storageFails
              && Strings.ParseInt(header.value).value !in ts
    ensures r.NotFound? ==> r.message == "Project with ID " + header.value + " not found"
  {
    if AlwaysPublic(path) then Public
    else if header.None? || header.value == "" then Public
    else match Strings.ParseInt(header.value)
      case None => Failure
      case Some(id) =>
        if storageFails then Failure
        else if id in ts then TenantOf(id)
        else NotFound("Project with ID " + header.value + " not found")
  }

  /** A request naming an existing project by its id reaches exactly that project. */
  lemma ResolveById(path: string, ts: T.Tenants, id: T.TenantId)
    requires !AlwaysPublic(path) && id in ts
    ensures Resolve(path, Some(Strings.IntToString(id)), ts, false) == TenantOf(id)
  {
    Strings.ParseIntOfIntToString(id);
  }

  /** `int()` skips Unicode whitespace too: a no-break space before the id still selects the project. */
  lemma PaddedIdResolves(path: string, ts: T.Tenants)
    requires !AlwaysPublic(path) && 7 in ts
    ensures Resolve(path, Some("\U{A0}7\n"), ts, false) == TenantOf(7)
  {
    var header := "\U{A0}7\n";
    assert Strings.SkipLeading(header, 1, 3) == 1;
    assert Strings.SkipLeading(header, 0, 3) == 1;
    assert Strings.SkipTrailing(header, 1, 2) == 2;
    assert Strings.SkipTrailing(header, 1, 3) == 2;
    assert Strings.Strip(header) == header[1..2] == "7";
  }

  /** A named project never silently falls back to the public schema. */
  lemma NamedProjectNeverPublic(path: string, header: string, ts: T.Tenants, storageFails: bool)
    requires !AlwaysPublic(path) && header != ""
    ensures !Resolve(path, Some(header), ts, storageFails).Public?
  {
  }

  /** `TenantContextMiddleware`: `current_project` is the resolved tenant, if any. */
  function CurrentProject(ts: T.Tenants, r: Resolution): (p: Option<T.ProjectTenant>)
    requires r.TenantOf? ==> r.id in ts
    ensures p.Some? <==> r.TenantOf?
    ensures p.Some? ==> p.value == ts[r.id]
  {
    if r.TenantOf? then Some(ts[r.id]) else None
  }

  /**
    The `current` endpoint after both middlewares: a request naming an
    existing project by its id is answered with that project and no message.
  */
  lemma CurrentShowsNamedProject(path: string, ts: T.Tenants, id: T.TenantId)
    requires !AlwaysPublic(path) && id in ts
    ensures T.Current(CurrentProject(ts, Resolve(path, Some(Strings.IntToString(id)), ts, false)))
            == T.CurrentResponse(Some(ts[id]), None)
  {
    ResolveById(path, ts, id);
  }

  /**
    The `current` endpoint on a request the middleware routes to the public
    schema: no project, and the message saying so.
  */
  lemma CurrentWithoutProject(path: string, header: Option<string>, ts: T.Tenants, storageFails: bool)
    ensures var r := Resolve(path, header, ts, storageFails);
            (AlwaysPublic(path) || header.None? || header == Some("")) <==>
              r.Public?
    ensures var r := Resolve(path, header, ts, storageFails);
            r.Public? ==> T.Current(CurrentProject(ts, r)) == T.CurrentResponse(None, Some(T.NoProjectMessage))
  {
  }

  /** The request's user as `TenantContextMiddleware` sees it. */
  datatype RequestUser = Anonymous | Authenticated(organizationId: Option<T.OrganizationId>)

  /** `available_projects`: the projects of an authenticated user's organization, otherwise none. */
  function AvailableProjects(ts: T.Tenants, u: RequestUser): (r: set<T.TenantId>)
    ensures u.Anonymous? ==> r == {}
    ensures u.Authenticated? && (u.organizationId.None? || u.organizationId.value == 0) ==> r == {}
    ensures u.Authenticated? && u.organizationId.Some? && u.organizationId.value != 0 ==>
              forall t :: t in r <==> t in ts && ts[t].organizationId == u.organizationId.value
  {
    if u.Authenticated? && u.organizationId.Some? && u.organizationId.value != 0 then
      set t | t in ts && ts[t].organizationId == u.organizationId.value
    else {}
  }

  /**
    For a signed-in user who is not a superuser, the projects the middleware
    offers are the projects the tenant listing shows.
  */
  lemma AvailableMatchesListing(ts: T.Tenants, organizationId: Option<T.OrganizationId>)
    ensures AvailableProjects(ts, Authenticated(organizationId)) ==
            T.VisibleTenants(ts, T.Requester(false, organizationId))
  {
  }
}

=== FILE: tenants.dfy ===
/**
  Project tenants: every project lives in its own database schema whose name
  is derived once from the project number. Projects belong to organizations,
  and a user sees the projects of their organization.
*/
module Tenants {
  import opened Wrappers
  import Strings

  type TenantId = int
  type OrganizationId = int

  datatype ProjectStatus = ActiveProject | OnHold | Completed | Cancelled

  /** A project tenant. An empty `schemaName` means not yet assigned. */
  datatype ProjectTenant = ProjectTenant(
    name: string,
    projectNo: string,
    organizationId: OrganizationId,
    description: string,
    status: ProjectStatus,
    schemaName: string)

  type Tenants = map<TenantId, ProjectTenant>

  // ---------------------------------------------------------------------------
  // Schema-name derivation
  // ---------------------------------------------------------------------------

  /** One character of `project_no.lower().replace('-', '_').replace(' ', '_')`. */
  function SchemaChar(c: char): (r: char)
    ensures r != '-' && r != ' ' && !Strings.IsAsciiUpper(r)
    ensures Strings.IsAsciiDigit(r) <==> Strings.IsAsciiDigit(c)
  {
    var l := Strings.LowerChar(c);
    if l == '-' || l == ' ' then '_' else l
  }

  /** The lower-cased, substituted project number. */
  function Substituted(p: string): (t: string)
    ensures |t| == |p|
    ensures forall i | 0 <= i < |p| :: t[i] == SchemaChar(p[i])
  {
    seq(|p|, i requires 0 <= i < |p| => SchemaChar(p[i]))
  }

  const SchemaPrefix: string := "prj_"

  /** A name the derivation can produce: no dash, space or upper case, and no leading digit. */
  predicate IsSchemaName(r: string) {
    && |r| > 0
    && !Strings.IsAsciiDigit(r[0])
    && forall i | 0 <= i < |r| :: r[i] != '-' && r[i] != ' ' && !Strings.IsAsciiUpper(r[i])
  }

  /**
    Why saving a tenant fails: an empty project number cannot be indexed, the
    unique `project_no` and `schema_name` columns refuse a value another
    tenant holds, and a new tenant's schema is not created under a name
    PostgreSQL would not accept (the row is then deleted again).
  */
  datatype TenantError = EmptyProjectNo | DuplicateProjectNo | DuplicateSchemaName | InvalidSchemaName

  /**
    The schema name `ProjectTenant.save` derives from a project number; an
    empty number cannot be indexed and fails.
  */
  function DeriveSchemaName(p: string): (r: Result<string, TenantError>)
    ensures r.Err? <==> p == ""
    ensures r.Ok? ==> IsSchemaName(r.value)
    ensures r.Ok? ==> |r.value| == |p| || |r.value| == |p| + |SchemaPrefix|
    ensures r.Ok? ==> var offset := |r.value| - |p|;
              forall i | 0 <= i < |p| :: r.value[offset + i] == SchemaChar(p[i])
    ensures r.Ok? && |r.value| != |p| ==> r.value[..|SchemaPrefix|] == SchemaPrefix && Strings.IsAsciiDigit(p[0])
    ensures r.Ok? && |r.value| == |p| ==> !Strings.IsAsciiDigit(p[0])
  {
    if p == "" then Err(EmptyProjectNo)
    else
      var t := Substituted(p);
      if Strings.IsAsciiDigit(t[0]) then Ok(SchemaPrefix + t) else Ok(t)
  }

  /** A derived name derives to itself. */
  lemma DeriveSchemaNameIdempotent(p: string)
    requires p != ""
    ensures DeriveSchemaName(DeriveSchemaName(p).value) == DeriveSchemaName(p)
  {
    var r := DeriveSchemaName(p).value;
    assert forall i | 0 <= i < |r| :: SchemaChar(r[i]) == r[i];
    assert Substituted(r) == r;
  }

  /** Different project numbers can share a schema name. */
  lemma DeriveSchemaNameNotInjective()
    ensures DeriveSchemaName("A-1") == DeriveSchemaName("a_1") == Ok("a_1")
    ensures DeriveSchemaName("1") == DeriveSchemaName("prj_1") == Ok("prj_1")
  {
    assert Substituted("A-1") == "a_1";
    assert Substituted("a_1") == "a_1";
    assert Substituted("1") == "1";
    assert SchemaPrefix + "1" == "prj_1";
    assert Substituted("prj_1") == "prj_1";
  }

  // ---------------------------------------------------------------------------
  // Saving
  // ---------------------------------------------------------------------------

  predicate ProjectNoTaken(ts: Tenants, id: TenantId, p: string) {
    exists other | other in ts && other != id :: ts[other].projectNo == p
  }

  predicate SchemaNameTaken(ts: Tenants, id: TenantId, name: string) {
    exists other | other in ts && other != id :: ts[other].schemaName == name
  }

  const MaxSchemaNameLength: nat := 63

  /** A character of the class `[_a-zA-Z0-9]`. */
  predicate IdentifierChar(c: char) {
    c == '_' || ('a' <= c <= 'z') || Strings.IsAsciiUpper(c) || Strings.IsAsciiDigit(c)
  }

  /** The name starts with `pg_`, letters in either case: PostgreSQL reserves these. */
  predicate ReservedSchemaName(name: string) {
    && |name| >= 3
    && Strings.LowerChar(name[0]) == 'p' && Strings.LowerChar(name[1]) == 'g' && name[2] == '_'
  }

  /**
    The schema-name check django-tenants makes before creating a schema:
    the name matches `^[_a-zA-Z0-9]{1,63}$` and is not reserved. Python's
    `$` also matches just before a final newline, so one trailing newline
    passes.
  */
  predicate ValidSchemaName(name: string) {
    && 1 <= |MatchedPart(name)| <= MaxSchemaNameLength
    && (forall i | 0 <= i < |MatchedPart(name)| :: IdentifierChar(MatchedPart(name)[i]))
    && !ReservedSchemaName(name)
  }

  /** What `^...$` must match: the name without one trailing newline. */
  function MatchedPart(name: string): (r: string)
    ensures r == name || r + "\n" == name
  {
    if |name| > 0 && name[|name| - 1] == '\n' then name[..|name| - 1] else name
  }

  /** The schema name a save assigns: the one already set, or else the derived one. */
  function AssignedSchemaName(t: ProjectTenant): (r: Result<string, TenantError>)
    ensures r.Err? <==> t.schemaName == "" && t.projectNo == ""
    ensures t.schemaName != "" ==> r == Ok(t.schemaName)
    ensures t.schemaName == "" ==> r == DeriveSchemaName(t.projectNo)
  {
    if t.schemaName != "" then Ok(t.schemaName) else DeriveSchemaName(t.projectNo)
  }

  /** No two tenants share a project number (the column is unique). */
  predicate ProjectNosUnique(ts: Tenants) {
    forall a, b | a in ts && b in ts && a != b :: ts[a].projectNo != ts[b].projectNo
  }

  /**
    `ProjectTenant.save`: a schema name already set is kept; otherwise it is
    derived from the project number. The row is then written, and the unique
    columns refuse a project number or schema name another tenant holds
    (a clash on the number is reported first). Only for a new tenant is the
    schema then created, which refuses an invalid name.
  */
  function SaveTenant(ts: Tenants, id: TenantId, t: ProjectTenant): (r: Result<Tenants, TenantError>)
    ensures r == Err(EmptyProjectNo) <==> t.schemaName == "" && t.projectNo == ""
    ensures r == Err(DuplicateProjectNo) <==>
              (t.schemaName != "" || t.projectNo != "") && ProjectNoTaken(ts, id, t.projectNo)
    ensures r == Err(DuplicateSchemaName) <==>
              && AssignedSchemaName(t).Ok?
              && !ProjectNoTaken(ts, id, t.projectNo)
              && SchemaNameTaken(ts, id, AssignedSchemaName(t).value)
    ensures r == Err(InvalidSchemaName) <==>
              && AssignedSchemaName(t).Ok?
              && !ProjectNoTaken(ts, id, t.projectNo)
              && !SchemaNameTaken(ts, id, AssignedSchemaName(t).value)
              && id !in ts && !ValidSchemaName(AssignedSchemaName(t).value)
    ensures r.Ok? <==>
              && !(t.schemaName == "" && t.projectNo == "")
              && !ProjectNoTaken(ts, id, t.projectNo)
              && !SchemaNameTaken(ts, id, AssignedSchemaName(t).value)
              && (id in ts || ValidSchemaName(AssignedSchemaName(t).value))
    ensures r.Ok? ==> r.value.Keys == ts.Keys + {id}
    ensures r.Ok? ==> forall other | other in ts && other != id :: r.value[other] == ts[other]
    ensures r.Ok? ==> r.value[id].(schemaName := t.schemaName) == t
    ensures r.Ok? && t.schemaName != "" ==> r.value[id].schemaName == t.schemaName
    ensures r.Ok? && t.schemaName == "" ==> Ok(r.value[id].schemaName) == DeriveSchemaName(t.projectNo)
  {
    var schema :- AssignedSchemaName(t);
    if ProjectNoTaken(ts, id, t.projectNo) then Err(DuplicateProjectNo)
    else if SchemaNameTaken(ts, id, schema) then Err(DuplicateSchemaName)
    else if id !in ts && !ValidSchemaName(schema) then Err(InvalidSchemaName)
    else Ok(ts[id := t.(schemaName := schema)])
  }

  lemma SaveTenantPreservesUnique(ts: Tenants, id: TenantId, t: ProjectTenant)
    requires ProjectNosUnique(ts) && SaveTenant(ts, id, t).Ok?
    ensures ProjectNosUnique(SaveTenant(ts, id, t).value)
  {
  }

  /** No two tenants share a schema name (the column is unique). */
  predicate SchemaNamesUnique(ts: Tenants) {
    forall a, b | a in ts && b in ts && a != b :: ts[a].schemaName != ts[b].schemaName
  }

  lemma SaveTenantPreservesUniqueSchemas(ts: Tenants, id: TenantId, t: ProjectTenant)
    requires SchemaNamesUnique(ts) && SaveTenant(ts, id, t).Ok?
    ensures SchemaNamesUnique(SaveTenant(ts, id, t).value)
  {
  }

  /** Every new tenant a save admits has a schema PostgreSQL accepts. */
  lemma NewTenantSchemaValid(ts: Tenants, id: TenantId, t: ProjectTenant)
    requires id !in ts && SaveTenant(ts, id, t).Ok?
    ensures ValidSchemaName(SaveTenant(ts, id, t).value[id].schemaName)
  {
  }

  /** A dot survives the derivation, and PostgreSQL would not take the name. */
  lemma DottedProjectNoRefused()
    ensures SaveTenant(map[], 1, ProjectTenant("", "P.1", 1, "", ActiveProject, "")) == Err(InvalidSchemaName)
  {
    var dotted := "p.1";
    assert DeriveSchemaName("P.1") == Ok(dotted) by {
      assert Substituted("P.1") == dotted;
    }
    assert !ValidSchemaName(dotted) by {
      assert dotted[|dotted| - 1] == '1';
      assert MatchedPart(dotted) == dotted;
      assert !IdentifierChar(dotted[1]);
    }
  }

  /** A leading `PG-` becomes the reserved prefix `pg_`. */
  lemma ReservedPrefixRefused()
    ensures SaveTenant(map[], 1, ProjectTenant("", "PG-1", 1, "", ActiveProject, "")) == Err(InvalidSchemaName)
  {
    assert Substituted("PG-1") == "pg_1";
    var reserved := "pg_1";
    assert reserved[0] == 'p';
    assert DeriveSchemaName("PG-1") == Ok(reserved);
    assert ReservedSchemaName(reserved);
  }

  /** A plain number gets the `prj_` prefix and is accepted. */
  lemma NumericProjectNoAccepted()
    ensures SaveTenant(map[], 1, ProjectTenant("", "1", 1, "", ActiveProject, "")).Ok?
  {
    assert Substituted("1") == "1";
    var name := "prj_1";
    assert SchemaPrefix + "1" == name;
    assert DeriveSchemaName("1") == Ok(name);
    assert name[0] == 'p' && name[1] == 'r';
    assert !ReservedSchemaName(name);
    assert MatchedPart(name) == name;
    assert forall i | 0 <= i < |name| :: IdentifierChar(name[i]);
  }

  /**
    Once a tenant has a schema name, saving it again with a changed project
    number keeps that name.
  */
  lemma SchemaNameSticky(ts: Tenants, id: TenantId, t: ProjectTenant, newNo: string)
    requires SaveTenant(ts, id, t).Ok?
    requires var saved := SaveTenant(ts, id, t).value;
             SaveTenant(saved, id, saved[id].(projectNo := newNo)).Ok?
    ensures var saved := SaveTenant(ts, id, t).value;
            SaveTenant(saved, id, saved[id].(projectNo := newNo)).value[id].schemaName == saved[id].schemaName
  {
    var saved := SaveTenant(ts, id, t).value;
    assert saved[id].schemaName != "" by {
      if t.schemaName == "" {
        assert IsSchemaName(DeriveSchemaName(t.projectNo).value);
      }
    }
  }

  // ---------------------------------------------------------------------------
  // API layer
  // ---------------------------------------------------------------------------

  const DuplicateProjectNoMessage: string := "Project number already exists."

  /** `ProjectTenantCreateSerializer.validate_project_no`. */
  function ValidateProjectNo(ts: Tenants, value: string): (r: Result<string, string>)
    ensures r.Err? <==> ProjectNoHeld(ts, value)
    ensures r.Ok? ==> r.value == value
    ensures r.Err? ==> r.error == DuplicateProjectNoMessage
  {
    if exists t | t in ts :: ts[t].projectNo == value then Err(DuplicateProjectNoMessage) else Ok(value)
  }

  /** Whether some tenant, the new one included, already holds number `p`. */
  predicate ProjectNoHeld(ts: Tenants, p: string) {
    exists t | t in ts :: ts[t].projectNo == p
  }

  // The serializer field built from the `project_no` column: a character
  // field that strips surrounding whitespace, refuses a blank value, and
  // carries the column's length limit and its uniqueness check.
  const ProjectNoMaxLength: nat := 50
  const BlankMessage: string := "This field may not be blank."
  const RequiredMessage: string := "This field is required."
  const ProjectNoTooLongMessage: string := "Ensure this field has no more than 50 characters."
  const ProjectNoUniqueMessage: string := "Project Tenant with this project no already exists."

  /**
    The errors reported for `project_no`: the field's own checks on the
    stripped value (blank first; otherwise every failing validator, the
    uniqueness check before the length limit), and only when those pass,
    `validate_project_no`.
  */
  function ProjectNoErrors(ts: Tenants, raw: string): (r: seq<string>)
    ensures r == [] <==>
              var p := Strings.Strip(raw);
              p != "" && |p| <= ProjectNoMaxLength && !ProjectNoHeld(ts, p)
    ensures Strings.Strip(raw) == "" ==> r == [BlankMessage]
    ensures Strings.Strip(raw) != "" ==> (ProjectNoUniqueMessage in r <==> ProjectNoHeld(ts, Strings.Strip(raw)))
    ensures Strings.Strip(raw) != "" ==> (ProjectNoTooLongMessage in r <==> |Strings.Strip(raw)| > ProjectNoMaxLength)
    ensures DuplicateProjectNoMessage !in r
  {
    var p := Strings.Strip(raw);
    if p == "" then [BlankMessage]
    else
      var field := (if ProjectNoHeld(ts, p) then [ProjectNoUniqueMessage] else [])
                   + (if |p| > ProjectNoMaxLength then [ProjectNoTooLongMessage] else []);
      if field != [] then field
      else match ValidateProjectNo(ts, p)
        case Ok(_) => []
        case Err(m) => [m]
  }

  /**
    The fields a client may send on create. `schema_name` is not among them,
    and `organization_id` may be left out.
  */
  datatype CreateInput = CreateInput(
    projectNo: string,
    name: string,
    organizationId: Option<OrganizationId>,
    description: string,
    status: ProjectStatus)

  /** A rejected create: field errors (per field, as the serializer reports them), or a failed save. */
  datatype CreateError =
    | InvalidFields(projectNo: seq<string>, organizationId: seq<string>)
    | MissingOrganization
    | SaveFailed(error: TenantError)

  /**
    Create a tenant with `organization_id` optional, as the view's fill-in
    intends (see `PerformCreateAsWritten` for the serializer as declared):
    the project number is validated, a missing organization is taken from
    the requesting user (a user without one leaves the column empty, which
    the database refuses), and the save derives the schema name from the
    stripped number and creates the schema, which refuses a taken or
    invalid name.
  */
  function PerformCreate(ts: Tenants, newId: TenantId, input: CreateInput, userOrganization: Option<OrganizationId>)
    : (r: Result<Tenants, CreateError>)
    requires newId !in ts
    ensures r.Err? && r.error.InvalidFields? <==> ProjectNoErrors(ts, input.projectNo) != []
    ensures r.Err? && r.error.InvalidFields? ==> r.error == InvalidFields(ProjectNoErrors(ts, input.projectNo), [])
    ensures r == Err(MissingOrganization) <==>
              ProjectNoErrors(ts, input.projectNo) == [] && input.organizationId.None? && userOrganization.None?
    ensures r.Err? && r.error.SaveFailed? <==>
              && ProjectNoErrors(ts, input.projectNo) == []
              && (input.organizationId.Some? || userOrganization.Some?)
              && !DerivedSchemaUsable(ts, newId, Strings.Strip(input.projectNo))
    ensures r.Err? && r.error.SaveFailed? ==>
              r.error.error == DuplicateSchemaName || r.error.error == InvalidSchemaName
    ensures r.Ok? <==>
              && ProjectNoErrors(ts, input.projectNo) == []
              && (input.organizationId.Some? || userOrganization.Some?)
              && DerivedSchemaUsable(ts, newId, Strings.Strip(input.projectNo))
    ensures r.Ok? ==> r.value.Keys == ts.Keys + {newId}
    ensures r.Ok? ==> forall other | other in ts :: r.value[other] == ts[other]
    ensures r.Ok? ==> r.value[newId].projectNo == Strings.Strip(input.projectNo)
    ensures r.Ok? ==> r.value[newId].name == Strings.Strip(input.name)
                      && r.value[newId].description == Strings.Strip(input.description)
                      && r.value[newId].status == input.status
    ensures r.Ok? ==> input.organizationId.Some? ==> r.value[newId].organizationId == input.organizationId.value
    ensures r.Ok? ==> input.organizationId.None? ==> Some(r.value[newId].organizationId) == userOrganization
    ensures r.Ok? ==> Ok(r.value[newId].schemaName) == DeriveSchemaName(Strings.Strip(input.projectNo))
  {
    var errors := ProjectNoErrors(ts, input.projectNo);
    if errors != [] then Err(InvalidFields(errors, []))
    else
      var organization := if input.organizationId.Some? then input.organizationId else userOrganization;
      if organization.None? then Err(MissingOrganization)
      else
        var t := ProjectTenant(Strings.Strip(input.name), Strings.Strip(input.projectNo), organization.value,
                               Strings.Strip(input.description), input.status, "");
        SaveTenant(ts, newId, t).MapFailure(e => SaveFailed(e))
  }

  /**
    Create as declared: the serializer builds `organization_id` from a
    column with no default, so the field is required and a request without
    it fails validation before the view's fill-in can run.
  */
  function PerformCreateAsWritten(ts: Tenants, newId: TenantId, input: CreateInput, userOrganization: Option<OrganizationId>)
    : (r: Result<Tenants, CreateError>)
    requires newId !in ts
    ensures input.organizationId.None? ==>
              r == Err(InvalidFields(ProjectNoErrors(ts, input.projectNo), [RequiredMessage]))
    ensures input.organizationId.Some? ==> r == PerformCreate(ts, newId, input, userOrganization)
  {
    var errors := ProjectNoErrors(ts, input.projectNo);
    if input.organizationId.None? then Err(InvalidFields(errors, [RequiredMessage]))
    else PerformCreate(ts, newId, input, userOrganization)
  }

  /** As declared, the requesting user's organization is never used: a create without one always fails. */
  lemma OrganizationFillInUnreachable(ts: Tenants, newId: TenantId, p: string, name: string, userOrganization: OrganizationId)
    requires newId !in ts && p != "" && |p| <= ProjectNoMaxLength && !ProjectNoHeld(ts, p)
    requires Strings.Strip(p) == p
    ensures var input := CreateInput(p, name, None, "", ActiveProject);
            && PerformCreateAsWritten(ts, newId, input, Some(userOrganization)) == Err(InvalidFields([], [RequiredMessage]))
            && (PerformCreate(ts, newId, input, Some(userOrganization)).Ok? <==> DerivedSchemaUsable(ts, newId, p))
            && (PerformCreate(ts, newId, input, Some(userOrganization)).Ok? ==>
                  PerformCreate(ts, newId, input, Some(userOrganization)).value[newId].organizationId == userOrganization)
  {
  }

  /**
    The uniqueness check on the column runs before `validate_project_no`
    and refuses the same numbers, so that hook's own message never reaches
    a client: a duplicate is reported with the unique-field message.
  */
  lemma DuplicateReportedByUniqueField(ts: Tenants, newId: TenantId, input: CreateInput, userOrganization: Option<OrganizationId>)
    requires newId !in ts
    requires Strings.Strip(input.projectNo) != "" && ProjectNoHeld(ts, Strings.Strip(input.projectNo))
    ensures var r := PerformCreate(ts, newId, input, userOrganization);
            && r.Err? && r.error.InvalidFields?
            && ProjectNoUniqueMessage in r.error.projectNo
            && DuplicateProjectNoMessage !in r.error.projectNo
  {
  }

  /** A new tenant numbered `p` gets a derived schema name that is free and valid. */
  predicate DerivedSchemaUsable(ts: Tenants, id: TenantId, p: string) {
    && DeriveSchemaName(p).Ok?
    && !SchemaNameTaken(ts, id, DeriveSchemaName(p).value)
    && ValidSchemaName(DeriveSchemaName(p).value)
  }

  /**
    A number `validate_project_no` accepts never trips the unique
    `project_no` column: the save then fails only over the derived schema
    name.
  */
  lemma ValidatedProjectNoSaves(ts: Tenants, newId: TenantId, t: ProjectTenant)
    requires newId !in ts && t.projectNo != "" && t.schemaName == ""
    requires ValidateProjectNo(ts, t.projectNo).Ok?
    ensures SaveTenant(ts, newId, t) != Err(DuplicateProjectNo)
    ensures SaveTenant(ts, newId, t).Ok? <==> DerivedSchemaUsable(ts, newId, t.projectNo)
  {
  }

  /** The requesting user, as far as project visibility is concerned. */
  datatype Requester = Requester(isSuperuser: bool, organizationId: Option<OrganizationId>)

  /** Python truthiness of `user.organization_id`: set and non-zero. */
  predicate HasOrganization(u: Requester) {
    u.organizationId.Some? && u.organizationId.value != 0
  }

  /** `ProjectTenantViewSet.get_queryset`. */
  function VisibleTenants(ts: Tenants, u: Requester): (r: set<TenantId>)
    ensures u.isSuperuser ==> r == ts.Keys
    ensures !u.isSuperuser && HasOrganization(u) ==>
              forall t :: t in r <==> t in ts && ts[t].organizationId == u.organizationId.value
    ensures !u.isSuperuser && !HasOrganization(u) ==> r == {}
  {
    if u.isSuperuser then ts.Keys
    else if HasOrganization(u) then set t | t in ts && ts[t].organizationId == u.organizationId.value
    else {}
  }

  /** `get_organization_name`: the organization's name, or nothing when no organization has the id. */
  function OrganizationName(organizations: map<OrganizationId, string>, t: ProjectTenant): (r: Option<string>)
    ensures r.Some? <==> t.organizationId in organizations
    ensures r.Some? ==> r.value == organizations[t.organizationId]
  {
    if t.organizationId in organizations then Some(organizations[t.organizationId]) else None
  }

  /**
    A project a user who is not a superuser can see belongs to that user's
    organization, so its organization name is that organization's name, or
    nothing when no organization has that id.
  */
  lemma VisibleTenantNamesOwnOrganization(ts: Tenants, organizations: map<OrganizationId, string>, u: Requester, t: TenantId)
    requires !u.isSuperuser && t in VisibleTenants(ts, u)
    ensures t in ts && u.organizationId.Some? && ts[t].organizationId == u.organizationId.value
    ensures u.organizationId.value in organizations ==>
              OrganizationName(organizations, ts[t]) == Some(organizations[u.organizationId.value])
    ensures u.organizationId.value !in organizations ==> OrganizationName(organizations, ts[t]) == None
  {
  }

  const NoProjectMessage: string := "No project selected (using public schema)"

  datatype CurrentResponse = CurrentResponse(project: Option<ProjectTenant>, message: Option<string>)

  /** `current`: the request's tenant, or a null project with a message. */
  function Current(tenant: Option<ProjectTenant>): (r: CurrentResponse)
    ensures r.project == tenant
    ensures r.message.Some? <==> tenant.None?
    ensures r.message.Some? ==> r.message.value == NoProjectMessage
  {
    if tenant.Some? then CurrentResponse(tenant, None) else CurrentResponse(None, Some(NoProjectMessage))
  }
}

=== FILE: wrappers.dfy ===
/** Failure-carrying values shared by every module of the model. */
module Wrappers {

  /** A value that may be absent: Python's `None`, a nullable foreign key, a missing query parameter. */
  datatype Option<+T> = None | Some(value: T) {

    /** The wrapped value, or `default` when there is none. */
    function GetOr(default: T): T {
      match this
      case Some(v) => v
      case None => default
    }
  }

  /** The outcome of an operation that either produces a value or reports why it refused. */
  datatype Result<+R, +E> = Ok(value: R) | Err(error: E) {

    predicate IsFailure() {
      Err?
    }

    function PropagateFailure<U>(): Result<U, E>
      requires Err?
    {
      Err(error)
    }

    function Extract(): R
      requires Ok?
    {
      value
    }

    /** The same outcome with the reason for a refusal translated by `f`. */
    function MapFailure<E2>(f: E -> E2): Result<R, E2> {
      match this
      case Ok(v) => Ok(v)
      case Err(e) => Err(f(e))
    }
  }
}
